=== FILE: README.md ===
# Hotel booking: a Dafny model

This project models the core of a Flask and MongoDB hotel booking
application and proves properties of it. The main part is the booking
engine in `models/booking.py`:

- the availability test and its three-clause conflict query;
- booking creation behind an ordered guard chain;
- owner-scoped cancellation;
- the admin status override;
- statistics and revenue;
- the price function;
- the joined, sorted read paths.

Around it sit the room catalog (`models/room.py`), the user registry
(`models/user.py`), the hotel-location service (`models/location.py`), the
route handlers that validate requests and gate access (`routes/*.py`), and
the validators in `utils/helpers.py`.

Each collection is a sequence of immutable records in insertion order, so
`find_one` and `update_one` act on the first match. Every operation is a pure
function from a store to a result and a new store, or a method where a loop
computes the result. Dates are integer day numbers. "Today" and "now" are
parameters. The password hash and check, the Google web-service calls and
the clock are function parameters too. A value that the request may lack
or may fail to convert is `Blank`, `Invalid` or `Value(v)`. An identifier
that does not parse as an ObjectId is `Malformed`.

Modules, by source file:

| module | file | models |
|---|---|---|
| `Common` | common.dfy | options, results, ids, form values, the session |
| `Text` | text.dfy | `strip`, `lower`, `title`, `replace`, `str(int)`, string order |
| `Sorting` | sorting.dfy | filter and stable sort by key |
| `Users` | users.dfy | `models/user.py` |
| `Rooms` | rooms.dfy | `models/room.py` |
| `Bookings` | bookings.dfy | `models/booking.py`: availability, create, cancel, status update |
| `BookingInvariant` | booking_invariant.dfy | the no-double-booking invariant across operations |
| `BookingQueries` | booking_queries.dfy | `models/booking.py`: price, read paths, statistics |
| `Helpers` | helpers.dfy | `utils/helpers.py` and the gates of `routes/main.py` |
| `MainRoutes` | main_routes.dfy | `routes/main.py` |
| `AuthRoutes` | auth_routes.dfy | `routes/auth.py` |
| `BookingRoutes` | booking_routes.dfy | `routes/booking.py` |
| `RoomRoutes` | room_routes.dfy | `routes/room.py` |
| `Location` | location.dfy | `models/location.py` |
| `LocationRoutes` | location_routes.dfy | `routes/location.py` |

Two facts about the code that a reader might not expect:

- The booking price is `room price × nights` with no rounding to cents.
- The admin "delete booking" route does not remove the record. It cancels
  the booking under the ordinary cancellation rules.

Where the code has a defect (see "## Findings"), the route is modelled as
written and the corrected version sits next to it under its own name.

## Model

| member | source | states |
|---|---|---|
| Text.LowerIsLower | models/user.py:31 | lowercasing an email gives a lowercase string, is idempotent, and leaves a lowercase email as it is |
| Text.Strip | routes/room.py:46 | the stripped text is an infix of the input, starts and ends with non-whitespace, and is empty iff the input is all whitespace |
| Text.StripRemovesOnlySpace | routes/room.py:46 | the stripped text starts after the leading whitespace, and everything removed before and after it is whitespace |
| Text.TitleThenLower | models/location.py:145 | title-casing changes only letter case |
| Text.ReplaceCharRoundTrip | models/location.py:145 | replacing underscores by spaces leaves no underscore, and is undone by the reverse replacement when the text had no space |
| Text.NatToStringRoundTrip | models/location.py:322 | the decimal digits of a number read back as that number |
| Text.StrLessTotal | routes/room.py:159 | the string order used to sort the amenity list is total |
| Helpers.AcceptsPlainAddress | utils/helpers.py:30-31 | `guest@hotel.com` is accepted |
| RoomRoutes.StripAllConcat | routes/room.py:46 | stripping a list works entry by entry, so it distributes over concatenation |
| LocationRoutes.PhotoDefaultWidth | routes/location.py:146 | a blank width and an unparseable width give the same link |
| Bookings.ParseStatusRoundTrip | models/booking.py:262-264 | the four status names are exactly the accepted ones: each parses back to its status, and a parsed name is the status's name |
| Bookings.IsRoomAvailable | models/booking.py:62-106 | a room is available iff the id parses and no stored booking of that room that is pending or confirmed meets any of the three conflict clauses; a malformed id fails closed |
| Bookings.ConflictIffOverlap | models/booking.py:84-100 | for non-empty stored and requested ranges the three-clause test is exactly half-open interval intersection |
| Bookings.OverlapImpliesConflict | models/booking.py:84-100 | every half-open overlap is caught by the three-clause test, with no condition on the ranges |
| Bookings.TouchingRangesDoNotConflict | models/booking.py:84-100 | a stay that starts the day another ends, or ends the day another starts, never conflicts |
| Bookings.ReversedRequestConflictsWithoutOverlap | models/booking.py:84-100 | with a reversed request the clauses and half-open overlap part ways, so the equivalence needs both ranges non-empty |
| Bookings.AvailableIffNoOverlap | models/booking.py:81-103 | for well-formed ranges, available iff no active booking of the room overlaps the request; cancelled and completed bookings never block |
| Bookings.ConflictCountZero | models/booking.py:81-103 | the conflicting count is zero iff no stored booking blocks the request |
| Bookings.CreateBooking | models/booking.py:16-60 | guards in order (range, past check-in, availability), each failing with its own error and leaving the store unchanged; a request passing all three succeeds, and success appends exactly one booking with a fresh id |
| Bookings.CreateBookingRecord | models/booking.py:44-58 | the created record is pending, without payment id, with the caller's price, room, user and dates, stamped now |
| Bookings.FindBooking | models/booking.py:290-295 | the owner-scoped lookup finds the first booking with the id (and the owner, when one is given), and nothing iff none matches |
| Bookings.CancelBooking | models/booking.py:286-328 | checks in order: lookup, already cancelled, completed, check-in not after today; only a passing active booking is cancelled and stamped, and every failure leaves the store unchanged |
| Bookings.CancelBookingFrame | models/booking.py:313-322 | a successful cancel changes exactly one record, only in status and update time, and that record is the caller's when an owner is given |
| Bookings.CancelTwiceFails | models/booking.py:299-300 | cancelling the same booking again reports it already cancelled |
| Bookings.UpdateBookingStatus | models/booking.py:260-284 | an unknown status is refused before the store is read; success iff the id's first record would change; only that record is overwritten |
| Bookings.UpdateStatusIgnoresTransitions | models/booking.py:262-278 | there is no transition graph: a cancelled or completed booking can be set back to pending |
| Bookings.UpdateStatusPaymentId | models/booking.py:267-273 | the payment id is overwritten only by a non-empty value; dates, price and room are kept |
| BookingInvariant.CreatedBookingIsIsolated | models/booking.py:41-58 | a created booking overlaps no active booking of its room |
| BookingInvariant.CreatePreservesNoDoubleBooking | models/booking.py:34-58 | creation keeps the store free of overlapping active bookings of one room |
| BookingInvariant.CreatePreservesWellFormed | models/booking.py:34-58 | creation keeps ids unique and every stored range non-empty |
| BookingInvariant.CancelPreservesNoDoubleBooking | models/booking.py:286-322 | cancellation keeps the store free of double bookings |
| BookingInvariant.CancelPreservesWellFormed | models/booking.py:286-322 | cancellation keeps ids unique and ranges non-empty |
| BookingInvariant.UpdateStatusBreaksNoDoubleBooking | models/booking.py:260-278 | for any confirmed booking and an overlapping cancelled booking of the same room, setting the cancelled one back to pending is accepted and leaves two overlapping active bookings |
| BookingInvariant.UpdateStatusPreservesWellFormed | models/booking.py:260-278 | a status update keeps ids unique and ranges non-empty |
| BookingInvariant.RunPreservesInvariant | models/booking.py:16-328 | any sequence of creates and cancels, each made on its own day, keeps the store well formed and free of double bookings |
| BookingInvariant.OverlapScenario | models/booking.py:34-42 | a stay overlapping a confirmed one is refused, and one starting on its check-out day is accepted |
| BookingQueries.CalculateBookingPrice | models/booking.py:362-370 | the price is rate times nights for a forward range and zero for an empty or reversed one, so never negative for a non-negative rate |
| BookingQueries.PricePositiveIffValidRange | models/booking.py:369-370 | for a positive rate the price is positive iff check-out is after check-in |
| BookingQueries.PriceAdditive | models/booking.py:369-370 | the price of a stay is the sum of the prices of its two halves |
| BookingQueries.View | models/booking.py:145-146 | a listed booking carries nights = check-out minus check-in and guests = room capacity, 1 when unset |
| BookingQueries.RoomOf | models/booking.py:113-119 | the room lookup finds a room with the id iff one exists |
| BookingQueries.UserOf | models/booking.py:162-167 | the user lookup only returns a user with the id |
| BookingQueries.JoinRooms | models/booking.py:113-119 | the room join keeps exactly the bookings whose room exists, each paired with its room |
| BookingQueries.JoinRoomsIsFilter | models/booking.py:113-119 | the room join is a filter of the bookings in their order |
| BookingQueries.JoinRoomsAndUsers | models/booking.py:155-169 | the admin join keeps exactly the bookings whose room and user both exist, with the user's public fields |
| BookingQueries.JoinRoomsAndUsersIsFilter | models/booking.py:155-169 | the admin join is a filter of the bookings in their order |
| BookingQueries.BookingsOfPermutation | models/booking.py:120 | re-ordering the joined views lists the same bookings the same number of times |
| Sorting.InsertSorted | models/room.py:42 | inserting into a sorted sequence keeps it sorted |
| Sorting.SortBy | models/room.py:42 | the sort is a permutation of its input in non-decreasing key order |
| Sorting.FilterConcat | models/room.py:40-42 | a filter distributes over concatenation, so it keeps relative order |
| BookingQueries.SortNewestFirst | models/booking.py:120 | the sort is a permutation ordered by creation time, newest first |
| BookingQueries.GetUserBookings | models/booking.py:108-150 | a malformed user id fails; otherwise the result is newest first and lists the user's bookings whose room exists, each as often as it is stored, with nights and guests derived |
| BookingQueries.GetAllBookings | models/booking.py:152-203 | the bookings whose room and user exist, each as often as it is stored, newest first, with the user's public fields |
| BookingQueries.GetBookingById | models/booking.py:205-258 | a malformed id fails; a found booking has the id and comes with its room and user; not found means no such booking with both room and user |
| BookingQueries.GetBookingStats | models/booking.py:330-360 | the loop computes the total, the four per-status counts and the revenue of confirmed and completed bookings |
| BookingQueries.StatusCountsSumToTotal | models/booking.py:333-337 | the four status counts add up to the total |
| BookingQueries.RevenueBounds | models/booking.py:339-346 | revenue is 0 when nothing is confirmed or completed, and non-negative for non-negative prices |
| BookingQueries.StatsScenario | models/booking.py:339-346 | only confirmed and completed bookings count towards revenue |
| Users.Public | models/booking.py:180-181 | the joined user keeps id, name, email and role, and drops the password hash |
| Users.FindFirst | models/user.py:26 | `find_one` finds the first matching user, and nothing iff none matches |
| Users.CreateUserAsWritten | models/user.py:23-41 | the written duplicate check compares the raw email, while the record stores it lowercased |
| Users.CreateUserAsWrittenDuplicates | models/user.py:26-31 | registering `A@x.io` next to `a@x.io` succeeds and leaves two accounts with one email |
| Users.CreateUser | models/user.py:26-31 | the corrected `create_user`: creation fails iff the lowercased email is taken, and otherwise appends one record with a fresh id |
| Users.CreateUserKeepsEmailsUnique | models/user.py:26-31 | the corrected creation keeps stored emails unique and lowercase |
| Users.CreateUserStoresHash | models/user.py:29-35 | in the code as written and in the corrected version, the record holds the lowercased email, the name, the role and the password's hash only |
| Users.AuthenticateUser | models/user.py:43-51 | success iff the first record with the lowercased email passes the hash check; unknown email and wrong password fail alike |
| Users.AuthenticateUniqueAccount | models/user.py:43-51 | with unique emails, login succeeds iff the password checks against that account, and returns it |
| Users.GetUserById | models/user.py:53-62 | a user is found iff the id parses and a record has it |
| Users.CreateAdminUser | models/user.py:64-73 | the admin account is created only when no admin exists; with none, creation succeeds iff `admin@hotel.com` is not stored, and appends the `Admin` account with the admin role and the hash of `admin123` |
| Users.CreateAdminUserIdempotent | models/user.py:64-73 | a second call writes nothing |
| Rooms.FindRoom | models/room.py:52 | the first room with the id, and nothing iff none has it |
| Rooms.GetRoomById | models/room.py:49-58 | a room is found iff the id parses and a room has it |
| Rooms.GetStoredRoom | models/room.py:49-58 | with unique ids, looking up a stored room's id finds that room |
| Rooms.CreateRoom | models/room.py:16-36 | one room is appended with a fresh id, available, amenities `[]` and image `''` by default |
| Rooms.GetAllRooms | models/room.py:38-47 | the listing is a permutation of the (available) rooms sorted by price ascending |
| Rooms.CreateRoomThenGet | models/room.py:16-36 | with unique ids before, ids stay unique and the new id reads back the room just appended |
| Rooms.UpdateRoom | models/room.py:60-90 | success iff the room exists and the patch changes it; only that room is rewritten |
| Rooms.ApplyPatchFrame | models/room.py:63-79 | exactly the given fields change, plus the update time |
| Rooms.DeleteRoom | models/room.py:92-100 | success iff the id parses and a room has it; one room goes and the others stay |
| Rooms.DeleteRoomRemovesId | models/room.py:95-98 | with unique ids, no room has the id afterwards |
| Rooms.SearchRooms | models/room.py:102-125 | the result is a permutation of the matching rooms sorted by price |
| Rooms.SearchRoomsResultsMatch | models/room.py:105-117 | every result is available, within the given price bounds and capacity, and shares an amenity when some are asked for |
| Rooms.SearchWithoutFilters | models/room.py:105-117 | without filters the search lists exactly the available rooms |
| Rooms.GetRoomCount | models/room.py:127-134 | total is the number of rooms and available the number of available ones, never more |
| Rooms.CountAvailableIsFilter | models/room.py:131 | the available count is the size of the available-only filter |
| Rooms.CreateSampleRooms | models/room.py:136-187 | all five sample rooms are created, appended in order, available |
| Helpers.LoginRequired | utils/helpers.py:4-12 | the page runs, for the session's user, iff a user id is in the session |
| Helpers.AdminRequired | utils/helpers.py:14-25 | anonymous visitors go to login, non-admin users to the dashboard, admins to the page |
| Helpers.AdminGateRefinesLoginGate | routes/main.py:12-31 | whatever passes the admin gate passes the login gate with the same page |
| Helpers.FullMatchIffPattern | utils/helpers.py:30 | the matcher accepts exactly the strings that split into local part, `@`, domain, dot and a letter-only top-level domain of two or more letters |
| Helpers.ValidateEmail | utils/helpers.py:27-31 | accepted iff the string is one instance of the pattern, or one followed by a single final newline |
| Helpers.ValidEmailShape | utils/helpers.py:30 | an accepted email has exactly one `@`, not at the start, and no whitespace except the final newline |
| Helpers.AcceptsTrailingNewline | utils/helpers.py:30-31 | `guest@hotel.com` followed by a newline is accepted |
| Helpers.RejectsShortTopLevelDomain | utils/helpers.py:30 | a one-letter top-level domain is refused |
| Helpers.RejectsTwoAts | utils/helpers.py:30 | a second `@` is refused |
| Helpers.RejectsEmpty | utils/helpers.py:30-31 | the empty string is refused |
| Helpers.ValidatePassword | utils/helpers.py:33-35 | an accepted password is not empty |
| MainRoutes.RecentBookings | routes/main.py:43-44 | the first three entries (or all, if fewer) of the user's booking listing, each the user's own, and none when the listing fails |
| MainRoutes.RecentAreNewest | routes/main.py:43-44 | a booking left out is no newer than any shown, and fewer than three are shown only when none is left out |
| MainRoutes.FirstThreeAreNewest | routes/main.py:43-44 | in a newest-first listing, an entry outside the first three is no newer than any of them |
| MainRoutes.Dashboard | routes/main.py:37-46 | behind the login gate, the user record and the recent bookings |
| MainRoutes.AdminDashboard | routes/main.py:48-64 | behind the admin gate, the room counts of `get_room_count`, and each status count, the total and the revenue equal the independent per-status counts and revenue of the store, which add up to the total |
| AuthRoutes.Register | routes/auth.py:8-37 | checks in order: all fields, matching passwords, length; a passing form creates a client account iff no stored email equals the email as typed |
| AuthRoutes.RegisterAdmitsCaseDuplicate | routes/auth.py:28-29 | the route registers `A@x.io` next to `a@x.io`, leaving two accounts with one email |
| AuthRoutes.RegisterCorrected | routes/auth.py:8-37 | the same checks with the corrected creation: a passing form registers iff its lowercased email is free |
| AuthRoutes.RegisterKeepsEmailsUnique | routes/auth.py:28-29 | the corrected registration keeps stored emails unique and lowercase |
| AuthRoutes.RegisterAgreesOnLowerEmail | routes/auth.py:28-29 | for an email typed in lower case, the route as written and the corrected one give the same reply and registry |
| AuthRoutes.Login | routes/auth.py:40-67 | empty fields fail before authentication; success stores id, name and role and goes to the admin dashboard iff the role is admin; failure leaves the session alone |
| AuthRoutes.LoginOpensGates | routes/auth.py:53-63 | after login the login gate opens, and the admin gate opens iff login went to the admin dashboard |
| AuthRoutes.Logout | routes/auth.py:70-73 | the session is emptied |
| AuthRoutes.LogoutClosesGates | routes/auth.py:70-73 | after logout both gates send the visitor to login |
| BookingRoutes.BookRoom | routes/booking.py:11-21 | the booking form is shown iff the room exists |
| BookingRoutes.CreateBookingRoute | routes/booking.py:23-70 | a form with no `room_id` field, or a well-formed request naming an unknown room, ends in a server error (the redirect cannot be built), writing nothing; every other request is answered as by the corrected route |
| BookingRoutes.MissingRoomFieldCrashes | routes/booking.py:27-34 | without a `room_id` field the route as written crashes whatever the dates, an empty `room_id` gets "All fields are required", and the corrected route answers both with the missing-fields redirect |
| BookingRoutes.CreateBookingRouteCorrected | routes/booking.py:23-70 | missing fields, bad dates, an unknown room (back to the catalog), a non-positive total or a refused create write nothing; a created booking is priced rate times nights, in range and available |
| BookingRoutes.UnknownRoomCrashes | routes/booking.py:44-47 | on an empty catalog a request for room 7 crashes as written and goes back to the catalog when corrected |
| BookingRoutes.CreateRoutePricesPositive | routes/booking.py:50-54 | every booking the route creates has a positive total |
| BookingRoutes.CreateRouteNeverReachesEngineDateCheck | routes/booking.py:50-57 | the route's total check means the engine's range check never fires |
| BookingRoutes.TallyAddsUp | routes/booking.py:80-85 | the per-status counts add up to the total, so on `my_bookings` the uncounted bookings are the cancelled ones |
| BookingRoutes.MyBookings | routes/booking.py:72-87 | the page is the user's listing from `get_user_bookings`, newest first and only their own, with the per-status counts of that listing |
| BookingRoutes.AdminBookings | routes/booking.py:122-138 | behind the admin gate, every joined booking, with total = number listed |
| BookingRoutes.BookingDetails | routes/booking.py:89-106 | not found goes back to the list; a found booking is shown iff the user owns it or is admin, and is otherwise denied |
| BookingRoutes.OwnerSeesOwnBooking | routes/booking.py:102-104 | an owner always sees their booking |
| BookingRoutes.CancelRoute | routes/booking.py:108-120 | the engine's cancel restricted to the user's own bookings, or unrestricted for an admin; a failure writes nothing |
| BookingRoutes.CancelRouteLeavesOthersAlone | routes/booking.py:112-113 | a non-admin's cancel never touches another user's booking |
| BookingRoutes.UpdateStatusRoute | routes/booking.py:140-154 | admins only; a missing status is refused; otherwise the engine's update, and a success writes the named status into that one booking |
| BookingRoutes.AdminBookingDetails | routes/booking.py:156-170 | admins only; found iff the lookup succeeds, and the page shows the looked-up view |
| BookingRoutes.AdminDeleteBooking | routes/booking.py:172-181 | admins only; the route is cancellation without an owner |
| BookingRoutes.AdminDeleteKeepsRecords | routes/booking.py:176-181 | after "delete" every record is still there with its id and room |
| BookingRoutes.CheckAvailability | routes/booking.py:183-214 | unparseable dates give an invalid request; available with nights, rate and price iff the room exists and is free |
| BookingRoutes.AvailabilityAgreesWithCreate | routes/booking.py:183-214 | a future stay reported available at a positive price is one the create route books |
| BookingRoutes.ReversedRangeReportedAvailable | routes/booking.py:194-209 | a reversed range is reported available, with negative nights and price 0 |
| RoomRoutes.StripAll | routes/room.py:46 | each amenity stripped, one for one, in order |
| RoomRoutes.CleanAmenities | routes/room.py:46 | cleaned amenities are stripped and non-empty, never more than given |
| RoomRoutes.CleanAmenitiesConcat | routes/room.py:46 | cleaning works entry by entry, so it keeps the relative order |
| RoomRoutes.CleanAmenitiesSingle | routes/room.py:46 | one amenity is kept stripped when not blank and dropped otherwise; with the concatenation lemma this fixes the whole list |
| RoomRoutes.CheckForm | routes/room.py:32-43 | a missing required field is reported first; the form passes iff name and description are non-empty and price and capacity are numbers above zero |
| RoomRoutes.AddRoom | routes/room.py:19-56 | admins only; a room is added iff the form passes, a rejected form writes nothing and reports the form check's reason; an added room is available with the form's price, capacity and cleaned amenities |
| RoomRoutes.EditPatch | routes/room.py:67-89 | `available` is true iff the checkbox says `on`; amenities are cleaned |
| RoomRoutes.EditRoom | routes/room.py:58-105 | admins only; the room is updated iff the form passes, the room exists and the update changes it; a rejected form reports the check's reason; only that room is rewritten |
| RoomRoutes.ManageRooms | routes/room.py:8-17 | admins only; every room, sorted by price, with the counts of `get_room_count` |
| RoomRoutes.CreateSamplesRoute | routes/room.py:120-131 | admins only; the five catalog rooms are appended, available and in catalog order, after the stored rooms, and all five are reported created |
| RoomRoutes.DeleteRoomRoute | routes/room.py:107-118 | admins only; success iff the room existed |
| RoomRoutes.DeletedRoomHidesBookings | routes/room.py:107-118 | after a room is deleted its bookings drop out of the user's listing |
| RoomRoutes.RoomStatsApi | routes/room.py:183-190 | admins only; the counts of `get_room_count`: every room, and the available ones |
| RoomRoutes.AmenitiesOf | routes/room.py:151-155 | the amenity union holds exactly the amenities of the given rooms |
| RoomRoutes.BrowseRooms | routes/room.py:133-165 | with a truthy filter, exactly the matching rooms, each as often as stored; otherwise exactly the available rooms, each as often as stored; sorted by price; the amenity list is the sorted, duplicate-free union over available rooms |
| RoomRoutes.ZeroMaxPriceIgnored | routes/room.py:143 | a maximum price of 0 is falsy, so it filters nothing |
| RoomRoutes.RoomDetails | routes/room.py:167-181 | the page shows a room iff it exists and is available |
| RoomRoutes.ListedRoomHasDetails | routes/room.py:133-181 | every room the catalog lists has a details page |
| Location.FindHotelInfo | models/location.py:18 | the first document typed `hotel_info`, and nothing iff none is |
| Location.DefaultHotelInfo | models/location.py:27-81 | the default document is typed `hotel_info`, with the Times Square address, its coordinates and the update stamp |
| Location.GetHotelInfo | models/location.py:15-25 | an existing document is returned without writing; otherwise the default is inserted and returned |
| Location.GetHotelInfoIdempotent | models/location.py:15-22 | reading twice writes at most once and returns the same document |
| Location.UpdateHotelInfo | models/location.py:83-97 | `updated_at` is always added; success iff a document existed and the update changed it |
| Location.UpdateThenGet | models/location.py:83-94 | the document read after an update is the old one with the updates and the new stamp laid over it |
| Location.UpdateWithoutDocument | models/location.py:87-94 | without a document nothing is written and no change is reported |
| Location.UpdateAtNewInstantSucceeds | models/location.py:86-92 | a document stamped at another instant always counts as modified |
| Location.RepeatedUpdateChangesNothing | models/location.py:86-94 | the same update at the same instant reports no change |
| Location.GoogleType | models/location.py:112-122 | the seven known categories map to themselves, anything else to tourist attractions |
| Location.TypeLabel | models/location.py:145 | the label has no underscore left and the type's length |
| Location.MockPlaces | models/location.py:192-315 | five attractions, five restaurants, four shopping places, nothing for other categories |
| Location.PlaceFrom | models/location.py:141-161 | a result becomes a place iff it is an object whose `geometry.location` holds numeric `lat` and `lng`, its photos are readable and the hotel's coordinates are numeric; the place carries those coordinates, and name and address default as written |
| Location.PlacesFrom | models/location.py:140-163 | all results become places, in order, or the loop raises |
| Location.ResultsOf | models/location.py:140 | at most ten results, the first ten of a list, none when absent |
| Location.LiveAnswer | models/location.py:134-172 | live places only from a 200 reply with an object body, at most ten, each labelled; when the results can be read, the answer is live iff every one of them is a well-formed place; otherwise the mock data |
| Location.NearbyPlaces | models/location.py:99-172 | without a usable key the mock data and no write; otherwise the hotel information is read, and live places come only from a 200 reply for the mapped category |
| Location.NearbyAsksService | models/location.py:106-138 | with a usable key and stored coordinates, the answer is the service's answer for the mapped category around those coordinates |
| Location.KeylessHospitalIsEmpty | models/location.py:103-104 | without a key, a category outside the mocked three gives an empty list |
| Location.PlacePhotoUrl | models/location.py:317-322 | no link iff the reference is empty or the key unusable; the link starts with the photo endpoint and ends with the key |
| Location.PhotoUrlWidthRoundTrip | models/location.py:322 | the width written into the link reads back as the requested width |
| Location.PlaceDetails | models/location.py:324-348 | details only under the id and key guards and from a 200 reply with an object body, the `result` or an empty object |
| Location.Plus | models/location.py:359-362 | spaces become `+` and none is left |
| Location.DirectionsUrl | models/location.py:350-362 | a route link from the hotel to the destination when one is given, the hotel's place link otherwise; raises when the address is not text |
| Location.DirectionsRecoverAddress | models/location.py:362 | undoing the `+` substitution on the place link gives the address back |
| Location.DefaultHotelLink | models/location.py:356-362 | with no destination, the link for the default hotel is the place URL of its address with spaces turned into `+` |
| LocationRoutes.HotelInfo | routes/location.py:9-27 | the hotel document and, for each of the three categories, the nearby search at radius 5000 on the collection after the read; without a key, 5, 5 and 4 mock places |
| LocationRoutes.Contact | routes/location.py:120-129 | the hotel document, written only when missing |
| LocationRoutes.ContactMatchesHotelPage | routes/location.py:120-129 | the contact page shows the hotel page's document |
| LocationRoutes.ApiNearbyPlaces | routes/location.py:29-43 | the category defaults to tourist attractions and the radius to 5000; the places are the nearby search for them, and the reply always reports success |
| LocationRoutes.NearbyDefaults | routes/location.py:32-33 | a bare request is a search for tourist attractions within 5000, and a bad radius counts as none |
| LocationRoutes.Directions | routes/location.py:45-57 | a redirect iff the stored address is text, to the directions link built for `to`, or for the hotel when `to` is empty |
| LocationRoutes.EmptyDestinationMeansHotel | routes/location.py:48-51 | an empty `to` is the same request as none |
| LocationRoutes.AdminHotelInfo | routes/location.py:59-75 | login redirect without a session, dashboard redirect unless the stored account is admin; nothing is written on a redirect |
| LocationRoutes.AdminPageTrustsStoredRole | routes/location.py:66-69 | this page reads the stored role, not the session's, and so disagrees with the admin gate after a role change |
| LocationRoutes.RequestUpdates | routes/location.py:90-107 | an object body gives exactly its whitelisted keys with their values; other keys, `type` included, never get through |
| LocationRoutes.AdminUpdateHotelInfoAsWritten | routes/location.py:77-118 | without a session or admin account nothing is written; an admin's request writes and then fails with a server error |
| LocationRoutes.RenameUpdates | routes/location.py:90-107 | the rename body yields the single update of the name |
| LocationRoutes.RenameReachesUpdate | routes/location.py:77-118 | the rename request passes the checks and reaches the update; the written code replies with a server error, the intended one with the update's result |
| LocationRoutes.AdminRenameCrashes | routes/location.py:109-117 | renaming the hotel stores the name, yet the written code answers with a server error |
| LocationRoutes.AdminUpdateHotelInfo | routes/location.py:77-118 | the intended endpoint replies with the update's result, whose success is iff something was written |
| LocationRoutes.AsWrittenWritesLikeCorrected | routes/location.py:109-118 | both versions write the same; they differ only in the admin's reply |
| LocationRoutes.UpdateShowsOnAdminPage | routes/location.py:59-114 | after an accepted update the admin page shows the posted fields over the old document |
| LocationRoutes.AdminWriteIsUpdate | routes/location.py:109-110 | an admin's accepted request writes exactly what the model's update writes |
| LocationRoutes.ApiPlaceDetails | routes/location.py:131-141 | found iff the lookup gives a non-empty value, and then the reply is that value |
| LocationRoutes.DetailsWithoutResultNotFound | routes/location.py:138-141 | a 200 reply without `result` is reported as not found |
| LocationRoutes.ApiPlacePhoto | routes/location.py:143-155 | a link iff the reference is non-empty and the key usable, with width 400 unless a number is given |

## Left out

- Location.DefaultHotelInfo: the descriptive fields of the default document (contact, description, amenities, check-in and check-out times, policies, social media links) are not modelled; the application only reads back the name, address, coordinates, type and time stamps.
- Location.MockPlaces: the mock lists are written out, but the contract only states their sizes, not each entry's text.
- MongoDB, the `Database` singleton and driver failures: every `except` branch that only reports a storage error is left out. Malformed ObjectIds are modelled; a collection that cannot be reached is not.
- Concurrency: the check-then-insert race between two creates is outside a sequential model.
- ObjectId generation: a new id is one larger than every id in use, which is all the model needs (freshness).
- Flask rendering, `flash`, `redirect`, `jsonify` and HTTP status codes: replies are datatypes.
- `GET` renders of the forms and the index page: no logic beyond rendering.
- Hashing: `generate_password_hash` and `check_password_hash` are uninterpreted function parameters.
- Dates: integer day numbers; `strptime` failures are the `Invalid` form value; `datetime`/`date` coercion is not modelled.
- Floating point: prices and coordinates are exact reals; float rounding and `inf`/`nan` from `float()` are not modelled.
- `_calculate_distance` and the `distance` string of live places: Haversine trigonometry on floats.
- The Google web services: each call is a function parameter returning a status and a decoded body; how the request URL is encoded is not modelled.
- Location.TypeLabel: its contract states the length and the absence of underscores; title-casing itself is stated in `Text.Title`, for ASCII letters only.
- Text.Lower and Text.Title: only ASCII letters change case; Python's Unicode case mapping is not modelled.
- Helpers.ValidatePassword: states only that an accepted password is non-empty; the six-character bound appears in `AuthRoutes.Register`, where the route repeats it.
- `request.json` being `None` in `check_availability` (a crash) and the `Invalid request` reply for malformed JSON: the route is modelled from parsed dates on.
- The admin dashboard's all-zero fallback: the statistics cannot fail in the model.
- The "Unable to generate directions" reply and the `None` result of `get_directions_url`: both need a database failure, since the hotel information is created when missing.
- `$set` with dotted or `$`-prefixed keys: the whitelist only admits plain keys.
- CleanAmenities idempotence: cleaning twice equals cleaning once, but that proof is not part of the model.

## Findings

| source | as written | input that shows it | evidently intended | confidence | as-written member | corrected member |
|---|---|---|---|---|---|---|
| models/user.py:26-31 | the duplicate check looks up the email as typed, the record stores it lowercased | `a@x.io` registered, then `A@x.io` registers again | refuse an email whose lowercase form is taken | high, not executed | Users.CreateUserAsWrittenDuplicates | Users.CreateUserKeepsEmailsUnique |
| routes/booking.py:27-34 | with no `room_id` in the form, the missing-fields branch calls `url_for('booking.book_room', room_id=None)`; Werkzeug drops `None` arguments, so `/book/<room_id>` cannot be built and the user gets a server error | a logged-in user posts the create form without a `room_id` field | report "All fields are required" and redirect | high, not executed | BookingRoutes.MissingRoomFieldCrashes | BookingRoutes.CreateBookingRouteCorrected |
| routes/booking.py:44-47 | an unknown room redirects to `url_for('room.browse')`, but the catalog endpoint is `room.browse_rooms`, so building the URL raises and the user gets a server error | a logged-in user posts a booking form for a room id that is not stored | send the user back to the room catalog | high, not executed | BookingRoutes.UnknownRoomCrashes | BookingRoutes.CreateBookingRouteCorrected |
| routes/location.py:112, 117 | `user_model.close_connection()` is called, but the user model has no such method; the `AttributeError` reaches the `except` branch, which calls it again | an admin posts `{"name": "Harbour Hotel"}` | reply with the update's result | high, not executed | LocationRoutes.AdminRenameCrashes | LocationRoutes.UpdateShowsOnAdminPage |

=== FILE: auth_routes.dfy ===
/** routes/auth.py: registration, login and logout on top of the user
    registry and the session. A form field that is absent is `None`; Python
    also treats an empty string as missing. */
module AuthRoutes {
  import opened Common
  import opened Text
  import opened Users
  import opened Helpers

  datatype RegisterForm = RegisterForm(name: Option<string>, email: Option<string>,
                                       password: Option<string>, confirmPassword: Option<string>)

  datatype RegisterOutcome =
    | MissingFields
    | PasswordMismatch
    | PasswordTooShort
    | EmailTaken
    | Registered(id: Id)

  predicate AllPresent(f: RegisterForm) {
    Truthy(f.name) && Truthy(f.email) && Truthy(f.password) && Truthy(f.confirmPassword)
  }

  /** The route's own checks on the form, in the order it makes them. */
  function RegisterChecks(f: RegisterForm): Option<RegisterOutcome> {
    if !AllPresent(f) then Some(MissingFields)
    else if f.password != f.confirmPassword then Some(PasswordMismatch)
    else if |f.password.value| < 6 then Some(PasswordTooShort)
    else None
  }

  /** `register` (POST) as written: the checks in the order the route makes
      them, then `create_user`, whose duplicate check looks up the email as
      typed. Only a successful registration writes, with the client role. */
  function Register(users: Users, f: RegisterForm, hash: string -> string, now: int): (r: (RegisterOutcome, Users))
    ensures r.0.Registered? <==> && AllPresent(f) && f.password == f.confirmPassword
                                 && ValidatePassword(f.password.value)
                                 && !HasEmail(users, f.email.value)
    ensures r.0 == MissingFields <==> !AllPresent(f)
    ensures r.0 == PasswordMismatch <==> AllPresent(f) && f.password != f.confirmPassword
    ensures r.0 == PasswordTooShort <==>
              AllPresent(f) && f.password == f.confirmPassword && !ValidatePassword(f.password.value)
    ensures !r.0.Registered? ==> r.1 == users
    ensures r.0.Registered? ==>
              r.1 == users + [NewUser(users, f.name.value, f.email.value, f.password.value, DefaultRole, hash, now)]
              && r.0.id == r.1[|users|].id && r.1[|users|].role == DefaultRole
  {
    match RegisterChecks(f)
    case Some(o) => (o, users)
    case None =>
      var c := CreateUserAsWritten(users, f.name.value, f.email.value, f.password.value, DefaultRole, hash, now);
      match c.0
      case Success(id) => (Registered(id), c.1)
      case Failure(_) => (EmailTaken, users)
  }

  /** Through the route as written, `A@x.io` registers next to an existing
      `a@x.io`, and the registry then holds the same email twice. */
  lemma RegisterAdmitsCaseDuplicate(hash: string -> string)
    ensures var users := [User(0, "Ann", "a@x.io", hash("secret1"), DefaultRole, 0)];
            var f := RegisterForm(Some("Ann"), Some("A@x.io"), Some("secret2"), Some("secret2"));
            && UniqueEmails(users) && LowerEmails(users)
            && Register(users, f, hash, 1).0.Registered?
            && !UniqueEmails(Register(users, f, hash, 1).1)
  {
    CreateUserAsWrittenDuplicates(hash);
  }

  /** `register` with the corrected `create_user`, which looks up the
      lower-cased email: an email is refused when its stored form is taken. */
  function RegisterCorrected(users: Users, f: RegisterForm, hash: string -> string, now: int)
    : (r: (RegisterOutcome, Users))
    ensures r.0.Registered? <==> && AllPresent(f) && f.password == f.confirmPassword
                                 && ValidatePassword(f.password.value)
                                 && !HasEmail(users, Lower(f.email.value))
    ensures RegisterChecks(f).Some? ==> r == (RegisterChecks(f).value, users)
    ensures !r.0.Registered? ==> r.1 == users
    ensures r.0.Registered? ==>
              r.1 == users + [NewUser(users, f.name.value, f.email.value, f.password.value, DefaultRole, hash, now)]
              && r.0.id == r.1[|users|].id && r.1[|users|].role == DefaultRole
  {
    match RegisterChecks(f)
    case Some(o) => (o, users)
    case None =>
      var c := CreateUser(users, f.name.value, f.email.value, f.password.value, DefaultRole, hash, now);
      match c.0
      case Success(id) => (Registered(id), c.1)
      case Failure(_) => (EmailTaken, users)
  }

  /** The corrected registration keeps the registry free of duplicate emails. */
  lemma RegisterKeepsEmailsUnique(users: Users, f: RegisterForm, hash: string -> string, now: int)
    requires UniqueEmails(users) && LowerEmails(users)
    ensures UniqueEmails(RegisterCorrected(users, f, hash, now).1)
    ensures LowerEmails(RegisterCorrected(users, f, hash, now).1)
  {
    if RegisterChecks(f).None? {
      CreateUserKeepsEmailsUnique(users, f.name.value, f.email.value, f.password.value, DefaultRole, hash, now);
    }
  }

  /** The two registrations differ only on emails typed with capitals: for
      an email already in lower case they give the same reply and registry. */
  lemma RegisterAgreesOnLowerEmail(users: Users, f: RegisterForm, hash: string -> string, now: int)
    requires f.email.Some? && IsLower(f.email.value)
    ensures Register(users, f, hash, now) == RegisterCorrected(users, f, hash, now)
  {
    LowerIsLower(f.email.value);
  }

  datatype LoginOutcome = MissingCredentials | Rejected | ToAdminDashboard | ToClientDashboard {
    predicate LoggedIn() { ToAdminDashboard? || ToClientDashboard? }
  }

  /** `login` (POST): empty fields are refused before the registry is asked;
      on success the session holds the user's id, name and role and the
      redirect depends on the role; on failure the session is untouched. */
  function Login(users: Users, s: Session, email: Option<string>, password: Option<string>,
                 check: (string, string) -> bool): (r: (LoginOutcome, Session))
    ensures r.0 == MissingCredentials <==> !Truthy(email) || !Truthy(password)
    ensures r.0.LoggedIn() <==> Truthy(email) && Truthy(password)
                                && AuthenticateUser(users, email.value, password.value, check).Success?
    ensures !r.0.LoggedIn() ==> r.1 == s
    ensures r.0.LoggedIn() ==>
              var u := AuthenticateUser(users, email.value, password.value, check).value;
              && r.1 == Session(Some(u.id), Some(u.name), Some(u.role))
              && (r.0 == ToAdminDashboard <==> u.role == AdminRole)
  {
    if !Truthy(email) || !Truthy(password) then (MissingCredentials, s)
    else
      match AuthenticateUser(users, email.value, password.value, check)
      case Failure(_) => (Rejected, s)
      case Success(u) =>
        var s' := Session(Some(u.id), Some(u.name), Some(u.role));
        if u.role == AdminRole then (ToAdminDashboard, s') else (ToClientDashboard, s')
  }

  /** After a successful login the login gate lets the user through, and the
      admin gate does exactly when the login went to the admin dashboard. */
  lemma LoginOpensGates<T>(users: Users, s: Session, email: Option<string>, password: Option<string>,
                           check: (string, string) -> bool, handler: Id -> T)
    ensures var r := Login(users, s, email, password, check);
            r.0.LoggedIn() ==>
              && LoginRequired(r.1, handler).Proceed?
              && (AdminRequired(r.1, handler).Proceed? <==> r.0 == ToAdminDashboard)
  {
  }

  /** `logout`: the whole session is cleared. */
  function Logout(s: Session): (r: Session)
    ensures r.userId.None? && r.userName.None? && r.userRole.None?
  {
    EmptySession
  }

  /** After logout both gates send the visitor to the login page. */
  lemma LogoutClosesGates<T>(s: Session, handler: Id -> T)
    ensures LoginRequired(Logout(s), handler) == ToLogin
    ensures AdminRequired(Logout(s), handler) == ToLogin
  {
  }
}

=== FILE: booking_invariant.dfy ===
/** The occupancy invariant of the booking engine, taken sequentially: no two
    pending or confirmed bookings of one room overlap. `create_booking` and
    `cancel_booking` keep it; the admin `update_booking_status` does not. */
module BookingInvariant {
  import opened Common
  import opened Bookings

  /** Ids are unique and every stored range is non-empty. */
  predicate WellFormed(store: Store) {
    && (forall i, j :: 0 <= i < j < |store| ==> store[i].id != store[j].id)
    && (forall i :: 0 <= i < |store| ==> store[i].checkIn < store[i].checkOut)
  }

  /** Two bookings that both occupy the same room on some night. */
  predicate Clash(a: Booking, b: Booking) {
    && a.roomId == b.roomId && a.status.Active() && b.status.Active()
    && Overlap(a.checkIn, a.checkOut, b.checkIn, b.checkOut)
  }

  /** No room is double-booked. */
  predicate NoDoubleBooking(store: Store) {
    forall i, j :: 0 <= i < j < |store| ==> !Clash(store[i], store[j])
  }

  /** A successful create leaves a booking that clashes with no other one. */
  lemma CreatedBookingIsIsolated(store: Store, userId: Id, roomId: IdArg, checkIn: int, checkOut: int,
                                 totalPrice: real, today: int, now: int)
    ensures var r := CreateBooking(store, userId, roomId, checkIn, checkOut, totalPrice, today, now);
            r.result.Success? ==> forall i :: 0 <= i < |store| ==> !Clash(store[i], r.store[|store|])
  {
    var r := CreateBooking(store, userId, roomId, checkIn, checkOut, totalPrice, today, now);
    if r.result.Success? {
      var b := r.store[|store|];
      forall i | 0 <= i < |store| ensures !Clash(store[i], b) {
        assert !Blocks(store[i], roomId.id, checkIn, checkOut);
        if Overlap(store[i].checkIn, store[i].checkOut, checkIn, checkOut) {
          OverlapImpliesConflict(store[i], checkIn, checkOut);
        }
      }
    }
  }

  lemma CreatePreservesNoDoubleBooking(store: Store, userId: Id, roomId: IdArg, checkIn: int, checkOut: int,
                                       totalPrice: real, today: int, now: int)
    requires NoDoubleBooking(store)
    ensures NoDoubleBooking(CreateBooking(store, userId, roomId, checkIn, checkOut, totalPrice, today, now).store)
  {
    CreatedBookingIsIsolated(store, userId, roomId, checkIn, checkOut, totalPrice, today, now);
  }

  lemma CreatePreservesWellFormed(store: Store, userId: Id, roomId: IdArg, checkIn: int, checkOut: int,
                                  totalPrice: real, today: int, now: int)
    requires WellFormed(store)
    ensures WellFormed(CreateBooking(store, userId, roomId, checkIn, checkOut, totalPrice, today, now).store)
  {
  }

  lemma CancelPreservesNoDoubleBooking(store: Store, bookingId: IdArg, owner: Option<Id>, today: int, now: int)
    requires NoDoubleBooking(store)
    ensures NoDoubleBooking(CancelBooking(store, bookingId, owner, today, now).store)
  {
    var r := CancelBooking(store, bookingId, owner, today, now);
    if r.result.Success? {
      var i := FindBooking(store, bookingId.id, owner).value;
      assert r.store == store[i := store[i].(status := Cancelled, updatedAt := now)];
      forall a, b | 0 <= a < b < |r.store| ensures !Clash(r.store[a], r.store[b]) {
        if a != i && b != i {
          assert r.store[a] == store[a] && r.store[b] == store[b];
        }
      }
    }
  }

  lemma CancelPreservesWellFormed(store: Store, bookingId: IdArg, owner: Option<Id>, today: int, now: int)
    requires WellFormed(store)
    ensures WellFormed(CancelBooking(store, bookingId, owner, today, now).store)
  {
  }

  /** The admin status override can re-activate a cancelled booking into a
      double booking: a confirmed booking and a cancelled one of the same
      room with overlapping stays, and setting the cancelled one back to
      pending breaks the invariant. */
  lemma UpdateStatusBreaksNoDoubleBooking(a: Booking, b: Booking, now: int)
    requires a.id != b.id && a.roomId == b.roomId
    requires a.status == Confirmed && b.status == Cancelled
    requires a.checkIn < a.checkOut && b.checkIn < b.checkOut
    requires Overlap(a.checkIn, a.checkOut, b.checkIn, b.checkOut)
    ensures WellFormed([a, b]) && NoDoubleBooking([a, b])
    ensures var r := UpdateBookingStatus([a, b], Valid(b.id), "pending", None, now);
            r.result.Success? && !NoDoubleBooking(r.store)
  {
    var store := [a, b];
    assert ParseStatus("pending") == Some(Pending);
    assert FindBooking(store[1..], b.id, None) == Some(0);
    assert FindBooking(store, b.id, None) == Some(1);
    var nb := SetStatus(b, Pending, None, now);
    assert nb.status != b.status;
    var r := UpdateBookingStatus(store, Valid(b.id), "pending", None, now);
    assert r.store == [a, nb];
    assert Clash(r.store[0], r.store[1]);
  }

  /** The status override keeps ids and dates, so it keeps well-formedness. */
  lemma UpdateStatusPreservesWellFormed(store: Store, bookingId: IdArg, status: string,
                                        paymentId: Option<string>, now: int)
    requires WellFormed(store)
    ensures WellFormed(UpdateBookingStatus(store, bookingId, status, paymentId, now).store)
  {
  }

  /** The two guest-facing writes, each made on day `today` at instant
      `now`. */
  datatype Command =
    | Create(userId: Id, roomId: IdArg, checkIn: int, checkOut: int, totalPrice: real, today: int, now: int)
    | Cancel(bookingId: IdArg, owner: Option<Id>, today: int, now: int)

  /** One command after another, each on its own day and instant. */
  function Run(store: Store, cmds: seq<Command>): Store
    decreases |cmds|
  {
    if |cmds| == 0 then store
    else
      var next := match cmds[0]
        case Create(u, room, cin, cout, price, today, now) => CreateBooking(store, u, room, cin, cout, price, today, now).store
        case Cancel(id, owner, today, now) => CancelBooking(store, id, owner, today, now).store;
      Run(next, cmds[1..])
  }

  /** Any sequence of creates and cancels, made on any days, starting from a
      consistent store, ends in a consistent store: no room is ever
      double-booked. */
  lemma {:induction false} RunPreservesInvariant(store: Store, cmds: seq<Command>)
    requires WellFormed(store) && NoDoubleBooking(store)
    ensures WellFormed(Run(store, cmds)) && NoDoubleBooking(Run(store, cmds))
    decreases |cmds|
  {
    if |cmds| > 0 {
      match cmds[0]
      case Create(u, room, cin, cout, price, today, now) =>
        CreatePreservesNoDoubleBooking(store, u, room, cin, cout, price, today, now);
        CreatePreservesWellFormed(store, u, room, cin, cout, price, today, now);
        RunPreservesInvariant(CreateBooking(store, u, room, cin, cout, price, today, now).store, cmds[1..]);
      case Cancel(id, owner, today, now) =>
        CancelPreservesNoDoubleBooking(store, id, owner, today, now);
        CancelPreservesWellFormed(store, id, owner, today, now);
        RunPreservesInvariant(CancelBooking(store, id, owner, today, now).store, cmds[1..]);
    }
  }

  /** The scenario of a confirmed stay on days 10 to 15: a request for days
      14 to 16 is refused, one for days 15 to 18 is accepted. */
  lemma OverlapScenario(today: int, now: int)
    requires today <= 14
    ensures var store := [Booking(0, 7, 1, 10, 15, 500.0, Confirmed, None, 0, 0)];
            && CreateBooking(store, 8, Valid(1), 14, 16, 200.0, today, now).result == Failure(RoomUnavailable)
            && CreateBooking(store, 8, Valid(1), 15, 18, 300.0, today, now).result.Success?
  {
    var store := [Booking(0, 7, 1, 10, 15, 500.0, Confirmed, None, 0, 0)];
    assert Blocks(store[0], 1, 14, 16);
  }
}

=== FILE: booking_queries.dfy ===
/** The read side of models/booking.py: the price calculator, the
    aggregation pipelines behind `get_user_bookings`, `get_all_bookings` and
    `get_booking_by_id` (match, room and user lookups, unwind, sort by
    creation time descending, derived `nights` and `guests`), and
    `get_booking_stats`. */
module BookingQueries {
  import opened Common
  import opened Sorting
  import opened Users
  import opened Rooms
  import opened Bookings

  /** `calculate_booking_price`: nightly rate times nights, and 0 for an
      empty or reversed range. */
  function CalculateBookingPrice(roomPrice: real, checkIn: int, checkOut: int): (r: real)
    ensures checkOut <= checkIn ==> r == 0.0
    ensures checkIn < checkOut ==> r == roomPrice * (checkOut - checkIn) as real
    ensures roomPrice >= 0.0 ==> r >= 0.0
  {
    var nights := checkOut - checkIn;
    if nights > 0 then roomPrice * nights as real else 0.0
  }

  /** For a positive rate the price is positive exactly when check-out is
      after check-in. */
  lemma PricePositiveIffValidRange(roomPrice: real, checkIn: int, checkOut: int)
    requires roomPrice > 0.0
    ensures CalculateBookingPrice(roomPrice, checkIn, checkOut) > 0.0 <==> checkIn < checkOut
  {
  }

  /** A stay split at any day in between costs the same as the whole stay:
      the flat nightly rate has no rounding. */
  lemma PriceAdditive(roomPrice: real, a: int, b: int, c: int)
    requires a <= b <= c
    ensures CalculateBookingPrice(roomPrice, a, c)
            == CalculateBookingPrice(roomPrice, a, b) + CalculateBookingPrice(roomPrice, b, c)
  {
    assert roomPrice * (c - a) as real == roomPrice * (b - a) as real + roomPrice * (c - b) as real;
  }

  /** A booking with its room, its user (only in the admin pipelines, with
      the password removed) and the derived fields. */
  datatype BookingView = BookingView(booking: Booking, room: Room, user: Option<PublicUser>,
                                     nights: int, guests: int)

  /** `room.get('capacity', 1)`. */
  function Guests(room: Room): int {
    if room.capacity.Some? then room.capacity.value else 1
  }

  function View(b: Booking, room: Room, user: Option<PublicUser>): (v: BookingView)
    ensures v.nights == b.checkOut - b.checkIn && v.guests == Guests(room)
  {
    BookingView(b, room, user, b.checkOut - b.checkIn, Guests(room))
  }

  /** The room with the given id, as `$lookup` finds it. */
  function RoomOf(rooms: Rooms, id: Id): (r: Option<Room>)
    ensures r.Some? <==> HasRoom(rooms, id)
    ensures r.Some? ==> r.value in rooms && r.value.id == id
  {
    match FindRoom(rooms, id)
    case None => None
    case Some(i) => Some(rooms[i])
  }

  function UserOf(users: seq<User>, id: Id): (r: Option<User>)
    ensures r.Some? ==> r.value in users && r.value.id == id
  {
    GetUserById(users, Valid(id))
  }

  predicate HasRoomFor(rooms: Rooms, b: Booking) { HasRoom(rooms, b.roomId) }

  /** The bookings whose room exists, as a filter. */
  function RoomExists(rooms: Rooms): Booking -> bool { b => HasRoomFor(rooms, b) }

  /** `$lookup` of the room followed by `$unwind`: a booking whose room is
      gone is dropped. */
  function JoinRooms(bs: seq<Booking>, rooms: Rooms): (r: seq<BookingView>)
    ensures forall v :: v in r ==> v.booking in bs && RoomOf(rooms, v.booking.roomId) == Some(v.room)
                                   && v == View(v.booking, v.room, None)
    ensures forall b :: b in bs && RoomOf(rooms, b.roomId).Some? ==> View(b, RoomOf(rooms, b.roomId).value, None) in r
  {
    if |bs| == 0 then []
    else
      var rest := JoinRooms(bs[1..], rooms);
      assert bs == [bs[0]] + bs[1..];
      match RoomOf(rooms, bs[0].roomId)
      case None => rest
      case Some(room) => [View(bs[0], room, None)] + rest
  }

  function BookingsOf(vs: seq<BookingView>): (r: seq<Booking>)
    ensures |r| == |vs| && forall i :: 0 <= i < |vs| ==> r[i] == vs[i].booking
  {
    seq(|vs|, i requires 0 <= i < |vs| => vs[i].booking)
  }

  /** The join keeps the bookings whose room exists, in order: it is a
      filter on the bookings. */
  lemma {:induction false} JoinRoomsIsFilter(bs: seq<Booking>, rooms: Rooms)
    ensures BookingsOf(JoinRooms(bs, rooms)) == Filter(bs, RoomExists(rooms))
  {
    if |bs| > 0 {
      JoinRoomsIsFilter(bs[1..], rooms);
      var room := RoomOf(rooms, bs[0].roomId);
      if room.Some? {
        BookingsOfCons(View(bs[0], room.value, None), JoinRooms(bs[1..], rooms));
      }
    }
  }

  lemma BookingsOfCons(v: BookingView, vs: seq<BookingView>)
    ensures BookingsOf([v] + vs) == [v.booking] + BookingsOf(vs)
  {
    assert forall i :: 1 <= i < |vs| + 1 ==> ([v] + vs)[i] == vs[i - 1];
  }

  lemma BookingsOfConcat(vs: seq<BookingView>, ws: seq<BookingView>)
    ensures BookingsOf(vs + ws) == BookingsOf(vs) + BookingsOf(ws)
  {
    var l, r := BookingsOf(vs + ws), BookingsOf(vs) + BookingsOf(ws);
    forall i | 0 <= i < |l| ensures l[i] == r[i] {
      if i < |vs| {
        assert (vs + ws)[i] == vs[i];
      } else {
        assert (vs + ws)[i] == ws[i - |vs|];
      }
    }
  }

  lemma TakeOut(ws: seq<BookingView>, k: nat)
    requires k < |ws|
    ensures multiset(ws) == multiset(ws[..k] + ws[k + 1..]) + multiset{ws[k]}
  {
    assert ws == ws[..k] + [ws[k]] + ws[k + 1..];
  }

  /** Taking out the view at `k` takes out its booking. */
  lemma TakeOutBooking(ws: seq<BookingView>, k: nat)
    requires k < |ws|
    ensures multiset(BookingsOf(ws)) == multiset(BookingsOf(ws[..k] + ws[k + 1..])) + multiset{ws[k].booking}
  {
    assert ws == ws[..k] + [ws[k]] + ws[k + 1..];
    BookingsOfConcat(ws[..k] + [ws[k]], ws[k + 1..]);
    BookingsOfConcat(ws[..k], [ws[k]]);
    BookingsOfConcat(ws[..k], ws[k + 1..]);
  }

  lemma Cancel<T>(a: multiset<T>, b: multiset<T>, x: T)
    requires a + multiset{x} == b + multiset{x}
    ensures a == b
  {
    assert a == (a + multiset{x}) - multiset{x};
  }

  /** Reordering the views reorders their bookings: two permutations of
      each other list the same bookings, as often. */
  lemma {:induction false} BookingsOfPermutation(vs: seq<BookingView>, ws: seq<BookingView>)
    requires multiset(vs) == multiset(ws)
    ensures multiset(BookingsOf(vs)) == multiset(BookingsOf(ws))
    decreases |vs|
  {
    if |vs| == 0 {
      assert |ws| == |multiset(ws)| == 0;
    } else {
      var v := vs[0];
      assert v in multiset(ws);
      var k :| 0 <= k < |ws| && ws[k] == v;
      var rest := ws[..k] + ws[k + 1..];
      assert multiset(vs[1..]) == multiset(rest) by {
        TakeOut(ws, k);
        assert vs == [v] + vs[1..];
        Cancel(multiset(vs[1..]), multiset(rest), v);
      }
      BookingsOfPermutation(vs[1..], rest);
      TakeOutBooking(ws, k);
      BookingsOfCons(v, vs[1..]);
      assert vs == [v] + vs[1..];
    }
  }

  /** Both lookups of the admin pipelines: a booking is dropped when its room
      or its user is gone. */
  function JoinRoomsAndUsers(bs: seq<Booking>, rooms: Rooms, users: seq<User>): (r: seq<BookingView>)
    ensures forall v :: v in r ==> v.booking in bs && RoomOf(rooms, v.booking.roomId) == Some(v.room)
                                   && UserOf(users, v.booking.userId).Some?
                                   && v.user == Some(Public(UserOf(users, v.booking.userId).value))
                                   && v == View(v.booking, v.room, v.user)
    ensures forall b :: b in bs && RoomOf(rooms, b.roomId).Some? && UserOf(users, b.userId).Some? ==>
              View(b, RoomOf(rooms, b.roomId).value, Some(Public(UserOf(users, b.userId).value))) in r
  {
    if |bs| == 0 then []
    else
      var rest := JoinRoomsAndUsers(bs[1..], rooms, users);
      assert bs == [bs[0]] + bs[1..];
      match (RoomOf(rooms, bs[0].roomId), UserOf(users, bs[0].userId))
      case (Some(room), Some(user)) => [View(bs[0], room, Some(Public(user)))] + rest
      case _ => rest
  }

  /** The bookings whose room and user both exist, as a filter. */
  function Joinable(rooms: Rooms, users: seq<User>): Booking -> bool {
    (b: Booking) => RoomOf(rooms, b.roomId).Some? && UserOf(users, b.userId).Some?
  }

  /** The admin join is a filter on the bookings too. */
  lemma {:induction false} JoinRoomsAndUsersIsFilter(bs: seq<Booking>, rooms: Rooms, users: seq<User>)
    ensures BookingsOf(JoinRoomsAndUsers(bs, rooms, users)) == Filter(bs, Joinable(rooms, users))
  {
    if |bs| > 0 {
      JoinRoomsAndUsersIsFilter(bs[1..], rooms, users);
      var room, user := RoomOf(rooms, bs[0].roomId), UserOf(users, bs[0].userId);
      if room.Some? && user.Some? {
        BookingsOfCons(View(bs[0], room.value, Some(Public(user.value))), JoinRoomsAndUsers(bs[1..], rooms, users));
      }
    }
  }

  /** The sort key of `{'$sort': {'created_at': -1}}`. */
  function NewestFirst(v: BookingView): real { -(v.booking.createdAt as real) }

  predicate CreatedDescending(vs: seq<BookingView>) {
    forall i, j :: 0 <= i < j < |vs| ==> vs[i].booking.createdAt >= vs[j].booking.createdAt
  }

  function SortNewestFirst(vs: seq<BookingView>): (r: seq<BookingView>)
    ensures CreatedDescending(r)
    ensures |r| == |vs| && multiset(r) == multiset(vs)
    ensures forall v :: v in r <==> v in vs
  {
    var r := SortBy(vs, NewestFirst);
    assert forall i, j :: 0 <= i < j < |r| ==> NewestFirst(r[i]) <= NewestFirst(r[j]);
    assert forall v :: v in r <==> v in multiset(r);
    assert forall v :: v in vs <==> v in multiset(vs);
    r
  }

  predicate OwnedBy(userId: Id, b: Booking) { b.userId == userId }

  /** The bookings of user `userId`, as a filter. */
  function OwnerIs(userId: Id): Booking -> bool { b => OwnedBy(userId, b) }

  /** `get_user_bookings`: the user's bookings that still have a room, each
      with its room and derived fields, newest first. */
  function GetUserBookings(store: Store, rooms: Rooms, userId: IdArg): (r: Result<seq<BookingView>, BookingError>)
    ensures r.Success? <==> userId.Valid?
    ensures r.Success? ==> CreatedDescending(r.value)
    ensures r.Success? ==> forall v :: v in r.value ==>
              && v.booking in store && v.booking.userId == userId.id
              && v.room in rooms && v.room.id == v.booking.roomId
              && v.nights == v.booking.checkOut - v.booking.checkIn && v.guests == Guests(v.room)
              && v.user.None?
    ensures r.Success? ==> forall b :: b in store && b.userId == userId.id && HasRoom(rooms, b.roomId) ==>
              exists v :: v in r.value && v.booking == b
    ensures r.Success? ==>
              multiset(BookingsOf(r.value)) == multiset(Filter(Filter(store, OwnerIs(userId.id)), RoomExists(rooms)))
  {
    match userId
    case Malformed => Failure(StorageError)
    case Valid(u) =>
      var mine := Filter(store, OwnerIs(u));
      var joined := JoinRooms(mine, rooms);
      var r := SortNewestFirst(joined);
      JoinRoomsIsFilter(mine, rooms);
      BookingsOfPermutation(r, joined);
      assert forall b :: b in store && b.userId == u && HasRoom(rooms, b.roomId) ==>
               View(b, RoomOf(rooms, b.roomId).value, None) in r;
      Success(r)
  }

  /** `get_all_bookings`: every booking whose room and user exist, each
      with both (the user without password), newest first. */
  function GetAllBookings(store: Store, rooms: Rooms, users: seq<User>): (r: seq<BookingView>)
    ensures CreatedDescending(r)
    ensures forall v :: v in r ==>
              && v.booking in store && v.room in rooms && v.room.id == v.booking.roomId
              && v.user.Some? && v.user.value.id == v.booking.userId
              && v.nights == v.booking.checkOut - v.booking.checkIn && v.guests == Guests(v.room)
    ensures forall b :: b in store && RoomOf(rooms, b.roomId).Some? && UserOf(users, b.userId).Some? ==>
              exists v :: v in r && v.booking == b
    ensures multiset(BookingsOf(r)) == multiset(Filter(store, Joinable(rooms, users)))
  {
    var joined := JoinRoomsAndUsers(store, rooms, users);
    var r := SortNewestFirst(joined);
    JoinRoomsAndUsersIsFilter(store, rooms, users);
    BookingsOfPermutation(r, joined);
    assert forall b :: b in store && RoomOf(rooms, b.roomId).Some? && UserOf(users, b.userId).Some? ==>
             View(b, RoomOf(rooms, b.roomId).value, Some(Public(UserOf(users, b.userId).value))) in r;
    r
  }

  predicate HasId(id: Id, b: Booking) { b.id == id }

  /** `get_booking_by_id`: the booking with that id together with its room
      and user; `NotFound` when there is none or its room or user is gone. */
  function GetBookingById(store: Store, rooms: Rooms, users: seq<User>, id: IdArg): (r: Result<BookingView, BookingError>)
    ensures id.Malformed? ==> r == Failure(StorageError)
    ensures r.Success? ==> && r.value.booking in store && r.value.booking.id == id.id
                           && r.value.room in rooms && r.value.room.id == r.value.booking.roomId
                           && r.value.user.Some? && r.value.user.value.id == r.value.booking.userId
                           && r.value.nights == r.value.booking.checkOut - r.value.booking.checkIn
    ensures id.Valid? && r.Failure? ==> r.error == BookingError.NotFound
    ensures id.Valid? && r.Failure? ==>
              forall b :: b in store && b.id == id.id ==> RoomOf(rooms, b.roomId).None? || UserOf(users, b.userId).None?
  {
    match id
    case Malformed => Failure(StorageError)
    case Valid(k) =>
      var found := JoinRoomsAndUsers(Filter(store, b => HasId(k, b)), rooms, users);
      if |found| == 0 then
        assert forall b :: b in store && b.id == k && RoomOf(rooms, b.roomId).Some? && UserOf(users, b.userId).Some? ==>
                 View(b, RoomOf(rooms, b.roomId).value, Some(Public(UserOf(users, b.userId).value))) in found;
        Failure(BookingError.NotFound)
      else
        assert found[0] in found;
        Success(found[0])
  }

  /** Number of bookings with status `s`. */
  function CountStatus(store: Store, s: Status): (n: nat)
    ensures n <= |store|
  {
    if |store| == 0 then 0
    else CountStatus(store[..|store| - 1], s) + (if store[|store| - 1].status == s then 1 else 0)
  }

  /** Sum of `total_price` over confirmed and completed bookings. */
  function Revenue(store: Store): real {
    if |store| == 0 then 0.0
    else Revenue(store[..|store| - 1]) + (if store[|store| - 1].status.Paid() then store[|store| - 1].totalPrice else 0.0)
  }

  datatype Stats = Stats(total: nat, pending: nat, confirmed: nat, cancelled: nat, completed: nat, revenue: real)

  /** `get_booking_stats`, computed in one pass over the collection. */
  method GetBookingStats(store: Store) returns (st: Stats)
    ensures st.total == |store|
    ensures st.pending == CountStatus(store, Pending) && st.confirmed == CountStatus(store, Confirmed)
    ensures st.cancelled == CountStatus(store, Cancelled) && st.completed == CountStatus(store, Completed)
    ensures st.revenue == Revenue(store)
  {
    var pending, confirmed, cancelled, completed := 0, 0, 0, 0;
    var revenue := 0.0;
    var i := 0;
    while i < |store|
      invariant 0 <= i <= |store|
      invariant pending == CountStatus(store[..i], Pending) && confirmed == CountStatus(store[..i], Confirmed)
      invariant cancelled == CountStatus(store[..i], Cancelled) && completed == CountStatus(store[..i], Completed)
      invariant revenue == Revenue(store[..i])
    {
      assert store[..i + 1][..i] == store[..i];
      var b := store[i];
      match b.status {
        case Pending => pending := pending + 1;
        case Confirmed => confirmed := confirmed + 1; revenue := revenue + b.totalPrice;
        case Cancelled => cancelled := cancelled + 1;
        case Completed => completed := completed + 1; revenue := revenue + b.totalPrice;
      }
      i := i + 1;
    }
    assert store[..|store|] == store;
    st := Stats(|store|, pending, confirmed, cancelled, completed, revenue);
  }

  /** Every booking has one of the four statuses, so the total is the sum of
      the per-status counts. */
  lemma {:induction false} StatusCountsSumToTotal(store: Store)
    ensures CountStatus(store, Pending) + CountStatus(store, Confirmed)
            + CountStatus(store, Cancelled) + CountStatus(store, Completed) == |store|
  {
    if |store| > 0 {
      StatusCountsSumToTotal(store[..|store| - 1]);
    }
  }

  /** Revenue is 0 when no booking is confirmed or completed, and never
      negative when no price is. */
  lemma {:induction false} RevenueBounds(store: Store)
    ensures (forall i :: 0 <= i < |store| ==> !store[i].status.Paid()) ==> Revenue(store) == 0.0
    ensures (forall i :: 0 <= i < |store| ==> store[i].totalPrice >= 0.0) ==> Revenue(store) >= 0.0
  {
    if |store| > 0 {
      RevenueBounds(store[..|store| - 1]);
    }
  }

  /** One confirmed booking at 100, one completed at 150 and one cancelled
      at 200: revenue 250 out of three bookings. */
  lemma StatsScenario()
    ensures var store := [Booking(0, 1, 1, 10, 11, 100.0, Confirmed, None, 0, 0),
                          Booking(1, 1, 2, 10, 12, 150.0, Completed, None, 0, 0),
                          Booking(2, 1, 3, 10, 13, 200.0, Cancelled, None, 0, 0)];
            Revenue(store) == 250.0 && |store| == 3 && CountStatus(store, Cancelled) == 1
  {
    var store := [Booking(0, 1, 1, 10, 11, 100.0, Confirmed, None, 0, 0),
                  Booking(1, 1, 2, 10, 12, 150.0, Completed, None, 0, 0),
                  Booking(2, 1, 3, 10, 13, 200.0, Cancelled, None, 0, 0)];
    assert store[..1][..0] == [];
    assert store[..2][..1] == store[..1];
    assert store[..3] == store;
    assert Revenue(store[..1]) == 100.0;
    assert Revenue(store[..2]) == 250.0;
  }
}

=== FILE: booking_routes.dfy ===
/** routes/booking.py: the booking pages and endpoints, each behind its
    access gate, on top of the booking engine. Dates arrive as form or JSON
    text; a date field is `Blank` when absent or empty and `Invalid` when
    `strptime` rejects it. */
module BookingRoutes {
  import opened Common
  import opened Users
  import opened Rooms
  import opened Bookings
  import opened BookingQueries
  import opened Helpers

  /** `book_room`: the booking form for an existing room, or back to the
      catalog. */
  datatype BookRoomPage = BackToCatalog | BookingForm(room: Room)

  function BookRoom(s: Session, rooms: Rooms, roomId: IdArg): (g: Gate<BookRoomPage>)
    ensures g.ToLogin? <==> s.userId.None?
    ensures g.Proceed? ==> (g.page.BookingForm? <==> roomId.Valid? && HasRoom(rooms, roomId.id))
    ensures g.Proceed? && g.page.BookingForm? ==> g.page.room in rooms && g.page.room.id == roomId.id
  {
    LoginRequired(s, (uid: Id) =>
      match GetRoomById(rooms, roomId)
      case None => BackToCatalog
      case Some(room) => BookingForm(room))
  }

  datatype CreateReply =
    | MissingFields
    | InvalidDateFormat
    | RoomNotFound
    | InvalidDateRange
    | Refused(error: BookingError)
    | Created(bookingId: Id)
    | ServerError

  /** The route's own checks, before the booking engine is called. */
  function CreateChecks(rooms: Rooms, roomId: FormValue<Id>, checkIn: FormValue<int>, checkOut: FormValue<int>)
    : Option<CreateReply>
  {
    if roomId.Blank? || checkIn.Blank? || checkOut.Blank? then Some(MissingFields)
    else if checkIn.Invalid? || checkOut.Invalid? then Some(InvalidDateFormat)
    else if roomId.Invalid? || !HasRoom(rooms, roomId.v) then Some(RoomNotFound)
    else if CalculateBookingPrice(GetRoomById(rooms, Valid(roomId.v)).value.price, checkIn.v, checkOut.v) <= 0.0
    then Some(CreateReply.InvalidDateRange)
    else None
  }

  /** A request with all fields and well-formed dates naming a room that
      does not exist. */
  predicate UnknownRoomRequest(rooms: Rooms, roomId: FormValue<Id>, checkIn: FormValue<int>, checkOut: FormValue<int>) {
    && !roomId.Blank? && checkIn.Value? && checkOut.Value?
    && (roomId.Invalid? || !HasRoom(rooms, roomId.v))
  }

  /** `create_booking` (POST) for the logged-in user `userId`, with the
      unknown-room branch sending the user back to the room catalog:
      required fields, date format, the room's existence and a positive
      price are checked here, in that order; the rest is the booking
      engine's. */
  function CreateBookingRouteCorrected(store: Store, rooms: Rooms, userId: Id, roomId: FormValue<Id>,
                                       checkIn: FormValue<int>, checkOut: FormValue<int>, today: int, now: int)
    : (r: (CreateReply, Store))
    ensures r.0 == MissingFields <==> roomId.Blank? || checkIn.Blank? || checkOut.Blank?
    ensures r.0 == RoomNotFound <==> UnknownRoomRequest(rooms, roomId, checkIn, checkOut)
    ensures r.0 != ServerError
    ensures !r.0.Created? ==> r.1 == store
    ensures r.0.Created? ==>
              && roomId.Value? && checkIn.Value? && checkOut.Value? && HasRoom(rooms, roomId.v)
              && checkIn.v < checkOut.v && today <= checkIn.v
              && IsRoomAvailable(store, Valid(roomId.v), checkIn.v, checkOut.v)
              && var room := GetRoomById(rooms, Valid(roomId.v)).value;
                 r.1 == store + [NewBooking(store, userId, roomId.v, checkIn.v, checkOut.v,
                                            room.price * (checkOut.v - checkIn.v) as real, now)]
  {
    match CreateChecks(rooms, roomId, checkIn, checkOut)
    case Some(reply) => (reply, store)
    case None =>
      var room := GetRoomById(rooms, Valid(roomId.v)).value;
      var total := CalculateBookingPrice(room.price, checkIn.v, checkOut.v);
      var o := CreateBooking(store, userId, Valid(roomId.v), checkIn.v, checkOut.v, total, today, now);
      match o.result
      case Success(id) => (Created(id), o.store)
      case Failure(e) => (Refused(e), store)
  }

  /** The `room_id` form field as `request.form.get` sees it: `None` when the
      field was not sent at all, otherwise its text, read as an id. The
      corrected route does not tell the two empty cases apart. */
  function RoomField(sent: Option<FormValue<Id>>): (f: FormValue<Id>)
    ensures sent.None? ==> f.Blank?
    ensures sent.Some? ==> f == sent.value
  {
    match sent
    case None => Blank
    case Some(f) => f
  }

  /** `create_booking` (POST) as written. Two of its redirects cannot be
      built, so the request ends in a server error with nothing written:
      - with no `room_id` field, the missing-fields branch calls
        `url_for('booking.book_room', room_id=None)`; Werkzeug drops
        `None` arguments, so the rule `/book/<room_id>` lacks its one
        variable;
      - on an unknown room it redirects to the endpoint `room.browse`,
        which does not exist (the catalog view is `room.browse_rooms`).
      Every other request is answered as by the corrected route. */
  function CreateBookingRoute(store: Store, rooms: Rooms, userId: Id, roomId: Option<FormValue<Id>>,
                              checkIn: FormValue<int>, checkOut: FormValue<int>, today: int, now: int)
    : (r: (CreateReply, Store))
    ensures r.0 == ServerError <==> roomId.None? || UnknownRoomRequest(rooms, RoomField(roomId), checkIn, checkOut)
    ensures r.0 == ServerError ==> r.1 == store
    ensures r.0 != ServerError ==>
              r == CreateBookingRouteCorrected(store, rooms, userId, RoomField(roomId), checkIn, checkOut, today, now)
  {
    if roomId.None? then (ServerError, store)
    else
      var r := CreateBookingRouteCorrected(store, rooms, userId, roomId.value, checkIn, checkOut, today, now);
      if r.0 == RoomNotFound then (ServerError, store) else r
  }

  /** A form without a `room_id` field crashes the route as written, whatever
      the dates, while a form whose `room_id` is empty is sent back with
      "All fields are required"; the corrected route answers both alike. */
  lemma MissingRoomFieldCrashes(store: Store, rooms: Rooms, userId: Id, checkIn: FormValue<int>,
                                checkOut: FormValue<int>, today: int, now: int)
    ensures CreateBookingRoute(store, rooms, userId, None, checkIn, checkOut, today, now) == (ServerError, store)
    ensures CreateBookingRoute(store, rooms, userId, Some(Blank), checkIn, checkOut, today, now) == (MissingFields, store)
    ensures CreateBookingRouteCorrected(store, rooms, userId, Blank, checkIn, checkOut, today, now) == (MissingFields, store)
  {
  }

  /** On an empty catalog, a well-formed request for room 7 crashes the
      route as written, while the corrected route sends the user back to
      the catalog; neither writes. */
  lemma UnknownRoomCrashes(store: Store, userId: Id, today: int, now: int)
    ensures CreateBookingRoute(store, [], userId, Some(Value(7)), Value(10), Value(12), today, now) == (ServerError, store)
    ensures CreateBookingRouteCorrected(store, [], userId, Value(7), Value(10), Value(12), today, now)
            == (RoomNotFound, store)
  {
    assert UnknownRoomRequest([], Value(7), Value(10), Value(12));
  }

  /** The route only books at a positive price: a stored booking always costs
      the room's rate times a positive number of nights, so a room with a
      non-positive rate can never be booked through it. */
  lemma CreateRoutePricesPositive(store: Store, rooms: Rooms, userId: Id, roomId: Option<FormValue<Id>>,
                                  checkIn: FormValue<int>, checkOut: FormValue<int>, today: int, now: int)
    ensures var r := CreateBookingRoute(store, rooms, userId, roomId, checkIn, checkOut, today, now);
            r.0.Created? ==> r.1[|store|].totalPrice > 0.0 && GetRoomById(rooms, Valid(RoomField(roomId).v)).value.price > 0.0
  {
    var r := CreateBookingRoute(store, rooms, userId, roomId, checkIn, checkOut, today, now);
    if r.0.Created? {
      var room := GetRoomById(rooms, Valid(RoomField(roomId).v)).value;
      assert CalculateBookingPrice(room.price, checkIn.v, checkOut.v) > 0.0;
      PricePositiveIffValidRange(room.price, checkIn.v, checkOut.v);
    }
  }

  /** Since the route refuses a non-positive price first, the engine's own
      date-order check never fires for a request coming through the route. */
  lemma CreateRouteNeverReachesEngineDateCheck(store: Store, rooms: Rooms, userId: Id, roomId: Option<FormValue<Id>>,
                                               checkIn: FormValue<int>, checkOut: FormValue<int>,
                                               today: int, now: int)
    ensures CreateBookingRoute(store, rooms, userId, roomId, checkIn, checkOut, today, now).0
            != Refused(BookingError.InvalidDateRange)
  {
  }

  /** Per-status counts over a listed page of bookings. */
  function CountListed(vs: seq<BookingView>, s: Status): (n: nat)
    ensures n <= |vs|
  {
    if |vs| == 0 then 0
    else (if vs[0].booking.status == s then 1 else 0) + CountListed(vs[1..], s)
  }

  datatype ListingStats = ListingStats(total: nat, pending: nat, confirmed: nat, cancelled: nat, completed: nat)

  function Tally(vs: seq<BookingView>): (st: ListingStats)
    ensures st.total == |vs|
  {
    ListingStats(|vs|, CountListed(vs, Pending), CountListed(vs, Confirmed),
                 CountListed(vs, Cancelled), CountListed(vs, Completed))
  }

  /** The four per-status counts of a page add up to its total. The admin
      listing shows all four; `my_bookings` shows no cancelled count, so
      there the bookings missing from the three shown counts are exactly the
      cancelled ones. */
  lemma {:induction false} TallyAddsUp(vs: seq<BookingView>)
    ensures var st := Tally(vs);
            st.pending + st.confirmed + st.cancelled + st.completed == st.total
  {
    if |vs| > 0 {
      TallyAddsUp(vs[1..]);
    }
  }

  datatype ListingPage = ListingPage(bookings: seq<BookingView>, stats: ListingStats)

  /** `my_bookings`: the user's own bookings, newest first, with counts. */
  function MyBookings(s: Session, store: Store, rooms: Rooms): (g: Gate<ListingPage>)
    ensures g.ToLogin? <==> s.userId.None?
    ensures g.Proceed? ==> && g.page.stats.total == |g.page.bookings|
                           && CreatedDescending(g.page.bookings)
                           && forall v :: v in g.page.bookings ==> v.booking.userId == s.userId.value
    ensures g.Proceed? ==> && g.page.bookings == GetUserBookings(store, rooms, Valid(s.userId.value)).value
                           && g.page.stats == Tally(g.page.bookings)
  {
    LoginRequired(s, (uid: Id) =>
      var vs := match GetUserBookings(store, rooms, Valid(uid)) case Success(vs) => vs case Failure(_) => [];
      ListingPage(vs, Tally(vs)))
  }

  /** `admin_bookings`: every booking, newest first, with counts. */
  function AdminBookings(s: Session, store: Store, rooms: Rooms, users: seq<User>): (g: Gate<ListingPage>)
    ensures g.ToLogin? <==> s.userId.None?
    ensures g.Proceed? <==> s.userId.Some? && s.userRole == Some(AdminRole)
    ensures g.Proceed? ==> g.page.bookings == GetAllBookings(store, rooms, users)
                           && g.page.stats.total == |g.page.bookings|
  {
    AdminRequired(s, (uid: Id) =>
      var vs := GetAllBookings(store, rooms, users);
      ListingPage(vs, Tally(vs)))
  }

  datatype DetailsPage = BackToMyBookings | AccessDenied | Details(view: BookingView)

  /** `booking_details`: shown to an admin or to the booking's owner. */
  function BookingDetails(s: Session, store: Store, rooms: Rooms, users: seq<User>, bookingId: IdArg)
    : (g: Gate<DetailsPage>)
    ensures g.ToLogin? <==> s.userId.None?
    ensures g.Proceed? && g.page.Details? ==>
              s.userRole == Some(AdminRole) || g.page.view.booking.userId == s.userId.value
    ensures g.Proceed? && g.page.Details? ==> Success(g.page.view) == GetBookingById(store, rooms, users, bookingId)
    ensures g.Proceed? ==> (g.page.BackToMyBookings? <==> GetBookingById(store, rooms, users, bookingId).Failure?)
    ensures g.Proceed? ==>
              (g.page.AccessDenied? <==> && GetBookingById(store, rooms, users, bookingId).Success?
                                         && s.userRole != Some(AdminRole)
                                         && GetBookingById(store, rooms, users, bookingId).value.booking.userId
                                            != s.userId.value)
    ensures g.Proceed? && GetBookingById(store, rooms, users, bookingId).Success?
            && (s.userRole == Some(AdminRole)
                || GetBookingById(store, rooms, users, bookingId).value.booking.userId == s.userId.value) ==>
              g.page == Details(GetBookingById(store, rooms, users, bookingId).value)
  {
    LoginRequired(s, (uid: Id) =>
      match GetBookingById(store, rooms, users, bookingId)
      case Failure(_) => BackToMyBookings
      case Success(v) =>
        if s.userRole != Some(AdminRole) && v.booking.userId != uid then AccessDenied else Details(v))
  }

  /** The owner of a listed booking always gets its page. */
  lemma OwnerSeesOwnBooking(s: Session, store: Store, rooms: Rooms, users: seq<User>, bookingId: IdArg)
    requires s.userId.Some?
    requires GetBookingById(store, rooms, users, bookingId).Success?
    requires GetBookingById(store, rooms, users, bookingId).value.booking.userId == s.userId.value
    ensures BookingDetails(s, store, rooms, users, bookingId).Proceed?
    ensures BookingDetails(s, store, rooms, users, bookingId).page.Details?
  {
  }

  /** The owner filter `cancel_booking` passes: none for an admin. */
  function CancelOwner(s: Session, uid: Id): Option<Id> {
    if s.userRole != Some(AdminRole) then Some(uid) else None
  }

  /** `cancel_booking` (POST): a client cancels only their own booking, an
      admin any booking. */
  function CancelRoute(s: Session, store: Store, bookingId: IdArg, today: int, now: int)
    : (g: Gate<Outcome<()>>)
    ensures g.ToLogin? <==> s.userId.None?
    ensures g.Proceed? && g.page.result.Success? && s.userRole != Some(AdminRole) ==>
              && bookingId.Valid?
              && exists i :: && 0 <= i < |store| && store[i].id == bookingId.id && store[i].userId == s.userId.value
                             && g.page.store == store[i := store[i].(status := Cancelled, updatedAt := now)]
    ensures g.Proceed? && g.page.result.Failure? ==> g.page.store == store
    ensures g.Proceed? ==> g.page == CancelBooking(store, bookingId, CancelOwner(s, s.userId.value), today, now)
    ensures g.Proceed? && s.userRole == Some(AdminRole) ==> g.page == CancelBooking(store, bookingId, None, today, now)
  {
    LoginRequired(s, (uid: Id) => CancelBooking(store, bookingId, CancelOwner(s, uid), today, now))
  }

  /** A client's cancel never touches another user's booking. */
  lemma CancelRouteLeavesOthersAlone(s: Session, store: Store, bookingId: IdArg, today: int, now: int, k: nat)
    requires s.userId.Some? && s.userRole != Some(AdminRole)
    requires k < |store| && store[k].userId != s.userId.value
    ensures CancelRoute(s, store, bookingId, today, now).page.store[k] == store[k]
  {
  }

  /** `update_booking_status` (POST, admin): an absent status is invalid. */
  function UpdateStatusRoute(s: Session, store: Store, bookingId: IdArg, status: Option<string>,
                             paymentId: Option<string>, now: int): (g: Gate<Outcome<Status>>)
    ensures g.Proceed? <==> s.userId.Some? && s.userRole == Some(AdminRole)
    ensures g.Proceed? && status.None? ==> g.page == Outcome(Failure(InvalidStatus), store)
    ensures g.Proceed? && g.page.result.Success? ==> status.Some? && ParseStatus(status.value) == Some(g.page.result.value)
    ensures g.Proceed? && status.Some? ==> g.page == UpdateBookingStatus(store, bookingId, status.value, paymentId, now)
    ensures g.Proceed? && g.page.result.Success? ==>
              && bookingId.Valid? && |g.page.store| == |store|
              && exists i :: && 0 <= i < |store| && store[i].id == bookingId.id
                             && g.page.store[i].status == g.page.result.value
                             && forall j :: 0 <= j < |store| && j != i ==> g.page.store[j] == store[j]
  {
    AdminRequired(s, (uid: Id) =>
      match status
      case None => Outcome(Failure(InvalidStatus), store)
      case Some(t) => UpdateBookingStatus(store, bookingId, t, paymentId, now))
  }

  /** `admin_booking_details`: the booking for the admin modal, as JSON. */
  function AdminBookingDetails(s: Session, store: Store, rooms: Rooms, users: seq<User>, bookingId: IdArg)
    : (g: Gate<Option<BookingView>>)
    ensures g.Proceed? <==> s.userId.Some? && s.userRole == Some(AdminRole)
    ensures g.Proceed? ==> (g.page.Some? <==> GetBookingById(store, rooms, users, bookingId).Success?)
    ensures g.Proceed? && g.page.Some? ==> g.page.value == GetBookingById(store, rooms, users, bookingId).value
  {
    AdminRequired(s, (uid: Id) =>
      match GetBookingById(store, rooms, users, bookingId)
      case Success(v) => Some(v)
      case Failure(_) => None)
  }

  /** `admin_delete_booking`: despite its name and reply, the admin "delete"
      is a cancellation without owner check. */
  function AdminDeleteBooking(s: Session, store: Store, bookingId: IdArg, today: int, now: int)
    : (g: Gate<Outcome<()>>)
    ensures g.Proceed? <==> s.userId.Some? && s.userRole == Some(AdminRole)
    ensures g.Proceed? ==> g.page == CancelBooking(store, bookingId, None, today, now)
  {
    AdminRequired(s, (uid: Id) => CancelBooking(store, bookingId, None, today, now))
  }

  /** The admin delete removes nothing: the collection keeps its size and
      every booking keeps its id, and only a status can change. */
  lemma AdminDeleteKeepsRecords(s: Session, store: Store, bookingId: IdArg, today: int, now: int)
    ensures var g := AdminDeleteBooking(s, store, bookingId, today, now);
            g.Proceed? ==> && |g.page.store| == |store|
                           && forall i :: 0 <= i < |store| ==>
                                g.page.store[i].id == store[i].id && g.page.store[i].roomId == store[i].roomId
  {
  }

  datatype AvailabilityReply =
    | Available(totalPrice: real, nights: int, pricePerNight: real)
    | NotAvailable
    | InvalidRequest

  /** `check_availability` (JSON, no login): unparsable dates are a bad
      request; otherwise the room is reported available with its price only
      when no booking blocks it and the room exists. A room id that is
      absent makes a fresh ObjectId and one that does not parse makes the
      lookup fail, so both come out as `Malformed` here: not available. */
  function CheckAvailability(store: Store, rooms: Rooms, roomId: IdArg, checkIn: FormValue<int>,
                             checkOut: FormValue<int>): (r: AvailabilityReply)
    ensures r == InvalidRequest <==> !checkIn.Value? || !checkOut.Value?
    ensures r.Available? ==> && roomId.Valid? && HasRoom(rooms, roomId.id)
                             && IsRoomAvailable(store, roomId, checkIn.v, checkOut.v)
                             && r.nights == checkOut.v - checkIn.v
                             && r.pricePerNight == GetRoomById(rooms, roomId).value.price
                             && r.totalPrice == CalculateBookingPrice(r.pricePerNight, checkIn.v, checkOut.v)
    ensures (&& checkIn.Value? && checkOut.Value? && roomId.Valid? && HasRoom(rooms, roomId.id)
             && IsRoomAvailable(store, roomId, checkIn.v, checkOut.v)) ==> r.Available?
  {
    if !checkIn.Value? || !checkOut.Value? then InvalidRequest
    else if IsRoomAvailable(store, roomId, checkIn.v, checkOut.v) then
      match GetRoomById(rooms, roomId)
      case Some(room) =>
        Available(CalculateBookingPrice(room.price, checkIn.v, checkOut.v), checkOut.v - checkIn.v, room.price)
      case None => NotAvailable
    else NotAvailable
  }

  /** What the availability check promises is what booking delivers: for a
      forward range starting today or later, an "available" answer means a
      booking at the quoted price goes through. */
  lemma AvailabilityAgreesWithCreate(store: Store, rooms: Rooms, userId: Id, roomId: Id,
                                     checkIn: int, checkOut: int, today: int, now: int)
    requires CheckAvailability(store, rooms, Valid(roomId), Value(checkIn), Value(checkOut)).Available?
    requires checkIn < checkOut && today <= checkIn
    ensures var q := CheckAvailability(store, rooms, Valid(roomId), Value(checkIn), Value(checkOut));
            q.totalPrice > 0.0 ==>
              CreateBookingRoute(store, rooms, userId, Some(Value(roomId)), Value(checkIn), Value(checkOut), today, now).0.Created?
  {
  }

  /** A reversed range is not refused by the availability check: on an empty
      calendar room 1 is reported available for check-in on day 5 and
      check-out on day 3, with -2 nights at price 0. */
  lemma ReversedRangeReportedAvailable(room: Room)
    requires room.id == 1
    ensures CheckAvailability([], [room], Valid(1), Value(5), Value(3)) == Available(0.0, -2, room.price)
  {
    assert GetRoomById([room], Valid(1)) == Some(room);
  }
}

=== FILE: bookings.dfy ===
/** The booking engine of models/booking.py: the `bookings` collection, the
    availability test, and the three operations that write to it
    (`create_booking`, `cancel_booking`, `update_booking_status`).

    Dates are day numbers; `today` and `now` are inputs. The collection is a
    sequence in insertion order, so `find_one` and `update_one` act on the
    first matching record, as MongoDB does. */
module Bookings {
  import opened Common

  datatype Status = Pending | Confirmed | Cancelled | Completed {
    /** The statuses that occupy the room (`{'$in': ['pending', 'confirmed']}`). */
    predicate Active() { Pending? || Confirmed? }
    /** The statuses that count as revenue (`['confirmed', 'completed']`). */
    predicate Paid() { Confirmed? || Completed? }
  }

  function StatusName(s: Status): string {
    match s
    case Pending => "pending"
    case Confirmed => "confirmed"
    case Cancelled => "cancelled"
    case Completed => "completed"
  }

  /** Membership in `valid_statuses`. */
  function ParseStatus(t: string): Option<Status> {
    if t == "pending" then Some(Pending)
    else if t == "confirmed" then Some(Confirmed)
    else if t == "cancelled" then Some(Cancelled)
    else if t == "completed" then Some(Completed)
    else None
  }

  /** The stored status strings are exactly the four names. */
  lemma ParseStatusRoundTrip(s: Status, t: string)
    ensures ParseStatus(StatusName(s)) == Some(s)
    ensures ParseStatus(t).Some? ==> StatusName(ParseStatus(t).value) == t
  {
  }

  datatype Booking = Booking(id: Id, userId: Id, roomId: Id, checkIn: int, checkOut: int,
                             totalPrice: real, status: Status, paymentId: Option<string>,
                             createdAt: int, updatedAt: int)

  type Store = seq<Booking>

  datatype BookingError =
    | InvalidDateRange    // check-out not after check-in
    | PastCheckIn         // check-in before today
    | RoomUnavailable     // an active booking of the room conflicts
    | NotFoundOrDenied    // cancel: no booking with that id (owned by that user)
    | AlreadyCancelled
    | CannotCancelCompleted
    | TooLateToCancel     // check-in is today or earlier
    | InvalidStatus       // not one of the four status names
    | NotFoundOrUnchanged // status update matched nothing or changed nothing
    | NotFound            // read by id matched nothing
    | StorageError        // the driver raised, here because an ObjectId was malformed

  function BookingId(b: Booking): Id { b.id }

  /** The three clauses of the conflict query of `is_room_available`: the
      stored booking covers the requested check-in, or covers the requested
      check-out, or lies inside the requested period. */
  predicate Conflicts(b: Booking, reqIn: int, reqOut: int) {
    || (b.checkIn <= reqIn && b.checkOut > reqIn)
    || (b.checkIn < reqOut && b.checkOut >= reqOut)
    || (b.checkIn >= reqIn && b.checkOut <= reqOut)
  }

  /** Half-open intervals `[aIn, aOut)` and `[bIn, bOut)` intersect. */
  predicate Overlap(aIn: int, aOut: int, bIn: int, bOut: int) {
    aIn < bOut && bIn < aOut
  }

  /** A booking that makes the room unavailable for the requested range. */
  predicate Blocks(b: Booking, roomId: Id, reqIn: int, reqOut: int) {
    b.roomId == roomId && b.status.Active() && Conflicts(b, reqIn, reqOut)
  }

  /** `count_documents` of the conflict query. */
  function ConflictCount(store: Store, roomId: Id, reqIn: int, reqOut: int): nat {
    if |store| == 0 then 0
    else (if Blocks(store[0], roomId, reqIn, reqOut) then 1 else 0) + ConflictCount(store[1..], roomId, reqIn, reqOut)
  }

  lemma {:induction false} ConflictCountZero(store: Store, roomId: Id, reqIn: int, reqOut: int)
    ensures ConflictCount(store, roomId, reqIn, reqOut) == 0 <==>
              forall i :: 0 <= i < |store| ==> !Blocks(store[i], roomId, reqIn, reqOut)
  {
    if |store| > 0 {
      ConflictCountZero(store[1..], roomId, reqIn, reqOut);
      assert forall i :: 1 <= i < |store| ==> store[i] == store[1..][i - 1];
    }
  }

  /** `is_room_available`: no pending or confirmed booking of the room
      conflicts. A malformed room id makes the query raise, and the check then
      fails closed. */
  function IsRoomAvailable(store: Store, roomId: IdArg, checkIn: int, checkOut: int): (r: bool)
    ensures r <==> roomId.Valid? && forall i :: 0 <= i < |store| ==> !Blocks(store[i], roomId.id, checkIn, checkOut)
  {
    match roomId
    case Malformed => false
    case Valid(k) =>
      ConflictCountZero(store, k, checkIn, checkOut);
      ConflictCount(store, k, checkIn, checkOut) == 0
  }

  /** Half-open overlap always satisfies one of the three clauses. */
  lemma OverlapImpliesConflict(b: Booking, reqIn: int, reqOut: int)
    requires Overlap(b.checkIn, b.checkOut, reqIn, reqOut)
    ensures Conflicts(b, reqIn, reqOut)
  {
  }

  /** For a stored booking with `check_in < check_out` and a request with
      `check_in < check_out`, the three clauses say exactly that the
      half-open ranges intersect. */
  lemma ConflictIffOverlap(b: Booking, reqIn: int, reqOut: int)
    requires b.checkIn < b.checkOut && reqIn < reqOut
    ensures Conflicts(b, reqIn, reqOut) <==> Overlap(b.checkIn, b.checkOut, reqIn, reqOut)
  {
  }

  /** Ranges that only touch never conflict: a guest may arrive on the day
      another leaves. */
  lemma TouchingRangesDoNotConflict(b: Booking, reqIn: int, reqOut: int)
    requires b.checkIn < b.checkOut && reqIn < reqOut
    requires b.checkOut == reqIn || reqOut == b.checkIn
    ensures !Conflicts(b, reqIn, reqOut)
  {
    ConflictIffOverlap(b, reqIn, reqOut);
  }

  /** The request's own range must be valid too: a reversed request range
      satisfies the first clause without any overlap. */
  lemma ReversedRequestConflictsWithoutOverlap()
    ensures var b := Booking(0, 0, 0, 4, 6, 0.0, Confirmed, None, 0, 0);
            Conflicts(b, 5, 3) && !Overlap(b.checkIn, b.checkOut, 5, 3)
  {
  }

  /** With valid ranges, availability means that no pending or confirmed
      booking of the same room overlaps the requested range. */
  lemma AvailableIffNoOverlap(store: Store, roomId: Id, checkIn: int, checkOut: int)
    requires checkIn < checkOut
    requires forall i :: 0 <= i < |store| ==> store[i].checkIn < store[i].checkOut
    ensures IsRoomAvailable(store, Valid(roomId), checkIn, checkOut) <==>
              forall i :: 0 <= i < |store| && store[i].roomId == roomId && store[i].status.Active() ==>
                !Overlap(store[i].checkIn, store[i].checkOut, checkIn, checkOut)
  {
    forall i | 0 <= i < |store| {
      ConflictIffOverlap(store[i], checkIn, checkOut);
    }
  }

  /** The booking `create_booking` inserts. */
  function NewBooking(store: Store, userId: Id, roomId: Id, checkIn: int, checkOut: int,
                      totalPrice: real, now: int): Booking
  {
    Booking(FreshId(store, BookingId), userId, roomId, checkIn, checkOut, totalPrice, Pending, None, now, now)
  }

  datatype Outcome<+T> = Outcome(result: Result<T, BookingError>, store: Store)

  /** `create_booking`: checks `check_in >= check_out`, then `check_in <
      today`, then availability, and inserts a pending booking with no
      payment id and the caller's total only when all three pass. */
  function CreateBooking(store: Store, userId: Id, roomId: IdArg, checkIn: int, checkOut: int,
                         totalPrice: real, today: int, now: int): (r: Outcome<Id>)
    ensures r.result == Failure(InvalidDateRange) <==> checkIn >= checkOut
    ensures r.result == Failure(PastCheckIn) <==> checkIn < checkOut && checkIn < today
    ensures r.result == Failure(RoomUnavailable) <==>
              checkIn < checkOut && checkIn >= today && !IsRoomAvailable(store, roomId, checkIn, checkOut)
    ensures checkIn < checkOut && checkIn >= today && IsRoomAvailable(store, roomId, checkIn, checkOut)
            ==> r.result.Success?
    ensures r.result.Failure? ==> r.result.error in {InvalidDateRange, PastCheckIn, RoomUnavailable}
    ensures r.result.Failure? ==> r.store == store
    ensures r.result.Success? ==>
              && roomId.Valid?
              && r.store == store + [NewBooking(store, userId, roomId.id, checkIn, checkOut, totalPrice, now)]
              && r.result.value == r.store[|store|].id
              && forall i :: 0 <= i < |store| ==> store[i].id != r.result.value
  {
    if checkIn >= checkOut then Outcome(Failure(InvalidDateRange), store)
    else if checkIn < today then Outcome(Failure(PastCheckIn), store)
    else if !IsRoomAvailable(store, roomId, checkIn, checkOut) then Outcome(Failure(RoomUnavailable), store)
    else
      var b := NewBooking(store, userId, roomId.id, checkIn, checkOut, totalPrice, now);
      Outcome(Success(b.id), store + [b])
  }

  /** A successful create adds one record: pending, no payment id, the
      caller-supplied price, the requested dates, and a fresh id. */
  lemma CreateBookingRecord(store: Store, userId: Id, roomId: IdArg, checkIn: int, checkOut: int,
                            totalPrice: real, today: int, now: int)
    ensures var r := CreateBooking(store, userId, roomId, checkIn, checkOut, totalPrice, today, now);
            r.result.Success? ==>
              && |r.store| == |store| + 1 && r.store[..|store|] == store
              && var b := r.store[|store|];
                 && b.status == Pending && b.paymentId.None? && b.totalPrice == totalPrice
                 && b.userId == userId && b.roomId == roomId.id
                 && b.checkIn == checkIn < checkOut == b.checkOut && today <= b.checkIn
                 && b.createdAt == now && b.updatedAt == now
  {
  }

  /** Index of the first booking with id `id`, restricted to the owner when
      one is given. */
  function FindBooking(store: Store, id: Id, owner: Option<Id>): (r: Option<nat>)
    ensures r.None? <==> forall i :: 0 <= i < |store| ==> !Matches(store[i], id, owner)
    ensures r.Some? ==> r.value < |store| && Matches(store[r.value], id, owner)
    ensures r.Some? ==> forall i :: 0 <= i < r.value ==> !Matches(store[i], id, owner)
  {
    if |store| == 0 then None
    else if Matches(store[0], id, owner) then Some(0)
    else
      match FindBooking(store[1..], id, owner)
      case None =>
        assert forall i :: 1 <= i < |store| ==> store[i] == store[1..][i - 1];
        None
      case Some(k) => Some(k + 1)
  }

  /** The `find_one` query of `cancel_booking`. */
  predicate Matches(b: Booking, id: Id, owner: Option<Id>) {
    b.id == id && (owner.None? || b.userId == owner.value)
  }

  /** `cancel_booking`: the lookup is restricted to `owner` when given; then
      not found, already cancelled, completed, and a check-in on or before
      today each fail, in that order. Success changes only the status (to
      cancelled) and `updated_at` of that one booking. */
  function CancelBooking(store: Store, bookingId: IdArg, owner: Option<Id>, today: int, now: int): (r: Outcome<()>)
    ensures bookingId.Malformed? ==> r.result == Failure(StorageError)
    ensures r.result.Failure? ==> r.store == store
    ensures bookingId.Valid? ==>
              match FindBooking(store, bookingId.id, owner)
              case None => r.result == Failure(NotFoundOrDenied)
              case Some(i) =>
                && (store[i].status == Cancelled ==> r.result == Failure(AlreadyCancelled))
                && (store[i].status == Completed ==> r.result == Failure(CannotCancelCompleted))
                && (store[i].status.Active() && store[i].checkIn <= today ==> r.result == Failure(TooLateToCancel))
                && (store[i].status.Active() && store[i].checkIn > today ==>
                      r.result.Success? && r.store == store[i := store[i].(status := Cancelled, updatedAt := now)])
  {
    match bookingId
    case Malformed => Outcome(Failure(StorageError), store)
    case Valid(k) =>
      match FindBooking(store, k, owner)
      case None => Outcome(Failure(NotFoundOrDenied), store)
      case Some(i) =>
        var b := store[i];
        if b.status == Cancelled then Outcome(Failure(AlreadyCancelled), store)
        else if b.status == Completed then Outcome(Failure(CannotCancelCompleted), store)
        else if b.checkIn <= today then Outcome(Failure(TooLateToCancel), store)
        else Outcome(Success(()), store[i := b.(status := Cancelled, updatedAt := now)])
  }

  /** A successful cancel touches one record, and of it only `status` and
      `updated_at`; it needs a booking that was pending or confirmed, owned by
      `owner` when one is given, with check-in after today. */
  lemma CancelBookingFrame(store: Store, bookingId: IdArg, owner: Option<Id>, today: int, now: int)
    ensures var r := CancelBooking(store, bookingId, owner, today, now);
            r.result.Success? ==>
              && |r.store| == |store|
              && exists i :: 0 <= i < |store|
                   && store[i].id == bookingId.id
                   && (owner.Some? ==> store[i].userId == owner.value)
                   && store[i].status.Active() && store[i].checkIn > today
                   && r.store[i] == store[i].(status := Cancelled, updatedAt := now)
                   && forall j :: 0 <= j < |store| && j != i ==> r.store[j] == store[j]
  {
  }

  /** Cancelling the same booking twice fails the second time. */
  lemma CancelTwiceFails(store: Store, bookingId: IdArg, owner: Option<Id>, today: int, now: int, later: int)
    requires CancelBooking(store, bookingId, owner, today, now).result.Success?
    ensures var s := CancelBooking(store, bookingId, owner, today, now).store;
            CancelBooking(s, bookingId, owner, today, later).result == Failure(AlreadyCancelled)
  {
    var i := FindBooking(store, bookingId.id, owner).value;
    var s := CancelBooking(store, bookingId, owner, today, now).store;
    assert Matches(s[i], bookingId.id, owner);
    assert forall j :: 0 <= j < i ==> s[j] == store[j];
  }

  /** The `$set` document of `update_booking_status` applied to one booking:
      the payment id is overwritten only by a non-empty value. */
  function SetStatus(b: Booking, s: Status, paymentId: Option<string>, now: int): Booking {
    b.(status := s, updatedAt := now,
       paymentId := if Truthy(paymentId) then paymentId else b.paymentId)
  }

  /** `update_booking_status`: rejects a status outside the four names before
      anything else, then overwrites the status with no transition or
      availability check; succeeds iff a booking was found and changed. */
  function UpdateBookingStatus(store: Store, bookingId: IdArg, status: string, paymentId: Option<string>,
                               now: int): (r: Outcome<Status>)
    ensures ParseStatus(status).None? ==> r.result == Failure(InvalidStatus)
    ensures ParseStatus(status).Some? && bookingId.Malformed? ==> r.result == Failure(StorageError)
    ensures r.result.Failure? ==> r.store == store
    ensures r.result.Success? <==>
              && ParseStatus(status).Some? && bookingId.Valid?
              && exists i :: 0 <= i < |store| && store[i].id == bookingId.id
                   && (forall j :: 0 <= j < i ==> store[j].id != bookingId.id)
                   && SetStatus(store[i], ParseStatus(status).value, paymentId, now) != store[i]
    ensures r.result.Success? ==>
              exists i :: 0 <= i < |store| && store[i].id == bookingId.id
                && r.store == store[i := SetStatus(store[i], ParseStatus(status).value, paymentId, now)]
  {
    match ParseStatus(status)
    case None => Outcome(Failure(InvalidStatus), store)
    case Some(s) =>
      match bookingId
      case Malformed => Outcome(Failure(StorageError), store)
      case Valid(k) =>
        match FindBooking(store, k, None)
        case None => Outcome(Failure(NotFoundOrUnchanged), store)
        case Some(i) =>
          var nb := SetStatus(store[i], s, paymentId, now);
          if nb == store[i] then
            assert forall j :: (0 <= j < |store| && store[j].id == k && (forall m :: 0 <= m < j ==> store[m].id != k)) ==> j == i;
            Outcome(Failure(NotFoundOrUnchanged), store)
          else Outcome(Success(s), store[i := nb])
  }

  /** The admin override has no transition graph: a completed or cancelled
      booking can be set back to pending. */
  lemma UpdateStatusIgnoresTransitions(b: Booking, now: int)
    requires b.status == Cancelled || b.status == Completed
    requires b.updatedAt != now
    ensures UpdateBookingStatus([b], Valid(b.id), "pending", None, now).result == Success(Pending)
    ensures UpdateBookingStatus([b], Valid(b.id), "pending", None, now).store[0].status == Pending
  {
    assert SetStatus(b, Pending, None, now).updatedAt != b.updatedAt;
  }

  /** Only a non-empty payment id overwrites the stored one. */
  lemma UpdateStatusPaymentId(store: Store, bookingId: IdArg, status: string, paymentId: Option<string>,
                              now: int, i: nat)
    requires i < |store|
    requires UpdateBookingStatus(store, bookingId, status, paymentId, now).result.Success?
    requires store[i].id == bookingId.id
    requires forall j :: 0 <= j < i ==> store[j].id != bookingId.id
    ensures var s := UpdateBookingStatus(store, bookingId, status, paymentId, now).store;
            && (Truthy(paymentId) ==> s[i].paymentId == paymentId)
            && (!Truthy(paymentId) ==> s[i].paymentId == store[i].paymentId)
            && s[i].status == ParseStatus(status).value
            && s[i].checkIn == store[i].checkIn && s[i].checkOut == store[i].checkOut
            && s[i].totalPrice == store[i].totalPrice && s[i].roomId == store[i].roomId
  {
    var f := FindBooking(store, bookingId.id, None);
    assert Matches(store[i], bookingId.id, None);
    assert f == Some(i);
  }
}

=== FILE: common.dfy ===
/** Shared vocabulary of the hotel booking model: optional values, results,
    identifiers, request form values and the login session. */
module Common {

  /** A value that may be absent (Python's `None`). */
  datatype Option<+T> = None | Some(value: T)

  /** The `{'success': ..., ...}` dictionaries the models return. */
  datatype Result<+T, +E> = Success(value: T) | Failure(error: E)

  /** An ObjectId. Only equality and freshness matter to the model. */
  type Id = nat

  /** An identifier as it arrives in a URL or form: either text that parses as
      an ObjectId, or text that makes `ObjectId(...)` raise. */
  datatype IdArg = Valid(id: Id) | Malformed

  /** A form or query field that must be converted: `Blank` when it is absent
      or the empty string (falsy in Python), `Invalid` when it is present but
      the conversion (`float`, `int`, `strptime`, `ObjectId`) raises. */
  datatype FormValue<+T> = Blank | Invalid | Value(v: T)

  /** The Flask session keys the application reads and writes. */
  datatype Session = Session(userId: Option<Id>, userName: Option<string>, userRole: Option<string>)

  const EmptySession: Session := Session(None, None, None)

  /** Python truthiness of an optional string. */
  predicate Truthy(s: Option<string>) {
    s.Some? && s.value != ""
  }

  /** A fresh identifier for a collection: larger than every id in use, which
      is all the model needs of ObjectId generation. */
  function FreshId<T>(s: seq<T>, idOf: T -> Id): (r: Id)
    ensures forall i :: 0 <= i < |s| ==> idOf(s[i]) < r
  {
    if |s| == 0 then 0
    else
      var rest := FreshId(s[1..], idOf);
      assert forall i :: 1 <= i < |s| ==> idOf(s[i]) == idOf(s[1..][i - 1]);
      if idOf(s[0]) < rest then rest else idOf(s[0]) + 1
  }
}

=== FILE: helpers.dfy ===
/** utils/helpers.py: the two access gates every protected page sits behind
    (routes/main.py carries identical copies), and the email and password
    validators. */
module Helpers {
  import opened Common
  import opened Text
  import Users

  /** What a gated page answers: a redirect to the login page, a redirect to
      the client dashboard, or the page itself. */
  datatype Gate<+T> = ToLogin | ToDashboard | Proceed(page: T)

  /** `login_required`: the handler runs, for the session's user, only when
      a user id is in the session. */
  function LoginRequired<T>(s: Session, handler: Id -> T): (g: Gate<T>)
    ensures g.ToLogin? <==> s.userId.None?
    ensures !g.ToDashboard?
    ensures g.Proceed? ==> g.page == handler(s.userId.value)
  {
    if s.userId.None? then ToLogin else Proceed(handler(s.userId.value))
  }

  /** `admin_required`: anonymous visitors go to the login page, logged-in
      users without the admin role go to their dashboard. */
  function AdminRequired<T>(s: Session, handler: Id -> T): (g: Gate<T>)
    ensures g.ToLogin? <==> s.userId.None?
    ensures g.ToDashboard? <==> s.userId.Some? && s.userRole != Some(Users.AdminRole)
    ensures g.Proceed? ==> g.page == handler(s.userId.value)
  {
    if s.userId.None? then ToLogin
    else if s.userRole != Some(Users.AdminRole) then ToDashboard
    else Proceed(handler(s.userId.value))
  }

  /** The admin gate is the login gate plus a role check: whatever passes it
      passes the login gate with the same page, and both turn away the same
      anonymous visitors. */
  lemma AdminGateRefinesLoginGate<T>(s: Session, handler: Id -> T)
    ensures AdminRequired(s, handler).Proceed? <==> LoginRequired(s, handler).Proceed? && s.userRole == Some(Users.AdminRole)
    ensures AdminRequired(s, handler).Proceed? ==> AdminRequired(s, handler) == LoginRequired(s, handler)
    ensures AdminRequired(s, handler).ToLogin? <==> LoginRequired(s, handler).ToLogin?
  {
  }

  /** `[a-zA-Z0-9._%+-]`, the characters of the part before the `@`. */
  predicate LocalChar(c: char) {
    IsAsciiLetter(c) || IsDigit(c) || c in "._%+-"
  }

  /** `[a-zA-Z0-9.-]`, the characters of the domain before its last dot. */
  predicate DomainChar(c: char) {
    IsAsciiLetter(c) || IsDigit(c) || c in ".-"
  }

  /** The pattern `local@domain.tld` matched against the whole of `e`, with
      the `@` at `at` and the dot before the top-level domain at `dot`. */
  predicate PatternSplit(e: string, at: int, dot: int) {
    && 0 < at && at + 1 < dot && dot + 3 <= |e|
    && e[at] == '@' && e[dot] == '.'
    && (forall p :: 0 <= p < at ==> LocalChar(e[p]))
    && (forall p :: at < p < dot ==> DomainChar(e[p]))
    && (forall p :: dot < p < |e| ==> IsAsciiLetter(e[p]))
  }

  /** `e` is entirely one instance of the pattern. */
  ghost predicate MatchesPattern(e: string) {
    exists at, dot :: PatternSplit(e, at, dot)
  }

  /** Index of the first occurrence of `c`. */
  function IndexOf(s: string, c: char): (r: Option<nat>)
    ensures r.None? <==> c !in s
    ensures r.Some? ==> r.value < |s| && s[r.value] == c && c !in s[..r.value]
  {
    if |s| == 0 then None
    else if s[0] == c then Some(0)
    else
      match IndexOf(s[1..], c)
      case None => None
      case Some(k) =>
        assert s[..k + 1] == [s[0]] + s[1..][..k];
        Some(k + 1)
  }

  /** Index of the last occurrence of `c`. */
  function LastIndexOf(s: string, c: char): (r: Option<nat>)
    ensures r.None? <==> c !in s
    ensures r.Some? ==> r.value < |s| && s[r.value] == c && c !in s[r.value + 1..]
  {
    if |s| == 0 then None
    else if s[|s| - 1] == c then Some(|s| - 1)
    else
      var init := s[..|s| - 1];
      match LastIndexOf(init, c)
      case None =>
        assert s == init + [s[|s| - 1]];
        None
      case Some(k) =>
        assert s[k + 1..] == init[k + 1..] + [s[|s| - 1]];
        Some(k)
  }

  /** The matcher: split at the first `@`, then at the last dot after it,
      and check each part's characters and the length of the top-level
      domain. */
  predicate FullMatch(e: string) {
    match IndexOf(e, '@')
    case None => false
    case Some(at) =>
      match LastIndexOf(e[at + 1..], '.')
      case None => false
      case Some(k) =>
        && 0 < at && 0 < k && at + 1 + k + 3 <= |e|
        && (forall p :: 0 <= p < at ==> LocalChar(e[p]))
        && (forall p :: at < p < at + 1 + k ==> DomainChar(e[p]))
        && (forall p :: at + 1 + k < p < |e| ==> IsAsciiLetter(e[p]))
  }

  /** The first occurrence of `c` is the occurrence with no `c` before it. */
  lemma IndexOfAt(s: string, c: char, i: nat)
    requires i < |s| && s[i] == c && forall p :: 0 <= p < i ==> s[p] != c
    ensures IndexOf(s, c) == Some(i)
  {
    assert s[i] in s;
    assert forall j :: i < j <= |s| ==> s[..j][i] == c;
  }

  /** The last occurrence of `c` is the occurrence with no `c` after it. */
  lemma LastIndexOfAt(s: string, c: char, i: nat)
    requires i < |s| && s[i] == c && forall p :: i < p < |s| ==> s[p] != c
    ensures LastIndexOf(s, c) == Some(i)
  {
    assert s[i] in s;
  }

  /** An accepted string splits as the pattern does: the matcher's `@` and
      dot are the pattern's. */
  lemma FullMatchSplits(e: string)
    requires FullMatch(e)
    ensures MatchesPattern(e)
  {
    var at := IndexOf(e, '@').value;
    var rest := e[at + 1..];
    var k := LastIndexOf(rest, '.').value;
    assert rest[k] == e[at + 1 + k];
    assert PatternSplit(e, at, at + 1 + k);
  }

  /** An instance of the pattern is accepted: its `@` is the first one,
      since no character before it may be an `@`, and its dot is the last
      one, since only letters follow it. */
  lemma PatternFullyMatches(e: string, at: int, dot: int)
    requires PatternSplit(e, at, dot)
    ensures FullMatch(e)
  {
    IndexOfAt(e, '@', at);
    var rest := e[at + 1..];
    assert forall p :: 0 <= p < |rest| ==> rest[p] == e[at + 1 + p];
    LastIndexOfAt(rest, '.', dot - at - 1);
  }

  /** The matcher accepts exactly the strings that are one instance of the
      pattern. */
  lemma FullMatchIffPattern(e: string)
    ensures FullMatch(e) <==> MatchesPattern(e)
  {
    if FullMatch(e) {
      FullMatchSplits(e);
    }
    if MatchesPattern(e) {
      var at, dot :| PatternSplit(e, at, dot);
      PatternFullyMatches(e, at, dot);
    }
  }

  /** `validate_email`: `re.match` with a trailing `$`, which also accepts
      the pattern followed by one final newline. */
  function ValidateEmail(e: string): (r: bool)
    ensures r <==> MatchesPattern(e) || (|e| > 0 && e[|e| - 1] == '\n' && MatchesPattern(e[..|e| - 1]))
  {
    FullMatchIffPattern(e);
    var trimmed := if |e| > 0 && e[|e| - 1] == '\n' then e[..|e| - 1] else e;
    FullMatchIffPattern(trimmed);
    FullMatch(e) || (|e| > 0 && e[|e| - 1] == '\n' && FullMatch(e[..|e| - 1]))
  }

  /** Inside an instance of the pattern the only `@` is the separator and
      no character is whitespace. */
  lemma PatternCharacters(m: string, at: int, dot: int)
    requires PatternSplit(m, at, dot)
    ensures forall p :: 0 <= p < |m| ==> (m[p] == '@' <==> p == at) && !IsSpace(m[p])
  {
  }

  /** An accepted email has exactly one `@`, with something before it, and
      no whitespace other than the one final newline. */
  lemma ValidEmailShape(e: string)
    requires ValidateEmail(e)
    ensures exists at :: 0 < at < |e| && e[at] == '@' && forall p :: 0 <= p < |e| && e[p] == '@' ==> p == at
    ensures forall p :: 0 <= p < |e| && IsSpace(e[p]) ==> p == |e| - 1 && e[p] == '\n'
  {
    PatternOrNewline(e);
  }

  /** The shape of every instance of the pattern, with or without one
      final newline. */
  lemma PatternOrNewline(e: string)
    requires MatchesPattern(e) || (|e| > 0 && e[|e| - 1] == '\n' && MatchesPattern(e[..|e| - 1]))
    ensures exists at :: 0 < at < |e| && e[at] == '@' && forall p :: 0 <= p < |e| && e[p] == '@' ==> p == at
    ensures forall p :: 0 <= p < |e| && IsSpace(e[p]) ==> p == |e| - 1 && e[p] == '\n'
  {
    var m := if MatchesPattern(e) then e else e[..|e| - 1];
    var at, dot :| PatternSplit(m, at, dot);
    PatternCharacters(m, at, dot);
    ShapeWithNewline(e, m, at);
  }

  /** The shape of a pattern instance carries over to the instance followed
      by at most one newline. */
  lemma ShapeWithNewline(e: string, m: string, at: int)
    requires |m| == |e| || (|m| + 1 == |e| && e[|m|] == '\n')
    requires m == e[..|m|]
    requires 0 < at < |m| && forall p :: 0 <= p < |m| ==> (m[p] == '@' <==> p == at) && !IsSpace(m[p])
    ensures 0 < at < |e| && e[at] == '@' && forall p :: 0 <= p < |e| && e[p] == '@' ==> p == at
    ensures forall p :: 0 <= p < |e| && IsSpace(e[p]) ==> p == |e| - 1 && e[p] == '\n'
  {
    assert forall p :: 0 <= p < |m| ==> m[p] == e[p];
  }

  lemma AcceptsPlainAddress()
    ensures ValidateEmail("guest@hotel.com")
  {
    assert PatternSplit("guest@hotel.com", 5, 11);
  }

  /** The trailing `$` of `re.match` tolerates one final newline. */
  lemma AcceptsTrailingNewline()
    ensures ValidateEmail("guest@hotel.com\n")
  {
    var e := "guest@hotel.com\n";
    assert e[..|e| - 1] == "guest@hotel.com";
    assert PatternSplit("guest@hotel.com", 5, 11);
  }

  /** A one-letter top-level domain is refused. */
  lemma RejectsShortTopLevelDomain()
    ensures !ValidateEmail("guest@hotel.c")
  {
    var e := "guest@hotel.c";
    assert forall p :: 0 <= p < |e| && e[p] == '.' ==> p == 11;
    assert !MatchesPattern(e);
  }

  /** A second `@` is refused. */
  lemma RejectsTwoAts()
    ensures !ValidateEmail("a@b@hotel.com")
  {
    var e := "a@b@hotel.com";
    assert e[1] == '@' && e[3] == '@';
    if ValidateEmail(e) {
      ValidEmailShape(e);
    }
  }

  lemma RejectsEmpty()
    ensures !ValidateEmail("")
  {
    FullMatchIffPattern("");
  }

  /** `validate_password`: at least six characters. */
  function ValidatePassword(password: string): (r: bool)
    ensures r ==> |password| > 0
  {
    |password| >= 6
  }
}

=== FILE: location.dfy ===
/** models/location.py: the single hotel-information document, the nearby
    places search against the Google Places service (with its built-in mock
    data), and the photo, place-details and directions links. Documents are
    JSON-like values; the HTTP calls are function parameters. */
module Location {
  import opened Common
  import opened Text

  /** A JSON value as stored in MongoDB or received from the web service;
      `JTime` is a stored `datetime`, `JOid` an ObjectId. */
  datatype Json =
    | JNull
    | JBool(b: bool)
    | JNum(n: real)
    | JStr(s: string)
    | JArr(items: seq<Json>)
    | JObj(fields: map<string, Json>)
    | JTime(t: int)
    | JOid(id: Id)

  type Doc = map<string, Json>

  /** Python truthiness of a decoded value. */
  predicate JsonTruthy(v: Json) {
    match v
    case JNull => false
    case JBool(b) => b
    case JNum(n) => n != 0.0
    case JStr(s) => s != ""
    case JArr(xs) => xs != []
    case JObj(f) => f != map[]
    case JTime(_) => true
    case JOid(_) => true
  }

  /** Values `math.radians` accepts (a `bool` is an `int` in Python). */
  predicate Numeric(v: Json) {
    v.JNum? || v.JBool?
  }

  /** `d.get(k, default)`. */
  function Get(d: Doc, k: string, default: Json): (r: Json)
    ensures k !in d ==> r == default
    ensures k in d ==> r == d[k]
  {
    if k in d then d[k] else default
  }

  // ---------------------------------------------------------------- hotel info

  const HotelInfoType: string := "hotel_info"

  predicate IsHotelInfo(d: Doc) {
    "type" in d && d["type"] == JStr(HotelInfoType)
  }

  predicate HasHotelInfo(coll: seq<Doc>) {
    exists i :: 0 <= i < |coll| && IsHotelInfo(coll[i])
  }

  /** `find_one({'type': 'hotel_info'})`: the position of the first match. */
  function FindHotelInfo(coll: seq<Doc>): (r: Option<nat>)
    ensures r.None? <==> !HasHotelInfo(coll)
    ensures r.Some? ==> r.value < |coll| && IsHotelInfo(coll[r.value])
                        && forall j :: 0 <= j < r.value ==> !IsHotelInfo(coll[j])
  {
    if |coll| == 0 then None
    else if IsHotelInfo(coll[0]) then Some(0)
    else
      match FindHotelInfo(coll[1..])
      case None =>
        assert forall j :: 1 <= j < |coll| ==> coll[j] == coll[1..][j - 1];
        None
      case Some(k) =>
        assert forall j :: 1 <= j < |coll| ==> coll[j] == coll[1..][j - 1];
        Some(k + 1)
  }

  function DocId(d: Doc): Id {
    if "_id" in d && d["_id"].JOid? then d["_id"].id else 0
  }

  const DefaultName: string := "Grand Manhattan Hotel & Suites"
  const DefaultAddress: string := "234 W 42nd St, New York, NY 10036"
  const DefaultLatitude: real := 40.7590
  const DefaultLongitude: real := -73.9845

  /** The document `create_default_hotel_info` inserts, stamped with `now`
      and carrying the id the insert assigned: its name, address,
      coordinates, timestamps and type. The descriptive fields (contact,
      description, amenities, check-in and check-out times, policies,
      social media) are not part of this model. */
  function DefaultHotelInfo(now: int, id: Id): (d: Doc)
    ensures IsHotelInfo(d)
    ensures "address" in d && d["address"] == JStr(DefaultAddress)
    ensures "coordinates" in d
            && d["coordinates"] == JObj(map["latitude" := JNum(DefaultLatitude), "longitude" := JNum(DefaultLongitude)])
    ensures "updated_at" in d && d["updated_at"] == JTime(now)
  {
    map["name" := JStr(DefaultName)]
      ["created_at" := JTime(now)]
      ["_id" := JOid(id)]
      ["coordinates" := JObj(map["latitude" := JNum(DefaultLatitude), "longitude" := JNum(DefaultLongitude)])]
      ["address" := JStr(DefaultAddress)]
      ["updated_at" := JTime(now)]
      ["type" := JStr(HotelInfoType)]
  }

  /** `get_hotel_info`: the first hotel-information document; when there is
      none the default one is inserted and returned. */
  function GetHotelInfo(coll: seq<Doc>, now: int): (r: (Doc, seq<Doc>))
    ensures IsHotelInfo(r.0) && r.0 in r.1 && HasHotelInfo(r.1)
    ensures HasHotelInfo(coll) ==> r.1 == coll && r.0 == coll[FindHotelInfo(coll).value]
    ensures !HasHotelInfo(coll) ==>
              r.1 == coll + [r.0] && r.0 == DefaultHotelInfo(now, FreshId(coll, DocId))
  {
    match FindHotelInfo(coll)
    case Some(i) => (coll[i], coll)
    case None =>
      var d := DefaultHotelInfo(now, FreshId(coll, DocId));
      assert IsHotelInfo((coll + [d])[|coll|]);
      (d, coll + [d])
  }

  /** At most one default document is ever created: once the information
      has been read, reading it again writes nothing and returns the same
      document, whatever the clock says. */
  lemma GetHotelInfoIdempotent(coll: seq<Doc>, now: int, later: int)
    ensures var (d, c) := GetHotelInfo(coll, now);
            GetHotelInfo(c, later) == (d, c)
  {
    var (d, c) := GetHotelInfo(coll, now);
    if !HasHotelInfo(coll) {
      assert forall j :: 0 <= j < |coll| ==> !IsHotelInfo(c[j]);
      assert FindHotelInfo(c) == Some(|coll|);
    }
  }

  datatype UpdateResult = UpdateResult(success: bool, message: string)

  const UpdatedMessage: string := "Hotel information updated successfully"
  const NoChangesMessage: string := "No changes made"

  /** `update_hotel_info`: `updated_at` is added to the updates, which are
      `$set` on the first hotel-information document. Success means the
      server reports a modified document: there was one and the new values
      differ from the stored ones. */
  function UpdateHotelInfo(coll: seq<Doc>, updates: Doc, now: int): (r: (UpdateResult, seq<Doc>))
    ensures var changes := updates["updated_at" := JTime(now)];
            match FindHotelInfo(coll)
            case None => r.1 == coll && !r.0.success
            case Some(i) =>
              && r.1 == coll[i := coll[i] + changes]
              && (r.0.success <==> coll[i] + changes != coll[i])
    ensures r.0.message == (if r.0.success then UpdatedMessage else NoChangesMessage)
    ensures |r.1| == |coll|
  {
    var changes := updates["updated_at" := JTime(now)];
    match FindHotelInfo(coll)
    case None => (UpdateResult(false, NoChangesMessage), coll)
    case Some(i) =>
      var d := coll[i] + changes;
      var modified := d != coll[i];
      (UpdateResult(modified, if modified then UpdatedMessage else NoChangesMessage), coll[i := d])
  }

  /** The first hotel-information document is the one with none before it. */
  lemma {:induction false} FindHotelInfoAt(coll: seq<Doc>, i: nat)
    requires i < |coll| && IsHotelInfo(coll[i])
    requires forall j :: 0 <= j < i ==> !IsHotelInfo(coll[j])
    ensures FindHotelInfo(coll) == Some(i)
  {
    var r := FindHotelInfo(coll);
    assert r.Some?;
  }

  /** The updates keep the document recognisable as the hotel information. */
  predicate KeepsType(updates: Doc) {
    "type" in updates ==> updates["type"] == JStr(HotelInfoType)
  }

  /** What an update leaves behind: the hotel information read afterwards is
      the old document with the updated fields and the new timestamp laid
      over it. */
  lemma UpdateThenGet(coll: seq<Doc>, updates: Doc, now: int, later: int)
    requires HasHotelInfo(coll) && KeepsType(updates)
    ensures var c := UpdateHotelInfo(coll, updates, now).1;
            GetHotelInfo(c, later).0 == coll[FindHotelInfo(coll).value] + updates["updated_at" := JTime(now)]
  {
    var i := FindHotelInfo(coll).value;
    var d := coll[i] + updates["updated_at" := JTime(now)];
    var c := UpdateHotelInfo(coll, updates, now).1;
    assert c == coll[i := d];
    assert IsHotelInfo(d);
    FindHotelInfoAt(c, i);
  }

  /** Without a hotel-information document nothing is written and the
      update reports no change. */
  lemma UpdateWithoutDocument(coll: seq<Doc>, updates: Doc, now: int)
    requires !HasHotelInfo(coll)
    ensures UpdateHotelInfo(coll, updates, now) == (UpdateResult(false, NoChangesMessage), coll)
  {
  }

  /** A document stamped at another instant always counts as modified. */
  lemma UpdateAtNewInstantSucceeds(coll: seq<Doc>, updates: Doc, now: int)
    requires HasHotelInfo(coll)
    requires var d := coll[FindHotelInfo(coll).value]; "updated_at" !in d || d["updated_at"] != JTime(now)
    ensures UpdateHotelInfo(coll, updates, now).0.success
  {
    var i := FindHotelInfo(coll).value;
    var d := coll[i] + updates["updated_at" := JTime(now)];
    assert d["updated_at"] == JTime(now);
  }

  /** Repeating an update at the same instant reports no change and writes
      nothing new. */
  lemma RepeatedUpdateChangesNothing(coll: seq<Doc>, updates: Doc, now: int)
    requires HasHotelInfo(coll) && KeepsType(updates)
    ensures var c := UpdateHotelInfo(coll, updates, now).1;
            UpdateHotelInfo(c, updates, now) == (UpdateResult(false, NoChangesMessage), c)
  {
    var i := FindHotelInfo(coll).value;
    var changes := updates["updated_at" := JTime(now)];
    var d := coll[i] + changes;
    var c := UpdateHotelInfo(coll, updates, now).1;
    assert c == coll[i := d];
    assert IsHotelInfo(d);
    FindHotelInfoAt(c, i);
    assert c[i] + changes == c[i];
    assert c[i := c[i] + changes] == c;
  }

  // ------------------------------------------------------------- nearby places

  /** The configured key is usable: set, and not the placeholder. */
  predicate KeyConfigured(key: string) {
    key != "" && key != "YOUR_API_KEY_HERE"
  }

  const KnownTypes: seq<string> :=
    ["tourist_attraction", "restaurant", "shopping_mall", "hospital", "bank", "gas_station", "pharmacy"]

  /** The search category sent to the service: the seven known categories
      map to themselves, anything else to tourist attractions. */
  function GoogleType(t: string): (r: string)
    ensures r in KnownTypes
    ensures t in KnownTypes <==> r == t
  {
    if t in KnownTypes then t else "tourist_attraction"
  }

  /** The label shown for a live result: underscores become spaces and the
      words are title-cased. */
  function TypeLabel(t: string): (r: string)
    ensures |r| == |t| && '_' !in r
  {
    ReplaceCharRoundTrip(t, '_', ' ');
    Title(ReplaceChar(t, '_', ' '))
  }

  /** The nearby-search request: the hotel's coordinates as stored, the
      radius, the category and the key. */
  datatype PlacesRequest = PlacesRequest(latitude: Json, longitude: Json, radius: int, placeType: string, key: string)

  /** What `requests.get` yields: no response at all (it raised), or a status
      code and a body that decodes as JSON or does not (`None`). */
  datatype HttpReply = NoResponse | Reply(status: int, body: Option<Json>)

  /** A place of the live answer. The distance string is not modelled. */
  datatype Place = Place(name: Json, address: Json, rating: Json, typeLabel: string, lat: Json, lng: Json,
                         placeId: Json, photoReference: Json, priceLevel: Json, userRatingsTotal: Json)

  /** A place of the built-in mock data. */
  datatype MockPlace = MockPlace(name: string, address: string, distance: string, rating: real,
                                 kind: string, lat: real, lng: real)

  datatype Nearby = Live(places: seq<Place>) | Mock(mock: seq<MockPlace>)

  /** The attractions shown without a usable key. */
  const MockAttractions: seq<MockPlace> := [
    MockPlace("Times Square", "Times Square, New York, NY 10036", "0.1 miles", 4.2, "Tourist Attraction", 40.7580, -73.9855),
    MockPlace("Broadway Theater District", "Broadway, New York, NY 10036", "0.2 miles", 4.8, "Entertainment District", 40.7590, -73.9845),
    MockPlace("Empire State Building", "350 5th Ave, New York, NY 10118", "0.6 miles", 4.5, "Landmark", 40.7484, -73.9857),
    MockPlace("Central Park", "Central Park, New York, NY 10024", "0.8 miles", 4.7, "Park", 40.7829, -73.9654),
    MockPlace("Rockefeller Center", "45 Rockefeller Plaza, New York, NY 10111", "0.4 miles", 4.6, "Tourist Attraction", 40.7587, -73.9787)]

  /** The restaurants shown without a usable key. */
  const MockRestaurants: seq<MockPlace> := [
    MockPlace("Carmines", "200 W 44th St, New York, NY 10036", "0.1 miles", 4.4, "Italian Restaurant", 40.7589, -73.9851),
    MockPlace("Juniors Restaurant", "386 Flatbush Ave Ext, Brooklyn, NY 11201", "0.2 miles", 4.3, "American Restaurant", 40.7580, -73.9840),
    MockPlace("The View Restaurant", "1535 Broadway, New York, NY 10036", "0.1 miles", 4.2, "American Fine Dining", 40.7582, -73.9856),
    MockPlace("Blue Fin", "1567 Broadway, New York, NY 10036", "0.1 miles", 4.1, "Seafood Restaurant", 40.7590, -73.9850),
    MockPlace("Joe Allen Restaurant", "326 W 46th St, New York, NY 10036", "0.2 miles", 4.3, "American Bistro", 40.7595, -73.9870)]

  /** The shopping places shown without a usable key. */
  const MockShopping: seq<MockPlace> := [
    MockPlace("Times Square Tower", "7 Times Square, New York, NY 10036", "0.1 miles", 4.2, "Shopping Center", 40.7580, -73.9855),
    MockPlace("Macy's Herald Square", "151 W 34th St, New York, NY 10001", "0.7 miles", 4.1, "Department Store", 40.7505, -73.9934),
    MockPlace("Bryant Park Shops", "Bryant Park, New York, NY 10018", "0.3 miles", 4.3, "Shopping District", 40.7536, -73.9832),
    MockPlace("The Shops at Columbus Circle", "10 Columbus Cir, New York, NY 10019", "0.9 miles", 4.4, "Shopping Mall", 40.7681, -73.9819)]

  /** `_get_mock_places`: five attractions, five restaurants, four shopping
      places, nothing for any other category. */
  function MockPlaces(t: string): (r: seq<MockPlace>)
    ensures t == "tourist_attraction" ==> |r| == 5
    ensures t == "restaurant" ==> |r| == 5
    ensures t == "shopping_mall" ==> |r| == 4
    ensures t !in ["tourist_attraction", "restaurant", "shopping_mall"] ==> r == []
  {
    if t == "tourist_attraction" then MockAttractions
    else if t == "restaurant" then MockRestaurants
    else if t == "shopping_mall" then MockShopping
    else []
  }

  /** `x['location']` and the like: indexing succeeds only on an object
      holding the key. */
  function Field(v: Json, k: string): (r: Option<Json>)
    ensures r.Some? <==> v.JObj? && k in v.fields
    ensures r.Some? ==> r.value == v.fields[k]
  {
    if v.JObj? && k in v.fields then Some(v.fields[k]) else None
  }

  /** `place.get('photos', [{}])[0].get('photo_reference', '')` when the
      photos are truthy, `''` otherwise; `None` where Python raises. */
  function PhotoReference(p: Doc): (r: Option<Json>)
    ensures !JsonTruthy(Get(p, "photos", JNull)) ==> r == Some(JStr(""))
    ensures r.Some? && JsonTruthy(Get(p, "photos", JNull)) ==>
              p["photos"].JArr? && p["photos"].items[0].JObj?
  {
    var photos := Get(p, "photos", JNull);
    if !JsonTruthy(photos) then Some(JStr(""))
    else if photos.JArr? && photos.items[0].JObj? then Some(Get(photos.items[0].fields, "photo_reference", JStr("")))
    else None
  }

  /** An entry of the service's `results` that a place can be built from:
      an object whose `geometry` object holds a `location` object with
      numeric `lat` and `lng`, with readable photos, next to a hotel whose
      stored coordinates are numeric too. */
  predicate ReadableResult(v: Json, hotelLat: Json, hotelLng: Json) {
    && Numeric(hotelLat) && Numeric(hotelLng)
    && v.JObj? && PhotoReference(v.fields).Some?
    && "geometry" in v.fields && v.fields["geometry"].JObj?
    && "location" in v.fields["geometry"].fields
    && var loc := v.fields["geometry"].fields["location"];
       && loc.JObj? && "lat" in loc.fields && "lng" in loc.fields
       && Numeric(loc.fields["lat"]) && Numeric(loc.fields["lng"])
  }

  /** One entry of the service's `results` turned into a place; `None`
      where building it raises: the entry is not an object, its
      `geometry.location.lat`/`lng` is missing, a coordinate is not a number
      (the distance computation), or the photos are malformed. */
  function PlaceFrom(v: Json, t: string, hotelLat: Json, hotelLng: Json): (r: Option<Place>)
    ensures r.Some? <==> ReadableResult(v, hotelLat, hotelLng)
    ensures r.Some? ==> v.JObj? && Numeric(hotelLat) && Numeric(hotelLng)
    ensures r.Some? ==> && r.value.lat == v.fields["geometry"].fields["location"].fields["lat"]
                        && r.value.lng == v.fields["geometry"].fields["location"].fields["lng"]
    ensures r.Some? ==> && r.value.typeLabel == TypeLabel(t)
                        && r.value.name == Get(v.fields, "name", JStr("Unknown"))
                        && r.value.address == Get(v.fields, "vicinity", JStr("Address not available"))
                        && Numeric(r.value.lat) && Numeric(r.value.lng)
  {
    if !v.JObj? then None
    else
      var p := v.fields;
      match Field(v, "geometry")
      case None => None
      case Some(g) =>
        match Field(g, "location")
        case None => None
        case Some(loc) =>
          match (Field(loc, "lat"), Field(loc, "lng"), PhotoReference(p))
          case (Some(lat), Some(lng), Some(photo)) =>
            if Numeric(lat) && Numeric(lng) && Numeric(hotelLat) && Numeric(hotelLng) then
              Some(Place(Get(p, "name", JStr("Unknown")), Get(p, "vicinity", JStr("Address not available")),
                         Get(p, "rating", JNum(0.0)), TypeLabel(t), lat, lng,
                         Get(p, "place_id", JStr("")), photo,
                         Get(p, "price_level", JNum(0.0)), Get(p, "user_ratings_total", JNum(0.0))))
            else None
          case _ => None
  }

  /** The loop over the results: every entry must become a place, otherwise
      the whole loop raises. */
  function PlacesFrom(xs: seq<Json>, t: string, hotelLat: Json, hotelLng: Json): (r: Option<seq<Place>>)
    ensures r.Some? <==> forall i :: 0 <= i < |xs| ==> PlaceFrom(xs[i], t, hotelLat, hotelLng).Some?
    ensures r.Some? ==> |r.value| == |xs|
                        && forall i :: 0 <= i < |xs| ==> r.value[i] == PlaceFrom(xs[i], t, hotelLat, hotelLng).value
  {
    if |xs| == 0 then Some([])
    else
      match (PlaceFrom(xs[0], t, hotelLat, hotelLng), PlacesFrom(xs[1..], t, hotelLat, hotelLng))
      case (Some(p), Some(ps)) =>
        assert forall i :: 1 <= i < |xs| ==> xs[i] == xs[1..][i - 1];
        Some([p] + ps)
      case (None, _) => None
      case (_, None) =>
        assert forall i :: 1 <= i < |xs| ==> xs[i] == xs[1..][i - 1];
        None
  }

  /** `data.get('results', [])[:10]`: a list is cut to its first ten
      entries; an empty string slices to nothing; a non-empty string yields
      characters, on which `.get` raises; anything else cannot be sliced. */
  function ResultsOf(data: Doc): (r: Option<seq<Json>>)
    ensures "results" !in data ==> r == Some([])
    ensures r.Some? ==> |r.value| <= 10
    ensures "results" in data && data["results"].JArr? ==>
              var xs := data["results"].items;
              r == Some(if |xs| <= 10 then xs else xs[..10])
  {
    match Get(data, "results", JArr([]))
    case JArr(xs) => Some(if |xs| <= 10 then xs else xs[..10])
    case JStr(s) => if s == "" then Some([]) else None
    case _ => None
  }

  /** The answer when the service is asked: a 200 reply whose body is an
      object with usable results gives the live places, every other reply
      the mock data. */
  function LiveAnswer(reply: HttpReply, t: string, hotelLat: Json, hotelLng: Json): (r: Nearby)
    ensures r.Live? ==> && reply.Reply? && reply.status == 200 && reply.body.Some? && reply.body.value.JObj?
                        && |r.places| <= 10
                        && forall i :: 0 <= i < |r.places| ==> r.places[i].typeLabel == TypeLabel(t)
    ensures r.Mock? ==> r.mock == MockPlaces(t)
    ensures reply.Reply? && reply.status == 200 && reply.body.Some? && reply.body.value.JObj?
            && ResultsOf(reply.body.value.fields).Some? ==>
              var xs := ResultsOf(reply.body.value.fields).value;
              r.Live? <==> forall i :: 0 <= i < |xs| ==> PlaceFrom(xs[i], t, hotelLat, hotelLng).Some?
  {
    if reply.NoResponse? || reply.status != 200 || reply.body.None? || !reply.body.value.JObj? then Mock(MockPlaces(t))
    else
      match ResultsOf(reply.body.value.fields)
      case None => Mock(MockPlaces(t))
      case Some(xs) =>
        match PlacesFrom(xs, t, hotelLat, hotelLng)
        case None => Mock(MockPlaces(t))
        case Some(ps) => Live(ps)
  }

  /** `get_nearby_places`: without a usable key the mock data, and the
      database is not touched. Otherwise the hotel information is read (and
      created if missing); without usable coordinates the mock data;
      otherwise the service is asked for the mapped category around the
      stored coordinates. Every failure falls back to the mock data. */
  function NearbyPlaces(coll: seq<Doc>, key: string, t: string, radius: int,
                        fetch: PlacesRequest -> HttpReply, now: int): (r: (Nearby, seq<Doc>))
    ensures !KeyConfigured(key) ==> r == (Mock(MockPlaces(t)), coll)
    ensures KeyConfigured(key) ==> r.1 == GetHotelInfo(coll, now).1
    ensures r.0.Mock? ==> r.0.mock == MockPlaces(t)
    ensures r.0.Live? ==>
              && KeyConfigured(key) && |r.0.places| <= 10
              && (forall i :: 0 <= i < |r.0.places| ==> r.0.places[i].typeLabel == TypeLabel(t))
              && exists lat, lng :: fetch(PlacesRequest(lat, lng, radius, GoogleType(t), key)).Reply?
                                  && fetch(PlacesRequest(lat, lng, radius, GoogleType(t), key)).status == 200
  {
    if !KeyConfigured(key) then (Mock(MockPlaces(t)), coll)
    else
      var (info, coll') := GetHotelInfo(coll, now);
      if "coordinates" !in info then (Mock(MockPlaces(t)), coll')
      else
        match (Field(info["coordinates"], "latitude"), Field(info["coordinates"], "longitude"))
        case (Some(lat), Some(lng)) =>
          var reply := fetch(PlacesRequest(lat, lng, radius, GoogleType(t), key));
          (LiveAnswer(reply, t, lat, lng), coll')
        case _ => (Mock(MockPlaces(t)), coll')
  }

  /** With a usable key and stored coordinates, the answer is the service's
      answer for the mapped category around those coordinates. */
  lemma NearbyAsksService(coll: seq<Doc>, key: string, t: string, radius: int,
                          fetch: PlacesRequest -> HttpReply, now: int, lat: Json, lng: Json)
    requires KeyConfigured(key)
    requires var info := GetHotelInfo(coll, now).0;
             "coordinates" in info
             && Field(info["coordinates"], "latitude") == Some(lat)
             && Field(info["coordinates"], "longitude") == Some(lng)
    ensures NearbyPlaces(coll, key, t, radius, fetch, now).0
            == LiveAnswer(fetch(PlacesRequest(lat, lng, radius, GoogleType(t), key)), t, lat, lng)
  {
  }

  /** Without a usable key a category outside the three mocked ones shows
      no places at all, even one the live search knows (`hospital`). */
  lemma KeylessHospitalIsEmpty(coll: seq<Doc>, radius: int, fetch: PlacesRequest -> HttpReply, now: int)
    ensures NearbyPlaces(coll, "YOUR_API_KEY_HERE", "hospital", radius, fetch, now) == (Mock([]), coll)
    ensures GoogleType("hospital") == "hospital"
  {
  }

  // ------------------------------------------------------------- links

  const PhotoPrefix: string := "https://maps.googleapis.com/maps/api/place/photo?maxwidth="

  /** `get_place_photo_url`: no link without a reference or a usable key;
      otherwise the photo endpoint with width, reference and key. */
  function PlacePhotoUrl(reference: string, maxWidth: int, key: string): (r: Option<string>)
    ensures r.None? <==> reference == "" || !KeyConfigured(key)
    ensures r.Some? ==> && |PhotoPrefix| + |key| <= |r.value|
                        && r.value[..|PhotoPrefix|] == PhotoPrefix
                        && r.value[|r.value| - |key|..] == key
  {
    if reference == "" || !KeyConfigured(key) then None
    else Some(PhotoPrefix + IntToString(maxWidth) + "&photoreference=" + reference + "&key=" + key)
  }

  /** The width written into the link reads back as the requested width. */
  lemma PhotoUrlWidthRoundTrip(reference: string, maxWidth: nat, key: string)
    requires reference != "" && KeyConfigured(key)
    ensures var u := PlacePhotoUrl(reference, maxWidth, key).value;
            var n := |NatToString(maxWidth)|;
            && |PhotoPrefix| + n <= |u|
            && (forall i :: |PhotoPrefix| <= i < |PhotoPrefix| + n ==> IsDigit(u[i]))
            && DigitsValue(u[|PhotoPrefix|..|PhotoPrefix| + n]) == maxWidth
            && u[|PhotoPrefix| + n] == '&'
  {
    var u := PlacePhotoUrl(reference, maxWidth, key).value;
    var digits := NatToString(maxWidth);
    assert u == PhotoPrefix + digits + ("&photoreference=" + reference + "&key=" + key);
    assert u[|PhotoPrefix|..|PhotoPrefix| + |digits|] == digits;
    NatToStringRoundTrip(maxWidth);
  }

  datatype DetailsRequest = DetailsRequest(placeId: string, fields: string, key: string)

  const DetailFields: string :=
    "name,formatted_address,formatted_phone_number,website,opening_hours,reviews,photos,rating,price_level"

  /** `get_place_details`: no lookup without a place id or a usable key; a
      200 reply with an object body gives its `result` (an empty object when
      absent); every other reply gives nothing. */
  function PlaceDetails(placeId: string, key: string, fetch: DetailsRequest -> HttpReply): (r: Option<Json>)
    ensures r.Some? ==> && placeId != "" && KeyConfigured(key)
                        && var reply := fetch(DetailsRequest(placeId, DetailFields, key));
                           && reply.Reply? && reply.status == 200 && reply.body.Some? && reply.body.value.JObj?
                           && r.value == Get(reply.body.value.fields, "result", JObj(map[]))
    ensures var reply := fetch(DetailsRequest(placeId, DetailFields, key));
            (placeId != "" && KeyConfigured(key) && reply.Reply? && reply.status == 200
             && reply.body.Some? && reply.body.value.JObj?) ==> r.Some?
  {
    if placeId == "" || !KeyConfigured(key) then None
    else
      var reply := fetch(DetailsRequest(placeId, DetailFields, key));
      if reply.NoResponse? || reply.status != 200 || reply.body.None? || !reply.body.value.JObj? then None
      else Some(Get(reply.body.value.fields, "result", JObj(map[])))
  }

  const DirectionsPrefix: string := "https://www.google.com/maps/dir/"
  const PlacePrefix: string := "https://www.google.com/maps/place/"

  /** Spaces become `+` in the map links. */
  function Plus(s: string): (r: string)
    ensures |r| == |s| && ' ' !in r
  {
    ReplaceCharRoundTrip(s, ' ', '+');
    ReplaceChar(s, ' ', '+')
  }

  /** `get_directions_url`: from the hotel to the destination when one is
      given, otherwise to the hotel. The hotel information is read (and
      created if missing) first. `None` stands for the `AttributeError`
      raised when the stored address is not text. */
  function DirectionsUrl(coll: seq<Doc>, destination: Option<string>, now: int): (r: (Option<string>, seq<Doc>))
    ensures r.1 == GetHotelInfo(coll, now).1
    ensures var address := Get(GetHotelInfo(coll, now).0, "address", JStr(""));
            && (r.0.Some? <==> address.JStr?)
            && (r.0.Some? && Truthy(destination) ==>
                  r.0.value == DirectionsPrefix + Plus(address.s) + "/" + Plus(destination.value))
            && (r.0.Some? && !Truthy(destination) ==> r.0.value == PlacePrefix + Plus(address.s))
  {
    var (info, coll') := GetHotelInfo(coll, now);
    match Get(info, "address", JStr(""))
    case JStr(a) =>
      if Truthy(destination) then (Some(DirectionsPrefix + Plus(a) + "/" + Plus(destination.value)), coll')
      else (Some(PlacePrefix + Plus(a)), coll')
    case _ => (None, coll')
  }

  /** A link to the hotel gives the address back: undoing the `+`
      substitution recovers it whenever the address has no `+` of its own. */
  lemma DirectionsRecoverAddress(coll: seq<Doc>, now: int)
    ensures var address := Get(GetHotelInfo(coll, now).0, "address", JStr(""));
            var u := DirectionsUrl(coll, None, now).0;
            address.JStr? && '+' !in address.s ==>
              && u.Some? && u.value[..|PlacePrefix|] == PlacePrefix
              && ReplaceChar(u.value[|PlacePrefix|..], '+', ' ') == address.s
  {
    var address := Get(GetHotelInfo(coll, now).0, "address", JStr(""));
    if address.JStr? && '+' !in address.s {
      var u := DirectionsUrl(coll, None, now).0.value;
      assert u[|PlacePrefix|..] == Plus(address.s);
      ReplaceCharRoundTrip(address.s, ' ', '+');
    }
  }

  /** The default hotel's link. */
  lemma DefaultHotelLink(now: int)
    ensures DirectionsUrl([], None, now).0 == Some(PlacePrefix + "234+W+42nd+St,+New+York,+NY+10036")
  {
    assert Plus(DefaultAddress) == "234+W+42nd+St,+New+York,+NY+10036";
  }
}

=== FILE: location_routes.dfy ===
/** routes/location.py: the hotel information and contact pages, the JSON
    endpoints for nearby places, place details and photos, the directions
    redirect, and the admin page and update endpoint for the hotel
    information. */
module LocationRoutes {
  import opened Common
  import opened Users
  import opened Location
  import opened Helpers
  import opened Text

  datatype HotelInfoPage = HotelInfoPage(info: Doc, attractions: Nearby, restaurants: Nearby, shopping: Nearby)

  /** `/hotel-info`: the hotel information and three nearby searches with
      the default radius. Only the first read may write, and only the
      default document. */
  function HotelInfo(coll: seq<Doc>, key: string, fetch: PlacesRequest -> HttpReply, now: int)
    : (r: (HotelInfoPage, seq<Doc>))
    ensures (r.0.info, r.1) == GetHotelInfo(coll, now)
    ensures r.0.attractions.Mock? ==> r.0.attractions.mock == MockPlaces("tourist_attraction")
    ensures r.0.restaurants.Mock? ==> r.0.restaurants.mock == MockPlaces("restaurant")
    ensures r.0.shopping.Mock? ==> r.0.shopping.mock == MockPlaces("shopping_mall")
    ensures !KeyConfigured(key) ==> && r.0.attractions.Mock? && |r.0.attractions.mock| == 5
                                    && r.0.restaurants.Mock? && |r.0.restaurants.mock| == 5
                                    && r.0.shopping.Mock? && |r.0.shopping.mock| == 4
    ensures var after := GetHotelInfo(coll, now).1;
            && r.0.attractions == NearbyPlaces(after, key, "tourist_attraction", 5000, fetch, now).0
            && r.0.restaurants == NearbyPlaces(after, key, "restaurant", 5000, fetch, now).0
            && r.0.shopping == NearbyPlaces(after, key, "shopping_mall", 5000, fetch, now).0
  {
    var (info, c1) := GetHotelInfo(coll, now);
    var (attractions, c2) := NearbyPlaces(c1, key, "tourist_attraction", 5000, fetch, now);
    GetHotelInfoIdempotent(coll, now, now);
    var (restaurants, c3) := NearbyPlaces(c2, key, "restaurant", 5000, fetch, now);
    var (shopping, c4) := NearbyPlaces(c3, key, "shopping_mall", 5000, fetch, now);
    (HotelInfoPage(info, attractions, restaurants, shopping), c4)
  }

  /** `/contact`: the hotel information. */
  function Contact(coll: seq<Doc>, now: int): (r: (Doc, seq<Doc>))
    ensures IsHotelInfo(r.0) && r.0 in r.1
    ensures HasHotelInfo(coll) ==> r.1 == coll
  {
    GetHotelInfo(coll, now)
  }

  /** The contact page and the hotel page show the same document. */
  lemma ContactMatchesHotelPage(coll: seq<Doc>, key: string, fetch: PlacesRequest -> HttpReply, now: int)
    ensures Contact(coll, now) == (HotelInfo(coll, key, fetch, now).0.info, HotelInfo(coll, key, fetch, now).1)
  {
  }

  datatype NearbyReply = NearbyReply(success: bool, places: Nearby, placeType: string)

  /** The `type=int` conversion of a query argument: the default when it is
      absent or does not convert. */
  function IntArg(arg: FormValue<int>, default: int): (r: int)
    ensures arg.Value? ==> r == arg.v
    ensures !arg.Value? ==> r == default
  {
    if arg.Value? then arg.v else default
  }

  /** `/api/nearby-places`: the category defaults to tourist attractions
      and the radius to 5000; the reply always reports success. */
  function ApiNearbyPlaces(coll: seq<Doc>, placeType: Option<string>, radius: FormValue<int>, key: string,
                           fetch: PlacesRequest -> HttpReply, now: int): (r: (NearbyReply, seq<Doc>))
    ensures r.0.success
    ensures r.0.placeType == (if placeType.Some? then placeType.value else "tourist_attraction")
    ensures r.0.places.Mock? ==> r.0.places.mock == MockPlaces(r.0.placeType)
    ensures !KeyConfigured(key) ==> r.1 == coll
    ensures var n := NearbyPlaces(coll, key, r.0.placeType, IntArg(radius, 5000), fetch, now);
            r.0.places == n.0 && r.1 == n.1
  {
    var t := if placeType.Some? then placeType.value else "tourist_attraction";
    var (places, coll') := NearbyPlaces(coll, key, t, IntArg(radius, 5000), fetch, now);
    (NearbyReply(true, places, t), coll')
  }

  /** A request without arguments, or with a radius that is not a number,
      searches tourist attractions within 5000 metres. */
  lemma NearbyDefaults(coll: seq<Doc>, key: string, fetch: PlacesRequest -> HttpReply, now: int)
    ensures ApiNearbyPlaces(coll, None, Blank, key, fetch, now)
            == ApiNearbyPlaces(coll, Some("tourist_attraction"), Value(5000), key, fetch, now)
    ensures ApiNearbyPlaces(coll, None, Invalid, key, fetch, now)
            == ApiNearbyPlaces(coll, None, Blank, key, fetch, now)
  {
  }

  datatype DirectionsReply = RedirectTo(url: string) | ServerError

  /** `/directions`: an empty `to` asks for the way to the hotel. A stored
      address that is not text makes the link builder raise. */
  function Directions(coll: seq<Doc>, to: Option<string>, now: int): (r: (DirectionsReply, seq<Doc>))
    ensures r.1 == GetHotelInfo(coll, now).1
    ensures r.0.RedirectTo? <==> Get(GetHotelInfo(coll, now).0, "address", JStr("")).JStr?
    ensures r.0.RedirectTo? && Truthy(to) ==> DirectionsPrefix <= r.0.url
    ensures r.0.RedirectTo? && !Truthy(to) ==> PlacePrefix <= r.0.url
    ensures r.0.RedirectTo? ==> Some(r.0.url) == DirectionsUrl(coll, if Truthy(to) then to else None, now).0
  {
    var destination := if Truthy(to) then to else None;
    var (url, coll') := DirectionsUrl(coll, destination, now);
    match url
    case Some(u) => (RedirectTo(u), coll')
    case None => (ServerError, coll')
  }

  /** An empty `to` is the same request as none. */
  lemma EmptyDestinationMeansHotel(coll: seq<Doc>, now: int)
    ensures Directions(coll, Some(""), now) == Directions(coll, None, now)
  {
  }

  /** The stored account, not the session, has the admin role. */
  predicate StoredAdmin(users: seq<User>, uid: Id) {
    var u := GetUserById(users, Valid(uid));
    u.Some? && u.value.role == AdminRole
  }

  /** `/admin/hotel-info`: anonymous visitors go to the login page; users
      whose stored account is not an admin go to their dashboard; admins see
      the hotel information. */
  function AdminHotelInfo(s: Session, users: seq<User>, coll: seq<Doc>, now: int): (r: (Gate<Doc>, seq<Doc>))
    ensures r.0.ToLogin? <==> s.userId.None?
    ensures r.0.ToDashboard? <==> s.userId.Some? && !StoredAdmin(users, s.userId.value)
    ensures r.0.Proceed? ==> (r.0.page, r.1) == GetHotelInfo(coll, now)
    ensures !r.0.Proceed? ==> r.1 == coll
  {
    if s.userId.None? then (ToLogin, coll)
    else if !StoredAdmin(users, s.userId.value) then (ToDashboard, coll)
    else
      var (info, coll') := GetHotelInfo(coll, now);
      (Proceed(info), coll')
  }

  /** Unlike the admin gate, which trusts the role written into the session
      at login, this page asks the stored account: a user demoted after
      logging in passes the gate but not this page, and an account promoted
      after logging in passes this page but not the gate. */
  lemma AdminPageTrustsStoredRole<T>(s: Session, users: seq<User>, coll: seq<Doc>, now: int, handler: Id -> T)
    requires s.userId.Some?
    ensures s.userRole == Some(AdminRole) && !StoredAdmin(users, s.userId.value) ==>
              AdminRequired(s, handler).Proceed? && AdminHotelInfo(s, users, coll, now).0.ToDashboard?
    ensures s.userRole != Some(AdminRole) && StoredAdmin(users, s.userId.value) ==>
              AdminRequired(s, handler).ToDashboard? && AdminHotelInfo(s, users, coll, now).0.Proceed?
  {
  }

  /** The fields the update endpoint takes from the request. */
  const EditableFields: seq<string> := ["name", "address", "coordinates", "contact", "description", "amenities", "policies"]

  predicate IsSubstring(k: string, s: string) {
    exists i :: 0 <= i <= |s| && k <= s[i..]
  }

  /** `k in data` on a decoded body that is a list or a string: membership,
      respectively substring. */
  predicate Mentions(data: Json, k: string) {
    (data.JArr? && JStr(k) in data.items) || (data.JStr? && IsSubstring(k, data.s))
  }

  /** The updates the endpoint builds from the request body, or `None` where
      building them raises: no JSON body; a body that is not an object, list
      or string (`in` raises); a list or string mentioning an editable field
      (indexing it by that name raises). An object gives its editable
      fields; a list or string mentioning none gives no field at all. */
  function RequestUpdates(body: Option<Json>): (r: Option<Doc>)
    ensures r.Some? ==> (forall k :: k in r.value ==> k in EditableFields) && KeepsType(r.value)
    ensures body.Some? && body.value.JObj? ==>
              && r.Some?
              && (forall k :: k in r.value <==> k in body.value.fields && k in EditableFields)
              && (forall k :: k in r.value ==> r.value[k] == body.value.fields[k])
    ensures r.Some? && !(body.Some? && body.value.JObj?) ==> r.value == map[]
  {
    match body
    case None => None
    case Some(JObj(f)) => Some(map k | k in f && k in EditableFields :: f[k])
    case Some(data) =>
      if !(data.JArr? || data.JStr?) then None
      else if exists k :: k in EditableFields && Mentions(data, k) then None
      else Some(map[])
  }

  /** The endpoint's answers: the two refusals, the update's own result,
      the failure reply of the `except` branch, and an internal server
      error. */
  datatype UpdateReply =
    | AuthRequired
    | AdminAccessRequired
    | Updated(result: UpdateResult)
    | UpdateFailed
    | ServerFailure

  /** `/admin/hotel-info/update` as written. After the update the handler
      calls `close_connection` on the user model, which has no such method;
      the `AttributeError` lands in the `except` branch, which calls it
      again, so every admin request ends in a server error, whether or not
      the write went through. */
  function AdminUpdateHotelInfoAsWritten(s: Session, users: seq<User>, coll: seq<Doc>, body: Option<Json>, now: int)
    : (r: (UpdateReply, seq<Doc>))
    ensures s.userId.None? ==> r == (AuthRequired, coll)
    ensures s.userId.Some? && !StoredAdmin(users, s.userId.value) ==> r == (AdminAccessRequired, coll)
    ensures s.userId.Some? && StoredAdmin(users, s.userId.value) ==>
              && r.0 == ServerFailure
              && r.1 == (match RequestUpdates(body)
                         case Some(u) => UpdateHotelInfo(coll, u, now).1
                         case None => coll)
  {
    if s.userId.None? then (AuthRequired, coll)
    else if !StoredAdmin(users, s.userId.value) then (AdminAccessRequired, coll)
    else
      match RequestUpdates(body)
      case None => (ServerFailure, coll)
      case Some(u) => (ServerFailure, UpdateHotelInfo(coll, u, now).1)
  }

  /** `/admin/hotel-info/update` as intended: the update's result is the
      reply, and a request whose updates cannot be built gets the failure
      reply with nothing written. */
  function AdminUpdateHotelInfo(s: Session, users: seq<User>, coll: seq<Doc>, body: Option<Json>, now: int)
    : (r: (UpdateReply, seq<Doc>))
    ensures s.userId.None? ==> r == (AuthRequired, coll)
    ensures s.userId.Some? && !StoredAdmin(users, s.userId.value) ==> r == (AdminAccessRequired, coll)
    ensures s.userId.Some? && StoredAdmin(users, s.userId.value) ==>
              && (r.0.Updated? <==> RequestUpdates(body).Some?)
              && (r.0 == UpdateFailed <==> RequestUpdates(body).None?)
    ensures r.0.Updated? ==> (r.0.result.success <==> r.1 != coll)
    ensures !r.0.Updated? ==> r.1 == coll
    ensures r.0 != ServerFailure
  {
    if s.userId.None? then (AuthRequired, coll)
    else if !StoredAdmin(users, s.userId.value) then (AdminAccessRequired, coll)
    else
      match RequestUpdates(body)
      case None => (UpdateFailed, coll)
      case Some(u) =>
        var (res, coll') := UpdateHotelInfo(coll, u, now);
        assert FindHotelInfo(coll).Some? ==>
                 coll'[FindHotelInfo(coll).value] == coll[FindHotelInfo(coll).value] + u["updated_at" := JTime(now)];
        (Updated(res), coll')
  }

  /** The two versions write the same; they differ only in the reply. */
  lemma AsWrittenWritesLikeCorrected(s: Session, users: seq<User>, coll: seq<Doc>, body: Option<Json>, now: int)
    ensures AdminUpdateHotelInfoAsWritten(s, users, coll, body, now).1 == AdminUpdateHotelInfo(s, users, coll, body, now).1
    ensures AdminUpdateHotelInfo(s, users, coll, body, now).0 != AdminUpdateHotelInfoAsWritten(s, users, coll, body, now).0
            <==> s.userId.Some? && StoredAdmin(users, s.userId.value)
  {
  }

  /** After an accepted update the admin page shows the posted editable
      fields and the new timestamp over the old document. */
  lemma UpdateShowsOnAdminPage(s: Session, users: seq<User>, coll: seq<Doc>, body: Option<Json>, now: int, later: int,
                               i: nat, u: Doc)
    requires s.userId.Some? && StoredAdmin(users, s.userId.value)
    requires FindHotelInfo(coll) == Some(i) && RequestUpdates(body) == Some(u)
    ensures i < |coll|
    ensures var c := AdminUpdateHotelInfo(s, users, coll, body, now).1;
            AdminHotelInfo(s, users, c, later).0 == Proceed(coll[i] + u["updated_at" := JTime(now)])
  {
    AdminWriteIsUpdate(s, users, coll, body, now, u);
    UpdateThenGet(coll, u, now, later);
  }

  /** An admin's accepted request writes what the model's update writes. */
  lemma AdminWriteIsUpdate(s: Session, users: seq<User>, coll: seq<Doc>, body: Option<Json>, now: int, u: Doc)
    requires s.userId.Some? && StoredAdmin(users, s.userId.value)
    requires RequestUpdates(body) == Some(u)
    ensures AdminUpdateHotelInfo(s, users, coll, body, now).1 == UpdateHotelInfo(coll, u, now).1
  {
    AsWrittenWritesLikeCorrected(s, users, coll, body, now);
  }

  /** The crash on a concrete request: the stored admin account 0, a hotel
      document with only its type and name, and a body renaming the hotel. */
  const RenameSession: Session := Session(Some(0), Some("Admin"), Some(AdminRole))
  const RenameUsers: seq<User> := [User(0, "Admin", "admin@hotel.com", "h", AdminRole, 0)]
  const RenameStore: seq<Doc> := [map["type" := JStr(HotelInfoType), "name" := JStr(DefaultName)]]
  const RenameBody: Option<Json> := Some(JObj(map["name" := JStr("Harbour Hotel")]))

  /** The request's only update is the new name. */
  lemma RenameUpdates()
    ensures RequestUpdates(RenameBody) == Some(map["name" := JStr("Harbour Hotel")])
  {
    var u := map["name" := JStr("Harbour Hotel")];
    assert RenameBody.value.fields == u;
    assert EditableFields[0] == "name";
    var v := RequestUpdates(RenameBody).value;
    assert "name" in v && v["name"] == JStr("Harbour Hotel");
    assert forall k :: k in v ==> k == "name";
    assert v == u;
  }

  /** The written code stores the new name and answers with a server
      error; the intended code answers with success. */
  lemma AdminRenameCrashes(now: int)
    ensures AdminUpdateHotelInfoAsWritten(RenameSession, RenameUsers, RenameStore, RenameBody, now).0 == ServerFailure
    ensures var d := GetHotelInfo(AdminUpdateHotelInfoAsWritten(RenameSession, RenameUsers, RenameStore, RenameBody, now).1, now).0;
            "name" in d && d["name"] == JStr("Harbour Hotel")
    ensures AdminUpdateHotelInfo(RenameSession, RenameUsers, RenameStore, RenameBody, now).0
            == Updated(UpdateResult(true, UpdatedMessage))
  {
    var u := map["name" := JStr("Harbour Hotel")];
    RenameReachesUpdate(now);
    UpdateThenGet(RenameStore, u, now, now);
    UpdateAtNewInstantSucceeds(RenameStore, u, now);
  }

  /** The rename request passes the admin check and reaches the update of
      the one hotel document with the new name. */
  lemma RenameReachesUpdate(now: int)
    ensures FindHotelInfo(RenameStore) == Some(0)
    ensures var u := map["name" := JStr("Harbour Hotel")];
            && AdminUpdateHotelInfoAsWritten(RenameSession, RenameUsers, RenameStore, RenameBody, now)
               == (ServerFailure, UpdateHotelInfo(RenameStore, u, now).1)
            && AdminUpdateHotelInfo(RenameSession, RenameUsers, RenameStore, RenameBody, now)
               == (Updated(UpdateHotelInfo(RenameStore, u, now).0), UpdateHotelInfo(RenameStore, u, now).1)
  {
    assert StoredAdmin(RenameUsers, 0) by {
      assert GetUserById(RenameUsers, Valid(0)) == Some(RenameUsers[0]);
    }
    assert IsHotelInfo(RenameStore[0]);
    FindHotelInfoAt(RenameStore, 0);
    RenameUpdates();
  }

  datatype PlaceReply = PlaceFound(place: Json) | PlaceNotFound

  /** `/api/place-details/<place_id>`: the details when the lookup gives a
      truthy value. */
  function ApiPlaceDetails(placeId: string, key: string, fetch: DetailsRequest -> HttpReply): (r: PlaceReply)
    ensures r.PlaceFound? <==> PlaceDetails(placeId, key, fetch).Some? && JsonTruthy(PlaceDetails(placeId, key, fetch).value)
    ensures r.PlaceFound? ==> placeId != "" && KeyConfigured(key) && JsonTruthy(r.place)
    ensures r.PlaceFound? ==> r.place == PlaceDetails(placeId, key, fetch).value
  {
    match PlaceDetails(placeId, key, fetch)
    case Some(d) => if JsonTruthy(d) then PlaceFound(d) else PlaceNotFound
    case None => PlaceNotFound
  }

  /** A successful reply that carries no `result` is reported as a place
      that was not found. */
  lemma DetailsWithoutResultNotFound(placeId: string, key: string, fetch: DetailsRequest -> HttpReply)
    requires placeId != "" && KeyConfigured(key)
    requires fetch(DetailsRequest(placeId, DetailFields, key)) == Reply(200, Some(JObj(map[])))
    ensures ApiPlaceDetails(placeId, key, fetch) == PlaceNotFound
  {
  }

  datatype PhotoReply = PhotoFound(url: string) | PhotoMissing

  /** `/api/place-photo/<photo_reference>`: the width defaults to 400. */
  function ApiPlacePhoto(reference: string, width: FormValue<int>, key: string): (r: PhotoReply)
    ensures r.PhotoFound? <==> reference != "" && KeyConfigured(key)
    ensures r.PhotoFound? ==> r.url == PlacePhotoUrl(reference, IntArg(width, 400), key).value
  {
    match PlacePhotoUrl(reference, IntArg(width, 400), key)
    case Some(u) => PhotoFound(u)
    case None => PhotoMissing
  }

  /** A width that is missing or not a number is read as 400, and the link
      carries it. */
  lemma PhotoDefaultWidth(reference: string, key: string)
    requires reference != "" && KeyConfigured(key)
    ensures ApiPlacePhoto(reference, Blank, key) == ApiPlacePhoto(reference, Invalid, key)
            == ApiPlacePhoto(reference, Value(400), key)
  {
  }
}

=== FILE: main_routes.dfy ===
/** routes/main.py: the client dashboard with its three most recent bookings
    and the admin dashboard with room and booking statistics. */
module MainRoutes {
  import opened Common
  import opened Users
  import opened Rooms
  import opened Bookings
  import opened BookingQueries
  import opened Helpers

  /** At most the first three of the user's bookings, newest first; none
      when the listing fails. */
  function RecentBookings(store: Store, rooms: Rooms, userId: Id): (r: seq<BookingView>)
    ensures |r| <= 3
    ensures forall v :: v in r ==> v.booking in store && v.booking.userId == userId
    ensures GetUserBookings(store, rooms, Valid(userId)).Success? ==>
              var vs := GetUserBookings(store, rooms, Valid(userId)).value;
              r <= vs && |r| == (if |vs| < 3 then |vs| else 3)
    ensures GetUserBookings(store, rooms, Valid(userId)).Failure? ==> r == []
  {
    match GetUserBookings(store, rooms, Valid(userId))
    case Success(vs) => if |vs| <= 3 then vs else vs[..3]
    case Failure(_) => []
  }

  /** The recent bookings really are the newest ones: a booking of the user
      that is left out is no newer than any shown, and when fewer than three
      are shown none is left out. */
  lemma RecentAreNewest(store: Store, rooms: Rooms, userId: Id, b: Booking)
    requires b in store && b.userId == userId && HasRoom(rooms, b.roomId)
    ensures var r := RecentBookings(store, rooms, userId);
            (forall v :: v in r ==> v.booking != b) ==>
              |r| == 3 && forall v :: v in r ==> v.booking.createdAt >= b.createdAt
  {
    var vs := GetUserBookings(store, rooms, Valid(userId)).value;
    var w :| w in vs && w.booking == b;
    var j :| 0 <= j < |vs| && vs[j] == w;
    FirstThreeAreNewest(vs, j);
  }

  /** In a newest-first listing, an entry outside the first three is no
      newer than any of them. */
  lemma FirstThreeAreNewest(vs: seq<BookingView>, j: int)
    requires CreatedDescending(vs) && 0 <= j < |vs|
    ensures var r := if |vs| <= 3 then vs else vs[..3];
            vs[j] !in r ==> |r| == 3 && forall v :: v in r ==> v.booking.createdAt >= vs[j].booking.createdAt
  {
    if j < 3 {
      var r := if |vs| <= 3 then vs else vs[..3];
      assert r[j] == vs[j];
    }
  }

  datatype DashboardPage = DashboardPage(user: Option<User>, recent: seq<BookingView>)

  /** `/dashboard`, behind the login gate. */
  function Dashboard(s: Session, users: seq<User>, store: Store, rooms: Rooms): (g: Gate<DashboardPage>)
    ensures g.ToLogin? <==> s.userId.None?
    ensures g.Proceed? ==> g.page.recent == RecentBookings(store, rooms, s.userId.value)
                           && g.page.user == GetUserById(users, Valid(s.userId.value))
  {
    LoginRequired(s, (uid: Id) => DashboardPage(GetUserById(users, Valid(uid)), RecentBookings(store, rooms, uid)))
  }

  datatype AdminPage = AdminPage(user: Option<User>, rooms: RoomCount, bookings: Stats)

  /** `/admin`, behind the admin gate: room counts and booking statistics. */
  method AdminDashboard(s: Session, users: seq<User>, rooms: Rooms, store: Store) returns (g: Gate<AdminPage>)
    ensures g.ToLogin? <==> s.userId.None?
    ensures g.ToDashboard? <==> s.userId.Some? && s.userRole != Some(AdminRole)
    ensures g.Proceed? <==> s.userId.Some? && s.userRole == Some(AdminRole)
    ensures g.Proceed? ==> && g.page.user == GetUserById(users, Valid(s.userId.value))
                           && g.page.rooms.total == |rooms| && g.page.rooms.available <= |rooms|
                           && g.page.bookings.total == |store|
                           && g.page.bookings.pending + g.page.bookings.confirmed
                              + g.page.bookings.cancelled + g.page.bookings.completed == |store|
                           && g.page.bookings.revenue == Revenue(store)
    ensures g.Proceed? ==> && g.page.rooms == GetRoomCount(rooms)
                           && g.page.bookings.pending == CountStatus(store, Pending)
                           && g.page.bookings.confirmed == CountStatus(store, Confirmed)
                           && g.page.bookings.cancelled == CountStatus(store, Cancelled)
                           && g.page.bookings.completed == CountStatus(store, Completed)
  {
    if s.userId.None? {
      return ToLogin;
    }
    if s.userRole != Some(AdminRole) {
      return ToDashboard;
    }
    var st := GetBookingStats(store);
    StatusCountsSumToTotal(store);
    g := Proceed(AdminPage(GetUserById(users, Valid(s.userId.value)), GetRoomCount(rooms), st));
  }
}

=== FILE: room_routes.dfy ===
/** routes/room.py: the admin room forms, the public catalog with its
    filters, and the room details page. Numeric form and query fields are
    given already converted: `Blank` when absent or empty, `Invalid` when
    `float`/`int` raises. */
module RoomRoutes {
  import opened Common
  import opened Text
  import opened Sorting
  import opened Rooms
  import opened Bookings
  import opened BookingQueries
  import opened Helpers

  /** `f` applied to every entry, in order. */
  function Apply<A, B>(f: A -> B, xs: seq<A>): (r: seq<B>)
    ensures |r| == |xs| && forall i :: 0 <= i < |xs| ==> r[i] == f(xs[i])
  {
    seq(|xs|, i requires 0 <= i < |xs| => f(xs[i]))
  }

  /** Applying entry by entry distributes over concatenation. */
  lemma ApplyConcat<A, B>(f: A -> B, xs: seq<A>, ys: seq<A>)
    ensures Apply(f, xs + ys) == Apply(f, xs) + Apply(f, ys)
  {
    var l, r := Apply(f, xs + ys), Apply(f, xs) + Apply(f, ys);
    forall i | 0 <= i < |l| ensures l[i] == r[i] {
      if i < |xs| {
        assert (xs + ys)[i] == xs[i];
      } else {
        assert (xs + ys)[i] == ys[i - |xs|];
      }
    }
  }

  /** Every entry stripped, in order. */
  function StripAll(xs: seq<string>): (r: seq<string>)
    ensures |r| == |xs|
    ensures forall i :: 0 <= i < |xs| ==> r[i] == Strip(xs[i])
  {
    Apply(Strip, xs)
  }

  predicate NonEmpty(a: string) { |a| > 0 }

  /** `[a.strip() for a in amenities if a.strip()]`: the stripped entries
      that are not blank, in order (`CleanAmenitiesSingle` and
      `CleanAmenitiesConcat` together determine it). */
  function CleanAmenities(xs: seq<string>): (r: seq<string>)
    ensures |r| <= |xs|
    ensures forall a :: a in r ==> |a| > 0 && Stripped(a)
  {
    Filter(StripAll(xs), NonEmpty)
  }

  lemma StripAllConcat(xs: seq<string>, ys: seq<string>)
    ensures StripAll(xs + ys) == StripAll(xs) + StripAll(ys)
  {
    ApplyConcat(Strip, xs, ys);
  }

  /** A single entry is kept stripped when it is not blank and dropped
      otherwise; with `CleanAmenitiesConcat` this fixes the whole list. */
  lemma CleanAmenitiesSingle(x: string)
    ensures CleanAmenities([x]) == if Strip(x) != "" then [Strip(x)] else []
  {
    assert StripAll([x]) == [Strip(x)];
    assert StripAll([x])[1..] == [];
  }

  /** The clean-up works entry by entry: cleaning a concatenation is the
      concatenation of the cleaned parts, so the admin's order is kept. */
  lemma CleanAmenitiesConcat(xs: seq<string>, ys: seq<string>)
    ensures CleanAmenities(xs + ys) == CleanAmenities(xs) + CleanAmenities(ys)
  {
    StripAllConcat(xs, ys);
    FilterConcat(StripAll(xs), StripAll(ys), NonEmpty);
  }

  /** The fields of the add and edit forms. */
  datatype RoomForm = RoomForm(name: Option<string>, description: Option<string>, price: FormValue<real>,
                               capacity: FormValue<int>, amenities: seq<string>, imageUrl: Option<string>)

  /** The checks both forms make, in order: all required fields present,
      then price and capacity numeric and positive. */
  datatype FormCheck = MissingRequired | InvalidPriceOrCapacity | FormOk

  function CheckForm(f: RoomForm): (c: FormCheck)
    ensures c == FormOk <==> && Truthy(f.name) && Truthy(f.description)
                             && f.price.Value? && f.price.v > 0.0 && f.capacity.Value? && f.capacity.v > 0
    ensures c == MissingRequired <==> !Truthy(f.name) || !Truthy(f.description) || f.price.Blank? || f.capacity.Blank?
  {
    if !Truthy(f.name) || !Truthy(f.description) || f.price.Blank? || f.capacity.Blank? then MissingRequired
    else if f.price.Invalid? || f.capacity.Invalid? || f.price.v <= 0.0 || f.capacity.v <= 0 then InvalidPriceOrCapacity
    else FormOk
  }

  datatype AddReply = AddRejected(why: FormCheck) | Added(id: Id)

  /** `add_room` (POST, admin): only a form passing the checks creates a
      room, with the cleaned amenity list. */
  function AddRoom(s: Session, rooms: Rooms, f: RoomForm, now: int): (g: Gate<(AddReply, Rooms)>)
    ensures g.Proceed? <==> s.userId.Some? && s.userRole == Some(Users.AdminRole)
    ensures g.Proceed? ==> (g.page.0.Added? <==> CheckForm(f) == FormOk)
    ensures g.Proceed? && g.page.0.AddRejected? ==> g.page.1 == rooms && g.page.0.why == CheckForm(f)
    ensures g.Proceed? && g.page.0.Added? ==>
              && CheckForm(f) == FormOk
              && |g.page.1| == |rooms| + 1 && g.page.1[..|rooms|] == rooms
              && var n := g.page.1[|rooms|];
                 && n.id == g.page.0.id && !HasRoom(rooms, n.id) && n.available
                 && n.price == f.price.v && n.capacity == Some(f.capacity.v)
                 && n.amenities == CleanAmenities(f.amenities)
  {
    AdminRequired(s, (uid: Id) =>
      match CheckForm(f)
      case FormOk =>
        var c := CreateRoom(rooms, f.name.value, f.description.value, f.price.v, f.capacity.v,
                            Some(CleanAmenities(f.amenities)), f.imageUrl, now);
        (Added(c.0), c.1)
      case why => (AddRejected(why), rooms))
  }

  datatype EditReply = EditRejected(why: FormCheck) | Updated | UpdateFailed(error: RoomError)

  /** The `update_room` arguments the edit form sends: every field, the
      cleaned amenities, and availability from the check box. */
  function EditPatch(f: RoomForm, availableBox: Option<string>): (p: RoomPatch)
    requires CheckForm(f) == FormOk
    ensures p.available == Some(availableBox == Some("on"))
    ensures p.amenities == Some(CleanAmenities(f.amenities)) && p.imageUrl == f.imageUrl
  {
    RoomPatch(Some(f.name.value), Some(f.description.value), Some(f.price.v), Some(f.capacity.v),
              Some(CleanAmenities(f.amenities)), f.imageUrl, Some(availableBox == Some("on")))
  }

  /** `edit_room` (POST, admin): the room is available exactly when the box
      was ticked; an unticked box makes it unavailable. */
  function EditRoom(s: Session, rooms: Rooms, roomId: IdArg, f: RoomForm, availableBox: Option<string>, now: int)
    : (g: Gate<(EditReply, Rooms)>)
    ensures g.Proceed? <==> s.userId.Some? && s.userRole == Some(Users.AdminRole)
    ensures g.Proceed? ==>
              (g.page.0.Updated? <==> (&& CheckForm(f) == FormOk && roomId.Valid? && HasRoom(rooms, roomId.id)
                                       && UpdateRoom(rooms, roomId, EditPatch(f, availableBox), now).0.Success?))
    ensures g.Proceed? && g.page.0.EditRejected? ==> g.page.0.why == CheckForm(f)
    ensures g.Proceed? && !g.page.0.Updated? ==> g.page.1 == rooms
    ensures g.Proceed? && g.page.0.Updated? ==>
              && CheckForm(f) == FormOk && roomId.Valid?
              && exists i :: && 0 <= i < |rooms| && rooms[i].id == roomId.id
                             && g.page.1 == rooms[i := ApplyPatch(rooms[i], EditPatch(f, availableBox), now)]
                             && g.page.1[i].available == (availableBox == Some("on"))
  {
    AdminRequired(s, (uid: Id) =>
      match CheckForm(f)
      case FormOk =>
        var u := UpdateRoom(rooms, roomId, EditPatch(f, availableBox), now);
        if u.0.Success? then (Updated, u.1) else (UpdateFailed(u.0.error), rooms)
      case why => (EditRejected(why), rooms))
  }

  /** `manage_rooms` (admin): every room by price, with the counts. */
  function ManageRooms(s: Session, rooms: Rooms): (g: Gate<(seq<Room>, RoomCount)>)
    ensures g.Proceed? <==> s.userId.Some? && s.userRole == Some(Users.AdminRole)
    ensures g.Proceed? ==> multiset(g.page.0) == multiset(rooms) && SortedBy(g.page.0, PriceKey)
                           && g.page.1.total == |g.page.0| && g.page.1 == GetRoomCount(rooms)
  {
    AdminRequired(s, (uid: Id) => (GetAllRooms(rooms, false), GetRoomCount(rooms)))
  }

  /** `delete_room` (admin). */
  function DeleteRoomRoute(s: Session, rooms: Rooms, roomId: IdArg): (g: Gate<(Result<(), RoomError>, Rooms)>)
    ensures g.Proceed? <==> s.userId.Some? && s.userRole == Some(Users.AdminRole)
    ensures g.Proceed? ==> (g.page.0.Success? <==> roomId.Valid? && HasRoom(rooms, roomId.id))
    ensures g.Proceed? && g.page.0.Success? ==> |g.page.1| == |rooms| - 1
  {
    AdminRequired(s, (uid: Id) => DeleteRoom(rooms, roomId))
  }

  /** `create_sample_rooms` (admin, POST): behind the admin gate, the five
      catalog rooms are added after the stored ones and the admin is sent
      back to the room list with the count created. */
  method CreateSamplesRoute(s: Session, rooms: Rooms, now: int) returns (g: Gate<(SampleResult, Rooms)>)
    ensures g.ToLogin? <==> s.userId.None?
    ensures g.ToDashboard? <==> s.userId.Some? && s.userRole != Some(Users.AdminRole)
    ensures g.Proceed? <==> s.userId.Some? && s.userRole == Some(Users.AdminRole)
    ensures g.Proceed? ==>
              && g.page.0.created == |SampleRooms|
              && |g.page.1| == |rooms| + |SampleRooms| && g.page.1[..|rooms|] == rooms
              && forall j :: |rooms| <= j < |g.page.1| ==>
                   g.page.1[j].available && g.page.1[j].name == SampleRooms[j - |rooms|].name
  {
    if s.userId.None? {
      return ToLogin;
    }
    if s.userRole != Some(Users.AdminRole) {
      return ToDashboard;
    }
    var r, after := CreateSampleRooms(rooms, now);
    g := Proceed((r, after));
  }

  /** Deleting a room does not touch its bookings, but they drop out of the
      booking listings, whose room lookup no longer finds it. */
  lemma DeletedRoomHidesBookings(store: Store, rooms: Rooms, roomId: Id, userId: Id)
    requires UniqueIds(rooms)
    ensures var after := DeleteRoom(rooms, Valid(roomId)).1;
            forall v :: v in GetUserBookings(store, after, Valid(userId)).value ==> v.booking.roomId != roomId
  {
    DeleteRoomRemovesId(rooms, roomId);
  }

  /** `room_stats_api` (admin, JSON). */
  function RoomStatsApi(s: Session, rooms: Rooms): (g: Gate<RoomCount>)
    ensures g.Proceed? <==> s.userId.Some? && s.userRole == Some(Users.AdminRole)
    ensures g.Proceed? ==> g.page.total == |rooms| && g.page.available <= g.page.total
    ensures g.Proceed? ==> g.page == GetRoomCount(rooms) && g.page.available == |Filter(rooms, IsAvailable)|
  {
    AdminRequired(s, (uid: Id) => GetRoomCount(rooms))
  }

  /** The query-string filters; a number that does not convert is `None`
      already (`request.args.get(..., type=...)`). */
  datatype Filters = Filters(minPrice: Option<real>, maxPrice: Option<real>, minCapacity: Option<int>,
                             amenities: seq<string>)

  /** `any([min_price, max_price, min_capacity, amenities])`: a zero bound
      counts as no filter. */
  predicate AnyFilter(f: Filters) {
    || (f.minPrice.Some? && f.minPrice.value != 0.0)
    || (f.maxPrice.Some? && f.maxPrice.value != 0.0)
    || (f.minCapacity.Some? && f.minCapacity.value != 0)
    || |f.amenities| > 0
  }

  /** All amenities of a list of rooms, in order, with repeats. */
  function AmenitiesOf(rs: seq<Room>): (r: seq<string>)
    ensures forall a :: a in r <==> exists x :: x in rs && a in x.amenities
  {
    if |rs| == 0 then []
    else
      var rest := AmenitiesOf(rs[1..]);
      assert forall x :: x in rs <==> x == rs[0] || x in rs[1..];
      rs[0].amenities + rest
  }

  datatype BrowsePage = BrowsePage(rooms: seq<Room>, allAmenities: seq<string>)

  /** `browse_rooms`: the search when some filter is truthy, else every
      available room; the filter list offers the sorted distinct amenities
      of the available rooms. */
  function BrowseRooms(rooms: Rooms, f: Filters): (p: BrowsePage)
    ensures SortedBy(p.rooms, PriceKey)
    ensures forall x :: x in p.rooms ==> x in rooms && x.available
    ensures !AnyFilter(f) ==> forall x :: x in p.rooms <==> x in rooms && x.available
    ensures !AnyFilter(f) ==> multiset(p.rooms) == multiset(Filter(rooms, IsAvailable))
    ensures AnyFilter(f) ==>
              multiset(p.rooms)
              == multiset(Filter(rooms, (x: Room) => MatchesSearch(x, f.minPrice, f.maxPrice, f.minCapacity, f.amenities)))
    ensures AnyFilter(f) ==> forall x :: x in p.rooms <==>
              x in rooms && MatchesSearch(x, f.minPrice, f.maxPrice, f.minCapacity, f.amenities)
    ensures StrictlySorted(p.allAmenities)
    ensures forall a :: a in p.allAmenities <==> exists x :: x in rooms && x.available && a in x.amenities
  {
    var listed := if AnyFilter(f) then SearchRooms(rooms, f.minPrice, f.maxPrice, f.minCapacity, f.amenities)
                  else GetAllRooms(rooms, true);
    var avail := GetAllRooms(rooms, true);
    var all := SortedDistinct(AmenitiesOf(avail));
    BrowsePage(listed, all)
  }

  /** A lone `max_price=0` is falsy, so it filters nothing: an available room
      at 50 is listed although it costs more than the bound. */
  lemma ZeroMaxPriceIgnored(room: Room)
    requires room.available && room.price == 50.0
    ensures room in BrowseRooms([room], Filters(None, Some(0.0), None, [])).rooms
    ensures room !in SearchRooms([room], None, Some(0.0), None, [])
  {
  }

  datatype DetailsReply = BackToCatalog | ShowRoom(room: Room)

  /** `room_details`: only an existing, available room is shown. */
  function RoomDetails(rooms: Rooms, roomId: IdArg): (r: DetailsReply)
    ensures r.ShowRoom? <==> roomId.Valid? && HasRoom(rooms, roomId.id) && GetRoomById(rooms, roomId).value.available
    ensures r.ShowRoom? ==> r.room in rooms && r.room.id == roomId.id && r.room.available
  {
    match GetRoomById(rooms, roomId)
    case None => BackToCatalog
    case Some(room) => if room.available then ShowRoom(room) else BackToCatalog
  }

  /** A room that is listed in the catalog has a details page. */
  lemma ListedRoomHasDetails(rooms: Rooms, f: Filters, x: Room)
    requires UniqueIds(rooms)
    requires x in BrowseRooms(rooms, f).rooms
    ensures RoomDetails(rooms, Valid(x.id)) == ShowRoom(x)
  {
    assert x in rooms && x.available;
    GetStoredRoom(rooms, x);
  }
}

=== FILE: rooms.dfy ===
/** The room catalog of models/room.py. The `rooms` collection is a sequence
    in insertion order; every query result is ordered by price ascending. */
module Rooms {
  import opened Common
  import opened Sorting

  /** `capacity` is optional because a stored document may lack the field;
      `updatedAt` is absent until the first update. */
  datatype Room = Room(id: Id, name: string, description: string, price: real, capacity: Option<int>,
                       amenities: seq<string>, imageUrl: string, available: bool,
                       createdAt: int, updatedAt: Option<int>)

  type Rooms = seq<Room>

  datatype RoomError = NotFound | NoChange

  function RoomId(r: Room): Id { r.id }
  function PriceKey(r: Room): real { r.price }

  predicate UniqueIds(rooms: Rooms) {
    forall i, j :: 0 <= i < j < |rooms| ==> rooms[i].id != rooms[j].id
  }

  predicate HasRoom(rooms: Rooms, id: Id) {
    exists i :: 0 <= i < |rooms| && rooms[i].id == id
  }

  /** Index of the first room with the given id. */
  function FindRoom(rooms: Rooms, id: Id): (r: Option<nat>)
    ensures r.None? <==> !HasRoom(rooms, id)
    ensures r.Some? ==> r.value < |rooms| && rooms[r.value].id == id
    ensures r.Some? ==> forall i :: 0 <= i < r.value ==> rooms[i].id != id
  {
    if |rooms| == 0 then None
    else if rooms[0].id == id then Some(0)
    else
      match FindRoom(rooms[1..], id)
      case None =>
        assert forall i :: 1 <= i < |rooms| ==> rooms[i] == rooms[1..][i - 1];
        None
      case Some(k) => Some(k + 1)
  }

  /** `get_room_by_id`: `None` for an unknown id and for one that does not
      parse. */
  function GetRoomById(rooms: Rooms, id: IdArg): (r: Option<Room>)
    ensures r.Some? <==> id.Valid? && HasRoom(rooms, id.id)
    ensures r.Some? ==> r.value in rooms && r.value.id == id.id
  {
    match id
    case Malformed => None
    case Valid(k) =>
      match FindRoom(rooms, k)
      case None => None
      case Some(i) => Some(rooms[i])
  }
  /** With unique ids, looking up a stored room's id finds that room. */
  lemma GetStoredRoom(rooms: Rooms, x: Room)
    requires UniqueIds(rooms) && x in rooms
    ensures GetRoomById(rooms, Valid(x.id)) == Some(x)
  {
    var i :| 0 <= i < |rooms| && rooms[i] == x;
    var j := FindRoom(rooms, x.id).value;
    assert rooms[j].id == rooms[i].id;
  }


  /** `create_room`: a new available room; amenities default to `[]` and the
      image URL to `''` (both when absent and when empty). */
  function CreateRoom(rooms: Rooms, name: string, description: string, price: real, capacity: int,
                      amenities: Option<seq<string>>, imageUrl: Option<string>, now: int): (r: (Id, Rooms))
    ensures |r.1| == |rooms| + 1 && r.1[..|rooms|] == rooms
    ensures !HasRoom(rooms, r.0)
    ensures var n := r.1[|rooms|];
            && n.id == r.0 && n.name == name && n.description == description && n.price == price
            && n.capacity == Some(capacity) && n.available && n.createdAt == now && n.updatedAt.None?
            && (amenities.None? ==> n.amenities == []) && (amenities.Some? ==> n.amenities == amenities.value)
            && (imageUrl.None? ==> n.imageUrl == "") && (imageUrl.Some? ==> n.imageUrl == imageUrl.value)
  {
    var id := FreshId(rooms, RoomId);
    var room := Room(id, name, description, price, Some(capacity),
                     if amenities.None? then [] else amenities.value,
                     if imageUrl.None? then "" else imageUrl.value,
                     true, now, None);
    (id, rooms + [room])
  }

  /** A created room can be read back by its new id, and ids stay unique. */
  lemma CreateRoomThenGet(rooms: Rooms, name: string, description: string, price: real, capacity: int,
                          amenities: Option<seq<string>>, imageUrl: Option<string>, now: int)
    requires UniqueIds(rooms)
    ensures var r := CreateRoom(rooms, name, description, price, capacity, amenities, imageUrl, now);
            UniqueIds(r.1) && GetRoomById(r.1, Valid(r.0)) == Some(r.1[|rooms|])
  {
    var r := CreateRoom(rooms, name, description, price, capacity, amenities, imageUrl, now);
    assert forall i :: 0 <= i < |rooms| ==> r.1[i] == rooms[i];
    assert UniqueIds(r.1);
    GetStoredRoom(r.1, r.1[|rooms|]);
  }

  predicate IsAvailable(r: Room) { r.available }

  /** `get_all_rooms`: every room, or only the available ones, by price. */
  function GetAllRooms(rooms: Rooms, availableOnly: bool): (r: seq<Room>)
    ensures SortedBy(r, PriceKey)
    ensures availableOnly ==> multiset(r) == multiset(Filter(rooms, IsAvailable))
    ensures !availableOnly ==> multiset(r) == multiset(rooms)
    ensures forall x :: x in r <==> x in rooms && (availableOnly ==> x.available)
  {
    var found := if availableOnly then Filter(rooms, IsAvailable) else rooms;
    var r := SortBy(found, PriceKey);
    assert forall x :: x in r <==> x in multiset(r);
    assert forall x :: x in found <==> x in multiset(found);
    r
  }

  /** The optional arguments of `update_room`; `None` leaves a field as it is. */
  datatype RoomPatch = RoomPatch(name: Option<string>, description: Option<string>, price: Option<real>,
                                 capacity: Option<int>, amenities: Option<seq<string>>,
                                 imageUrl: Option<string>, available: Option<bool>)

  function Pick<T>(o: Option<T>, current: T): T {
    if o.Some? then o.value else current
  }

  /** The `$set` document of `update_room`, applied to one room. */
  function ApplyPatch(room: Room, p: RoomPatch, now: int): Room {
    room.(name := Pick(p.name, room.name),
          description := Pick(p.description, room.description),
          price := Pick(p.price, room.price),
          capacity := if p.capacity.Some? then Some(p.capacity.value) else room.capacity,
          amenities := Pick(p.amenities, room.amenities),
          imageUrl := Pick(p.imageUrl, room.imageUrl),
          available := Pick(p.available, room.available),
          updatedAt := Some(now))
  }

  /** `update_room`: sets exactly the given fields and `updated_at`; succeeds
      iff the room exists and the stored document actually changed. */
  function UpdateRoom(rooms: Rooms, id: IdArg, p: RoomPatch, now: int): (r: (Result<(), RoomError>, Rooms))
    ensures r.0.Failure? ==> r.1 == rooms
    ensures (id.Malformed? || !HasRoom(rooms, id.id)) ==> r.0.Failure?
    ensures r.0.Success? ==> id.Valid? && HasRoom(rooms, id.id)
    ensures r.0.Success? ==>
              exists i :: 0 <= i < |rooms| && rooms[i].id == id.id
                && r.1 == rooms[i := ApplyPatch(rooms[i], p, now)] && r.1[i] != rooms[i]
  {
    match id
    case Malformed => (Failure(NotFound), rooms)
    case Valid(k) =>
      match FindRoom(rooms, k)
      case None => (Failure(NotFound), rooms)
      case Some(i) =>
        var updated := ApplyPatch(rooms[i], p, now);
        if updated == rooms[i] then (Failure(NoChange), rooms)
        else (Success(()), rooms[i := updated])
  }

  /** The patch frame: fields given are set, fields not given keep their
      value, identity and creation time never change, `updated_at` is now. */
  lemma ApplyPatchFrame(room: Room, p: RoomPatch, now: int)
    ensures var n := ApplyPatch(room, p, now);
            && n.id == room.id && n.createdAt == room.createdAt && n.updatedAt == Some(now)
            && (p.name.None? ==> n.name == room.name) && (p.name.Some? ==> n.name == p.name.value)
            && (p.description.None? ==> n.description == room.description)
            && (p.description.Some? ==> n.description == p.description.value)
            && (p.price.None? ==> n.price == room.price) && (p.price.Some? ==> n.price == p.price.value)
            && (p.capacity.None? ==> n.capacity == room.capacity)
            && (p.capacity.Some? ==> n.capacity == Some(p.capacity.value))
            && (p.amenities.None? ==> n.amenities == room.amenities)
            && (p.amenities.Some? ==> n.amenities == p.amenities.value)
            && (p.imageUrl.None? ==> n.imageUrl == room.imageUrl)
            && (p.imageUrl.Some? ==> n.imageUrl == p.imageUrl.value)
            && (p.available.None? ==> n.available == room.available)
            && (p.available.Some? ==> n.available == p.available.value)
  {
  }

  /** Removes the first room with the given id. */
  function RemoveFirst(rooms: Rooms, i: nat): (r: Rooms)
    requires i < |rooms|
    ensures |r| == |rooms| - 1
  {
    rooms[..i] + rooms[i + 1..]
  }

  /** `delete_room`: succeeds iff a room with that id existed; the record is
      removed and the others keep their order. */
  function DeleteRoom(rooms: Rooms, id: IdArg): (r: (Result<(), RoomError>, Rooms))
    ensures r.0.Success? <==> id.Valid? && HasRoom(rooms, id.id)
    ensures r.0.Failure? ==> r.1 == rooms
    ensures r.0.Success? ==> |r.1| == |rooms| - 1
    ensures r.0.Success? ==> forall x :: x in rooms && x.id != id.id ==> x in r.1
  {
    match id
    case Malformed => (Failure(NotFound), rooms)
    case Valid(k) =>
      match FindRoom(rooms, k)
      case None => (Failure(NotFound), rooms)
      case Some(i) =>
        var r := RemoveFirst(rooms, i);
        assert forall j :: 0 <= j < i ==> r[j] == rooms[j];
        assert forall j :: i < j < |rooms| ==> r[j - 1] == rooms[j];
        (Success(()), r)
  }

  /** With unique ids, after a delete no room with that id is left. */
  lemma DeleteRoomRemovesId(rooms: Rooms, id: Id)
    requires UniqueIds(rooms)
    ensures !HasRoom(DeleteRoom(rooms, Valid(id)).1, id)
    ensures UniqueIds(DeleteRoom(rooms, Valid(id)).1)
  {
    var r := DeleteRoom(rooms, Valid(id));
    match FindRoom(rooms, id)
    case None =>
    case Some(i) =>
      assert r.1 == rooms[..i] + rooms[i + 1..];
      forall j | 0 <= j < |r.1| ensures r.1[j].id != id {
        if j < i { assert r.1[j] == rooms[j]; } else { assert r.1[j] == rooms[j + 1]; }
      }
  }

  /** The filter document of `search_rooms`: an absent bound or an empty
      amenity list imposes nothing; a room matches the amenity list when it
      has at least one of them. */
  predicate MatchesSearch(room: Room, minPrice: Option<real>, maxPrice: Option<real>,
                          minCapacity: Option<int>, amenities: seq<string>) {
    && room.available
    && (minPrice.Some? ==> room.price >= minPrice.value)
    && (maxPrice.Some? ==> room.price <= maxPrice.value)
    && (minCapacity.Some? ==> room.capacity.Some? && room.capacity.value >= minCapacity.value)
    && (|amenities| > 0 ==> exists a :: a in room.amenities && a in amenities)
  }

  /** `search_rooms`: the available rooms matching every given filter,
      ordered by price. */
  function SearchRooms(rooms: Rooms, minPrice: Option<real>, maxPrice: Option<real>,
                       minCapacity: Option<int>, amenities: seq<string>): (r: seq<Room>)
    ensures SortedBy(r, PriceKey)
    ensures forall x :: x in r <==> x in rooms && MatchesSearch(x, minPrice, maxPrice, minCapacity, amenities)
    ensures multiset(r) == multiset(Filter(rooms, (x: Room) => MatchesSearch(x, minPrice, maxPrice, minCapacity, amenities)))
  {
    var found := Filter(rooms, (x: Room) => MatchesSearch(x, minPrice, maxPrice, minCapacity, amenities));
    var r := SortBy(found, PriceKey);
    assert forall x :: x in r <==> x in multiset(r);
    assert forall x :: x in found <==> x in multiset(found);
    r
  }

  /** Each search result meets every bound it was given. */
  lemma SearchRoomsResultsMatch(rooms: Rooms, minPrice: Option<real>, maxPrice: Option<real>,
                                minCapacity: Option<int>, amenities: seq<string>, x: Room)
    requires x in SearchRooms(rooms, minPrice, maxPrice, minCapacity, amenities)
    ensures x.available
    ensures minPrice.Some? ==> minPrice.value <= x.price
    ensures maxPrice.Some? ==> x.price <= maxPrice.value
    ensures minCapacity.Some? ==> x.capacity.Some? && x.capacity.value >= minCapacity.value
    ensures |amenities| > 0 ==> exists a :: a in x.amenities && a in amenities
  {
  }

  /** With no filter at all, a search lists exactly the available rooms. */
  lemma SearchWithoutFilters(rooms: Rooms)
    ensures forall x :: x in SearchRooms(rooms, None, None, None, []) <==> x in GetAllRooms(rooms, true)
  {
  }

  function CountAvailable(rooms: Rooms): (n: nat)
    ensures n <= |rooms|
  {
    if |rooms| == 0 then 0
    else (if rooms[0].available then 1 else 0) + CountAvailable(rooms[1..])
  }

  datatype RoomCount = RoomCount(total: nat, available: nat)

  /** `get_room_count`: available rooms never outnumber all rooms. */
  function GetRoomCount(rooms: Rooms): (r: RoomCount)
    ensures r.total == |rooms|
    ensures r.available <= r.total
    ensures r.available == |Filter(rooms, IsAvailable)|
  {
    CountAvailableIsFilter(rooms);
    RoomCount(|rooms|, CountAvailable(rooms))
  }

  lemma {:induction false} CountAvailableIsFilter(rooms: Rooms)
    ensures CountAvailable(rooms) == |Filter(rooms, IsAvailable)|
  {
    if |rooms| > 0 {
      CountAvailableIsFilter(rooms[1..]);
    }
  }

  /** The catalog `create_sample_rooms` inserts. */
  datatype SampleRoom = SampleRoom(name: string, description: string, price: real, capacity: int,
                                   amenities: seq<string>, imageUrl: string)

  const SampleRooms: seq<SampleRoom> := [
    SampleRoom("Deluxe Single Room", "A comfortable single room with modern amenities and city view.",
               89.99, 1, ["WiFi", "TV", "Air Conditioning", "Mini Bar", "City View"],
               "https://images.unsplash.com/photo-1631049307264-da0ec9d70304?w=500"),
    SampleRoom("Premium Double Room", "Spacious double room with premium furnishing and garden view.",
               129.99, 2, ["WiFi", "TV", "Air Conditioning", "Mini Bar", "Garden View", "Balcony"],
               "https://images.unsplash.com/photo-1611892440504-42a792e24d32?w=500"),
    SampleRoom("Family Suite", "Large family suite with separate bedroom and living area.",
               199.99, 4, ["WiFi", "TV", "Air Conditioning", "Kitchen", "Living Area", "Ocean View"],
               "https://images.unsplash.com/photo-1590490360182-c33d57733427?w=500"),
    SampleRoom("Executive Business Room", "Perfect for business travelers with work desk and meeting area.",
               159.99, 2, ["WiFi", "TV", "Air Conditioning", "Work Desk", "Business Center Access"],
               "https://images.unsplash.com/photo-1566665797739-1674de7a421a?w=500"),
    SampleRoom("Luxury Penthouse", "Ultimate luxury with panoramic views and premium services.",
               399.99, 6, ["WiFi", "TV", "Air Conditioning", "Jacuzzi", "Panoramic View", "Butler Service", "Private Terrace"],
               "https://images.unsplash.com/photo-1582719478250-c89cae4dc85b?w=500")
  ]

  datatype SampleResult = SampleResult(created: nat, total: nat)

  /** `create_sample_rooms`: calls `create_room` once per catalog entry and
      counts the successes; in this model an insert always succeeds. */
  method CreateSampleRooms(rooms: Rooms, now: int) returns (r: SampleResult, after: Rooms)
    ensures r.created <= r.total && r.total == |SampleRooms| == 5
    ensures r.created == r.total
    ensures |after| == |rooms| + r.created && after[..|rooms|] == rooms
    ensures forall j :: |rooms| <= j < |after| ==> after[j].available && after[j].name == SampleRooms[j - |rooms|].name
  {
    var created := 0;
    after := rooms;
    var k := 0;
    while k < |SampleRooms|
      invariant 0 <= k <= |SampleRooms| && created == k
      invariant |after| == |rooms| + k && after[..|rooms|] == rooms
      invariant forall j :: |rooms| <= j < |after| ==> after[j].available && after[j].name == SampleRooms[j - |rooms|].name
    {
      var s := SampleRooms[k];
      var c := CreateRoom(after, s.name, s.description, s.price, s.capacity, Some(s.amenities), Some(s.imageUrl), now);
      assert c.1[..|rooms|] == c.1[..|after|][..|rooms|];
      after := c.1;
      created := created + 1;
      k := k + 1;
    }
    r := SampleResult(created, |SampleRooms|);
  }
}

=== FILE: sorting.dfy ===
/** Filtering and ordering of query results: the `find(query)` part of a
    query and its `.sort(key, 1)` (stable insertion sort by a key). */
module Sorting {

  /** Keeps the elements satisfying `p`, in their original order. */
  function Filter<T(!new)>(s: seq<T>, p: T -> bool): (r: seq<T>)
    ensures |r| <= |s|
    ensures forall x :: x in r <==> x in s && p(x)
    ensures multiset(r) <= multiset(s)
  {
    if |s| == 0 then []
    else
      var rest := Filter(s[1..], p);
      assert s == [s[0]] + s[1..];
      if p(s[0]) then [s[0]] + rest else rest
  }

  /** Filtering distributes over concatenation, so it keeps relative order. */
  lemma {:induction false} FilterConcat<T(!new)>(a: seq<T>, b: seq<T>, p: T -> bool)
    ensures Filter(a + b, p) == Filter(a, p) + Filter(b, p)
  {
    if |a| > 0 {
      assert (a + b)[1..] == a[1..] + b;
      FilterConcat(a[1..], b, p);
    } else {
      assert a + b == b;
    }
  }

  predicate SortedBy<T>(s: seq<T>, key: T -> real) {
    forall i, j :: 0 <= i < j < |s| ==> key(s[i]) <= key(s[j])
  }

  /** Inserts `x` before the first element with a key not smaller than its own. */
  function Insert<T>(x: T, s: seq<T>, key: T -> real): (r: seq<T>)
    ensures |r| == |s| + 1
    ensures multiset(r) == multiset(s) + multiset{x}
  {
    if |s| == 0 || key(x) <= key(s[0]) then [x] + s
    else
      assert s == [s[0]] + s[1..];
      [s[0]] + Insert(x, s[1..], key)
  }

  /** A lower bound on the keys of `x` and of `s` bounds every key after
      the insertion. */
  lemma {:induction false} InsertLowerBound<T>(x: T, s: seq<T>, key: T -> real, m: real)
    requires m <= key(x) && forall i :: 0 <= i < |s| ==> m <= key(s[i])
    ensures forall i :: 0 <= i < |Insert(x, s, key)| ==> m <= key(Insert(x, s, key)[i])
  {
    var r := Insert(x, s, key);
    if |s| > 0 && key(s[0]) < key(x) {
      var rest := Insert(x, s[1..], key);
      InsertLowerBound(x, s[1..], key, m);
      assert r == [s[0]] + rest;
      forall i | 0 <= i < |r| ensures m <= key(r[i]) {
        if i > 0 {
          assert r[i] == rest[i - 1];
        }
      }
    } else {
      assert r == [x] + s;
      assert forall i :: 1 <= i < |r| ==> r[i] == s[i - 1];
    }
  }

  /** Inserting into a sorted sequence keeps it sorted. */
  lemma {:induction false} InsertSorted<T>(x: T, s: seq<T>, key: T -> real)
    requires SortedBy(s, key)
    ensures SortedBy(Insert(x, s, key), key)
  {
    var r := Insert(x, s, key);
    if |s| > 0 && key(s[0]) < key(x) {
      var rest := Insert(x, s[1..], key);
      InsertSorted(x, s[1..], key);
      InsertLowerBound(x, s[1..], key, key(s[0]));
      assert r == [s[0]] + rest;
      forall i, j | 0 <= i < j < |r| ensures key(r[i]) <= key(r[j]) {
        assert r[j] == rest[j - 1];
        if i > 0 {
          assert r[i] == rest[i - 1];
        }
      }
    } else {
      assert r == [x] + s;
      assert forall i :: 1 <= i < |r| ==> r[i] == s[i - 1];
    }
  }

  /** `sort(key, 1)`: a permutation of `s` in non-decreasing key order. */
  function SortBy<T>(s: seq<T>, key: T -> real): (r: seq<T>)
    ensures SortedBy(r, key)
    ensures multiset(r) == multiset(s)
    ensures |r| == |s|
  {
    if |s| == 0 then []
    else
      assert s == [s[0]] + s[1..];
      InsertSorted(s[0], SortBy(s[1..], key), key);
      Insert(s[0], SortBy(s[1..], key), key)
  }
}

=== FILE: text.dfy ===
/** The Python string operations the application relies on: `str.strip`,
    `str.lower`, `str.replace` of one character, `str.title`, decimal
    formatting of an `int`, and ordering of strings by code point. */
module Text {

  /** Python's `str.isspace`, as `str.strip()` uses it. */
  predicate IsSpace(c: char) {
    var n := c as int;
    (9 <= n <= 13) || (28 <= n <= 32) || n == 133 || n == 160 || n == 5760
    || (8192 <= n <= 8202) || n == 8232 || n == 8233 || n == 8239 || n == 8287 || n == 12288
  }

  /** A string with no leading or trailing whitespace. */
  predicate Stripped(s: string) {
    |s| == 0 || (!IsSpace(s[0]) && !IsSpace(s[|s| - 1]))
  }

  function TrimLeft(s: string): (r: string)
    ensures |r| <= |s| && r == s[|s| - |r|..]
    ensures |r| == 0 || !IsSpace(r[0])
    ensures forall i :: 0 <= i < |s| - |r| ==> IsSpace(s[i])
  {
    if |s| > 0 && IsSpace(s[0]) then TrimLeft(s[1..]) else s
  }

  function TrimRight(s: string): (r: string)
    ensures |r| <= |s| && r == s[..|r|]
    ensures |r| == 0 || !IsSpace(r[|r| - 1])
    ensures forall i :: |r| <= i < |s| ==> IsSpace(s[i])
  {
    if |s| > 0 && IsSpace(s[|s| - 1]) then TrimRight(s[..|s| - 1]) else s
  }

  /** `r` occurs in `s` starting at index `i`. */
  predicate InfixAt(r: string, s: string, i: int) {
    0 <= i <= |s| - |r| && s[i..i + |r|] == r
  }

  /** Everything of `s` before index `i` and from index `j` on is whitespace. */
  predicate SpaceAround(s: string, i: int, j: int) {
    && (forall k :: 0 <= k < i && k < |s| ==> IsSpace(s[k]))
    && (forall k :: j <= k < |s| && 0 <= k ==> IsSpace(s[k]))
  }

  /** Where `s.strip()` starts: the length of the leading whitespace. */
  function StripStart(s: string): nat {
    |s| - |TrimLeft(s)|
  }

  /** `s.strip()`: the longest infix of `s` that neither starts nor ends
      with whitespace; it starts after the leading whitespace. */
  function Strip(s: string): (r: string)
    ensures Stripped(r)
    ensures exists i :: InfixAt(r, s, i)
    ensures |r| == 0 <==> forall i :: 0 <= i < |s| ==> IsSpace(s[i])
  {
    var left := TrimLeft(s);
    var r := TrimRight(left);
    assert r == s[StripStart(s)..][..|r|];
    assert InfixAt(r, s, StripStart(s));
    if |r| == 0 then
      assert |left| == 0;
      r
    else
      assert !IsSpace(r[0]) by {
        if |left| > 0 { assert r[0] == left[0]; }
      }
      r
  }

  /** Stripping removes whitespace only: the result sits at the end of the
      leading whitespace, and everything before and after it is whitespace. */
  lemma StripRemovesOnlySpace(s: string)
    ensures InfixAt(Strip(s), s, StripStart(s))
    ensures SpaceAround(s, StripStart(s), StripStart(s) + |Strip(s)|)
  {
    TrimBothSides(s, TrimLeft(s), TrimRight(TrimLeft(s)));
  }

  lemma TrimBothSides(s: string, left: string, r: string)
    requires |left| <= |s| && left == s[|s| - |left|..]
    requires forall k :: 0 <= k < |s| - |left| ==> IsSpace(s[k])
    requires |r| <= |left| && r == left[..|r|]
    requires forall k :: |r| <= k < |left| ==> IsSpace(left[k])
    ensures InfixAt(r, s, |s| - |left|)
    ensures SpaceAround(s, |s| - |left|, |s| - |left| + |r|)
  {
    var i := |s| - |left|;
    forall j | 0 <= j < |r| ensures r[j] == s[i + j] {
      assert r[j] == left[j];
    }
    assert r == s[i..i + |r|];
    forall k | i + |r| <= k < |s| ensures IsSpace(s[k]) {
      assert s[k] == left[k - i];
    }
  }

  /** Stripping a stripped string changes nothing. */
  lemma StripStripped(s: string)
    requires Stripped(s)
    ensures Strip(s) == s
  {
    assert TrimLeft(s) == s;
    assert TrimRight(s) == s;
  }

  predicate IsAsciiUpper(c: char) { 'A' <= c <= 'Z' }
  predicate IsAsciiLower(c: char) { 'a' <= c <= 'z' }
  predicate IsAsciiLetter(c: char) { IsAsciiUpper(c) || IsAsciiLower(c) }

  function LowerChar(c: char): char {
    if IsAsciiUpper(c) then (c as int + 32) as char else c
  }

  function UpperChar(c: char): char {
    if IsAsciiLower(c) then (c as int - 32) as char else c
  }

  /** `s.lower()` on ASCII letters; every other character is kept. */
  function Lower(s: string): (r: string)
    ensures |r| == |s|
    ensures forall i :: 0 <= i < |s| ==> r[i] == LowerChar(s[i])
  {
    seq(|s|, i requires 0 <= i < |s| => LowerChar(s[i]))
  }

  predicate IsLower(s: string) {
    forall i :: 0 <= i < |s| ==> !IsAsciiUpper(s[i])
  }

  /** Lowering yields a string with no upper-case letter, and lowering such a
      string is the identity: `lower` is idempotent. */
  lemma LowerIsLower(s: string)
    ensures IsLower(Lower(s))
    ensures Lower(Lower(s)) == Lower(s)
    ensures IsLower(s) ==> Lower(s) == s
  {
  }

  /** `s.replace(a, b)` for single characters `a` and `b`. */
  function ReplaceChar(s: string, a: char, b: char): (r: string)
    ensures |r| == |s|
    ensures forall i :: 0 <= i < |s| ==> r[i] == (if s[i] == a then b else s[i])
  {
    seq(|s|, i requires 0 <= i < |s| => if s[i] == a then b else s[i])
  }

  /** After replacing `a` by `b` (with `a != b`) no `a` is left, and when `b`
      did not occur before, replacing back restores the input. */
  lemma ReplaceCharRoundTrip(s: string, a: char, b: char)
    requires a != b
    ensures a !in ReplaceChar(s, a, b)
    ensures b !in s ==> ReplaceChar(ReplaceChar(s, a, b), b, a) == s
  {
    var r := ReplaceChar(s, a, b);
    assert forall i :: 0 <= i < |r| ==> r[i] != a;
  }

  /** `s.title()` on ASCII text: a letter is upper-cased when the character
      before it is not a letter (or it is the first one), and lower-cased
      otherwise; every other character is kept. */
  function Title(s: string): (r: string)
    ensures |r| == |s|
    ensures forall i :: 0 <= i < |s| && !IsAsciiLetter(s[i]) ==> r[i] == s[i]
    ensures forall i :: 0 <= i < |s| && IsAsciiLetter(s[i]) && (i == 0 || !IsAsciiLetter(s[i - 1])) ==> r[i] == UpperChar(s[i])
    ensures forall i :: 0 < i < |s| && IsAsciiLetter(s[i]) && IsAsciiLetter(s[i - 1]) ==> r[i] == LowerChar(s[i])
  {
    seq(|s|, i requires 0 <= i < |s| =>
      if !IsAsciiLetter(s[i]) then s[i]
      else if i == 0 || !IsAsciiLetter(s[i - 1]) then UpperChar(s[i])
      else LowerChar(s[i]))
  }

  /** Title-casing only changes the case of letters. */
  lemma TitleThenLower(s: string)
    ensures Lower(Title(s)) == Lower(s)
  {
  }

  function DigitChar(d: nat): char
    requires d < 10
  {
    ('0' as int + d) as char
  }

  predicate IsDigit(c: char) { '0' <= c <= '9' }

  /** Decimal digits of a natural number, most significant first, no
      leading zeros. */
  function NatToString(n: nat): (r: string)
    ensures |r| > 0 && forall i :: 0 <= i < |r| ==> IsDigit(r[i])
    ensures |r| > 1 ==> r[0] != '0'
  {
    if n < 10 then [DigitChar(n)] else NatToString(n / 10) + [DigitChar(n % 10)]
  }

  /** The value of a string of decimal digits. */
  function DigitsValue(s: string): nat
    requires forall i :: 0 <= i < |s| ==> IsDigit(s[i])
  {
    if |s| == 0 then 0
    else
      var last := s[|s| - 1];
      assert IsDigit(last);
      DigitsValue(s[..|s| - 1]) * 10 + (last as int - '0' as int)
  }

  /** Formatting a number in decimal and reading it back gives the number. */
  lemma {:induction false} NatToStringRoundTrip(n: nat)
    ensures DigitsValue(NatToString(n)) == n
  {
    if n >= 10 {
      NatToStringRoundTrip(n / 10);
      var s := NatToString(n);
      assert s[..|s| - 1] == NatToString(n / 10);
    }
  }

  /** Python's `str(n)` (and `f"{n}"`) for an `int`. */
  function IntToString(n: int): (r: string)
    ensures n >= 0 ==> r == NatToString(n)
    ensures n < 0 ==> r == "-" + NatToString(-n)
  {
    if n >= 0 then NatToString(n) else "-" + NatToString(-n)
  }

  /** Python's `<` on strings: lexicographic by code point. */
  predicate StrLess(a: string, b: string) {
    if |a| == 0 then |b| > 0
    else if |b| == 0 then false
    else if a[0] != b[0] then a[0] < b[0]
    else StrLess(a[1..], b[1..])
  }

  lemma {:induction false} StrLessIrreflexive(a: string)
    ensures !StrLess(a, a)
  {
    if |a| > 0 { StrLessIrreflexive(a[1..]); }
  }

  lemma {:induction false} StrLessTransitive(a: string, b: string, c: string)
    requires StrLess(a, b) && StrLess(b, c)
    ensures StrLess(a, c)
  {
    if |a| > 0 && |b| > 0 && |c| > 0 && a[0] == b[0] && b[0] == c[0] {
      StrLessTransitive(a[1..], b[1..], c[1..]);
    }
  }

  lemma {:induction false} StrLessTotal(a: string, b: string)
    ensures a == b || StrLess(a, b) || StrLess(b, a)
  {
    if |a| > 0 && |b| > 0 && a[0] == b[0] {
      StrLessTotal(a[1..], b[1..]);
      if a[1..] == b[1..] {
        assert a == [a[0]] + a[1..] && b == [b[0]] + b[1..];
      }
    }
  }

  /** Strictly increasing, hence free of duplicates. */
  predicate StrictlySorted(s: seq<string>) {
    forall i, j :: 0 <= i < j < |s| ==> StrLess(s[i], s[j])
  }

  function InsertUnique(x: string, s: seq<string>): (r: seq<string>)
    requires StrictlySorted(s)
    ensures StrictlySorted(r)
    ensures forall y :: y in r <==> y in s || y == x
  {
    if |s| == 0 then [x]
    else if x == s[0] then s
    else if StrLess(x, s[0]) then
      assert forall j :: 0 < j < |s| ==> StrLess(x, s[j]) by {
        forall j | 0 < j < |s| ensures StrLess(x, s[j]) { StrLessTransitive(x, s[0], s[j]); }
      }
      [x] + s
    else
      StrLessTotal(x, s[0]);
      var tail := s[1..];
      var rest := InsertUnique(x, tail);
      assert forall y :: y in rest ==> StrLess(s[0], y) by {
        forall y | y in rest ensures StrLess(s[0], y) {
          if y != x {
            var j :| 0 <= j < |tail| && tail[j] == y;
            assert s[j + 1] == y;
          }
        }
      }
      assert s == [s[0]] + tail;
      [s[0]] + rest
  }

  /** `sorted(set(xs))`: the distinct strings of `xs` in increasing order. */
  function SortedDistinct(xs: seq<string>): (r: seq<string>)
    ensures StrictlySorted(r)
    ensures forall y :: y in r <==> y in xs
  {
    if |xs| == 0 then []
    else
      var r := InsertUnique(xs[|xs| - 1], SortedDistinct(xs[..|xs| - 1]));
      assert xs == xs[..|xs| - 1] + [xs[|xs| - 1]];
      r
  }
}

=== FILE: users.dfy ===
/** The user registry of models/user.py: email-keyed accounts whose password
    is kept only as an opaque hash. Hashing and hash checking are parameters:
    `hash` stands for `generate_password_hash` and `check` for
    `check_password_hash`. */
module Users {
  import opened Common
  import opened Text

  datatype User = User(id: Id, name: string, email: string, passwordHash: string, role: string, createdAt: int)

  /** A user as it is shown next to a booking: the password field is gone. */
  datatype PublicUser = PublicUser(id: Id, name: string, email: string, role: string, createdAt: int)

  function Public(u: User): (p: PublicUser)
    ensures p.id == u.id && p.name == u.name && p.email == u.email && p.role == u.role
  {
    PublicUser(u.id, u.name, u.email, u.role, u.createdAt)
  }

  type Users = seq<User>

  datatype UserError = EmailExists
  datatype AuthError = InvalidEmailOrPassword

  const DefaultRole: string := "client"
  const AdminRole: string := "admin"

  function UserId(u: User): Id { u.id }

  /** Index of the first user matching `p`, as `find_one` returns it. */
  function FindFirst(users: Users, p: User -> bool): (r: Option<nat>)
    ensures r.None? <==> forall i :: 0 <= i < |users| ==> !p(users[i])
    ensures r.Some? ==> r.value < |users| && p(users[r.value])
    ensures r.Some? ==> forall i :: 0 <= i < r.value ==> !p(users[i])
  {
    if |users| == 0 then None
    else if p(users[0]) then Some(0)
    else
      match FindFirst(users[1..], p)
      case None => None
      case Some(k) => Some(k + 1)
  }

  predicate HasEmail(users: Users, email: string) {
    exists i :: 0 <= i < |users| && users[i].email == email
  }

  /** No two accounts share an email. */
  predicate UniqueEmails(users: Users) {
    forall i, j :: 0 <= i < j < |users| ==> users[i].email != users[j].email
  }

  /** Every stored email is in lower case, which `create_user` ensures for
      each record it inserts. */
  predicate LowerEmails(users: Users) {
    forall i :: 0 <= i < |users| ==> IsLower(users[i].email)
  }

  function NewUser(users: Users, name: string, email: string, password: string, role: string,
                   hash: string -> string, now: int): User
  {
    User(FreshId(users, UserId), name, Lower(email), hash(password), role, now)
  }

  /** `create_user` exactly as written: the duplicate check looks up the email
      as given, while the record stores it lower-cased. */
  function CreateUserAsWritten(users: Users, name: string, email: string, password: string, role: string,
                               hash: string -> string, now: int): (r: (Result<Id, UserError>, Users))
    ensures r.0.Failure? <==> HasEmail(users, email)
    ensures r.0.Failure? ==> r.1 == users
    ensures r.0.Success? ==> r.1 == users + [NewUser(users, name, email, password, role, hash, now)]
  {
    if HasEmail(users, email) then (Failure(EmailExists), users)
    else
      var u := NewUser(users, name, email, password, role, hash, now);
      (Success(u.id), users + [u])
  }

  /** With the check as written, registering `A@x.io` next to an existing
      `a@x.io` succeeds and leaves two accounts with the same stored email. */
  lemma CreateUserAsWrittenDuplicates(hash: string -> string)
    ensures var users := [User(0, "Ann", "a@x.io", hash("secret1"), DefaultRole, 0)];
            && UniqueEmails(users) && LowerEmails(users)
            && var r := CreateUserAsWritten(users, "Ann", "A@x.io", "secret2", DefaultRole, hash, 1);
               r.0.Success? && !UniqueEmails(r.1)
  {
    var users := [User(0, "Ann", "a@x.io", hash("secret1"), DefaultRole, 0)];
    assert !HasEmail(users, "A@x.io") by {
      assert users[0].email[0] != "A@x.io"[0];
    }
    var r := CreateUserAsWritten(users, "Ann", "A@x.io", "secret2", DefaultRole, hash, 1);
    assert Lower("A@x.io") == "a@x.io";
    assert r.1[0].email == r.1[1].email;
  }

  /** `create_user` corrected: the duplicate check looks up the lower-cased
      email, the form under which it is stored. */
  function CreateUser(users: Users, name: string, email: string, password: string, role: string,
                      hash: string -> string, now: int): (r: (Result<Id, UserError>, Users))
    ensures r.0.Failure? <==> HasEmail(users, Lower(email))
    ensures r.0.Failure? ==> r.1 == users
    ensures r.0.Success? ==> r.1 == users + [NewUser(users, name, email, password, role, hash, now)]
    ensures r.0.Success? ==> forall i :: 0 <= i < |users| ==> users[i].id != r.0.value
  {
    if HasEmail(users, Lower(email)) then (Failure(EmailExists), users)
    else
      var u := NewUser(users, name, email, password, role, hash, now);
      (Success(u.id), users + [u])
  }

  /** The corrected `create_user` keeps stored emails lower-case and unique,
      whatever the case of the email it is given. */
  lemma CreateUserKeepsEmailsUnique(users: Users, name: string, email: string, password: string, role: string,
                                    hash: string -> string, now: int)
    requires UniqueEmails(users) && LowerEmails(users)
    ensures var r := CreateUser(users, name, email, password, role, hash, now);
            UniqueEmails(r.1) && LowerEmails(r.1)
  {
    LowerIsLower(email);
  }

  /** A new account stores the lower-cased email, the given role and only the
      hash of the password, in the code as written and in the corrected
      version alike. */
  lemma CreateUserStoresHash(users: Users, name: string, email: string, password: string, role: string,
                             hash: string -> string, now: int)
    ensures var r := CreateUserAsWritten(users, name, email, password, role, hash, now);
            r.0.Success? ==>
              var u := r.1[|r.1| - 1];
              u.id == r.0.value && u.email == Lower(email) && u.role == role
              && u.passwordHash == hash(password) && u.name == name
    ensures var r := CreateUser(users, name, email, password, role, hash, now);
            r.0.Success? ==>
              var u := r.1[|r.1| - 1];
              u.id == r.0.value && u.email == Lower(email) && u.role == role
              && u.passwordHash == hash(password) && u.name == name
  {
  }

  /** `authenticate_user`: the first account whose email equals the
      lower-cased input, provided the password checks against its hash.
      Unknown email and wrong password give the same error. */
  function AuthenticateUser(users: Users, email: string, password: string,
                            check: (string, string) -> bool): (r: Result<User, AuthError>)
    ensures r.Success? <==> exists i :: 0 <= i < |users| && users[i].email == Lower(email)
                                     && check(users[i].passwordHash, password)
                                     && forall j :: 0 <= j < i ==> users[j].email != Lower(email)
    ensures r.Success? ==> r.value in users && r.value.email == Lower(email)
    ensures r.Failure? ==> r.error == InvalidEmailOrPassword
  {
    match FindFirst(users, (u: User) => u.email == Lower(email))
    case None => Failure(InvalidEmailOrPassword)
    case Some(i) =>
      if check(users[i].passwordHash, password) then Success(users[i])
      else
        assert forall k :: (0 <= k < |users| && users[k].email == Lower(email)
                            && (forall j :: 0 <= j < k ==> users[j].email != Lower(email))) ==> k == i;
        Failure(InvalidEmailOrPassword)
  }

  /** With unique emails, logging in succeeds exactly for the account holding
      the lower-cased email when its hash accepts the password. */
  lemma AuthenticateUniqueAccount(users: Users, email: string, password: string,
                                  check: (string, string) -> bool, k: nat)
    requires UniqueEmails(users)
    requires k < |users| && users[k].email == Lower(email)
    ensures AuthenticateUser(users, email, password, check).Success? <==> check(users[k].passwordHash, password)
    ensures AuthenticateUser(users, email, password, check).Success? ==>
              AuthenticateUser(users, email, password, check).value == users[k]
  {
  }

  /** `get_user_by_id`: `None` for a malformed or unknown id. */
  function GetUserById(users: Users, id: IdArg): (r: Option<User>)
    ensures r.Some? <==> id.Valid? && exists i :: 0 <= i < |users| && users[i].id == id.id
    ensures r.Some? ==> r.value in users && r.value.id == id.id
  {
    match id
    case Malformed => None
    case Valid(k) =>
      match FindFirst(users, (u: User) => u.id == k)
      case None => None
      case Some(i) => Some(users[i])
  }

  predicate HasAdmin(users: Users) {
    exists i :: 0 <= i < |users| && users[i].role == AdminRole
  }

  /** `create_admin_user`: the default administrator is created only when no
      account has the admin role; otherwise nothing happens (`None`). */
  function CreateAdminUser(users: Users, hash: string -> string, now: int): (r: (Option<Result<Id, UserError>>, Users))
    ensures HasAdmin(users) ==> r == (None, users)
    ensures !HasAdmin(users) ==> r.0.Some? && (r.0.value.Success? <==> !HasEmail(users, "admin@hotel.com"))
    ensures r.0.Some? && r.0.value.Success? ==>
              r.1 == users + [NewUser(users, "Admin", "admin@hotel.com", "admin123", AdminRole, hash, now)]
    ensures r.0.Some? && r.0.value.Success? ==> HasAdmin(r.1) && |r.1| == |users| + 1
    ensures r.0.Some? && r.0.value.Failure? ==> r.1 == users
  {
    if HasAdmin(users) then (None, users)
    else
      var c := CreateUserAsWritten(users, "Admin", "admin@hotel.com", "admin123", AdminRole, hash, now);
      if c.0.Success? then
        assert c.1[|users|].role == AdminRole;
        (Some(c.0), c.1)
      else (Some(c.0), c.1)
  }

  /** Running the start-up admin creation twice changes nothing the second
      time. */
  lemma CreateAdminUserIdempotent(users: Users, hash: string -> string, now: int, later: int)
    ensures var first := CreateAdminUser(users, hash, now);
            CreateAdminUser(first.1, hash, later).1 == first.1
  {
  }
}
